=== FILE: README.md ===
# Happy hour app — a Dafny model of its screen logic

The app lists restaurants with their happy-hour deals and lunch specials,
lets diners search, filter and follow them, and lets restaurant owners edit
their deals, events, posts, pictures and details. The screens are React
Native components whose state changes are small pieces of pure logic
wrapped around backend calls. This project states that logic as pure Dafny
functions over immutable datatypes and proves what the screens promise:

- filtering the restaurant list;
- the "open now" and happy-hour time windows;
- ordering the menu images;
- the toggles that flip one flag and restore it when pressed twice;
- validating and building the payloads that are saved;
- parsing tags, magic links and QR codes;
- choosing the first screen from the session and the profile.

The wall clock, the backend's answers (rows, error codes, the session) and
the outcome of each storage or database call are parameters of the
functions that need them. Calls the app makes are results: a payload to
insert, a check to run, a path to upload to.

Modules:

- `Optional` — JavaScript truthiness and `||` on values that may be unset.
- `JsText` — the string builtins the screens use: `trim`, `toLowerCase`,
  `includes`, `split`, `join`, `parseInt`, `Number`, `padStart` and `%`.
- `Lists` — filtering, updating one row by id, grouping by a key and
  toggling membership.
- One module per screen:
  - `Home`, `MenuImages` and `Geocode` — the home screen;
  - `HappyHour`, `Events`, `Posts`, `EditRestaurant`, `ManageImages` and
    `Dashboard` — the owner's screens;
  - `RestaurantDetail`, `QRScanner`, `Favorites`, `Following`, `Profile`,
    `Login` and `Onboarding` — the diner's screens;
  - `App` — the app shell.

## Model

| member | source | states |
|---|---|---|
| Home.InWindow | src/screens/HomeScreen.tsx:590-618 | a window never holds on a day that is not listed, holds only when both times parse, and never holds when the start is after the end |
| Home.InWindowDigits | src/screens/HomeScreen.tsx:609-617 | for `HH:MM` times the window holds iff today is listed and start ≤ now ≤ end in minutes of the day, so a window past midnight never matches |
| Home.ParseClockDigits | src/screens/HomeScreen.tsx:609-612 | a time whose hour and minute pieces are digit strings parses to hour·60+minute |
| Home.ClockOfNumbers | src/screens/HomeScreen.tsx:609-612 | pieces that read as the numbers H and M give the minute H·60+M |
| Home.IsOpenNow | src/screens/HomeScreen.tsx:577-588 | closed without an entry for today; otherwise open iff today's entry is not "closed" in any case |
| Home.TodayHours | src/screens/HomeScreen.tsx:661-675 | today's entry of the hours, or "Closed" when there is none |
| Home.OpenNowMatchesTodayLabel | src/screens/HomeScreen.tsx:577-588 | a restaurant is open now iff today's label is not "closed" in any case |
| Home.FormatTimeDigits | src/screens/HomeScreen.tsx:688-695 | an `HH:MM` time with an hour below 24 shows the 12-hour hour, the minutes as typed, and AM before noon, PM from noon on |
| Home.LabelOfHour | src/screens/HomeScreen.tsx:690-693 | pieces whose hour parses to h below 24 show the 12-hour hour and AM or PM by h |
| Home.FormatTime | src/screens/HomeScreen.tsx:688-695 | the label is empty iff the time is, and any other label ends in " AM" or " PM" |
| Home.GatePrepend | src/screens/HomeScreen.tsx:493-575 | a filter switched off lets every restaurant through, one switched on requires its test |
| Home.LaterTestsPass | src/screens/HomeScreen.tsx:525-575 | the price, open-now, happy-hour and lunch filters pass iff each one switched on holds |
| Home.ActiveTestsAreKeep | src/screens/HomeScreen.tsx:493-575 | a restaurant passes every stage of the filter iff it meets the combined filter predicate |
| Home.ApplyFilters | src/screens/HomeScreen.tsx:493-575 | the filtered list is no longer than the list and holds only listed restaurants |
| Home.ApplyFiltersIsKeepFilter | src/screens/HomeScreen.tsx:493-575 | the staged filtering equals one filter by the combined predicate |
| Home.ApplyFiltersKeeps | src/screens/HomeScreen.tsx:493-575 | the filtered list keeps the original order and holds a restaurant iff it was listed and meets every active filter |
| Home.ApplyFiltersAllOff | src/screens/HomeScreen.tsx:493-575 | with a blank search and no filter switched on, the list is unchanged |
| Home.SearchKeepsOnlyMatches | src/screens/HomeScreen.tsx:497-505 | with a search, every restaurant left has the lower-cased query in its name, description, city or cuisine |
| Home.ToggleFavorite | src/screens/HomeScreen.tsx:620-653 | without a user nothing changes and login is asked for; a failed call changes nothing; otherwise the id alone flips in or out |
| Home.ToggleFavoriteTwice | src/screens/HomeScreen.tsx:627-648 | two successful toggles of the same restaurant restore the favourites |
| MenuImages.OrderLookupLast | src/screens/HomeScreen.tsx:377-385 | the order map holds a key iff some row indexes it, and then the index of the last such row |
| MenuImages.OrderLookup | src/screens/HomeScreen.tsx:377-385 | every key of the order map is named by a row with a non-null index |
| MenuImages.KeptAssetsShape | src/screens/HomeScreen.tsx:398-410 | an asset is kept iff it is a listed image file, with its path under the restaurant, its public URL and its order index when one is recorded |
| MenuImages.KeptAssets | src/screens/HomeScreen.tsx:398-410 | nothing is kept iff no listed name is an image file, and every kept asset has an image name |
| MenuImages.InsertSorted | src/screens/HomeScreen.tsx:412-420 | inserting into a sorted list keeps it sorted |
| MenuImages.SortAssets | src/screens/HomeScreen.tsx:412-420 | sorting returns a permutation of the assets |
| MenuImages.SortAssetsSorted | src/screens/HomeScreen.tsx:412-420 | the sorted assets are ordered: indexed before unindexed, by index, and by path on a tie |
| MenuImages.SortedPairs | src/screens/HomeScreen.tsx:412-420 | in a sorted list every earlier asset is ordered before every later one |
| MenuImages.MenuImagesSorted | src/screens/HomeScreen.tsx:366-425 | a restaurant without image files has no menu images; otherwise they are the kept assets, sorted |
| MenuImages.MenuImagesFor | src/screens/HomeScreen.tsx:396-420 | a restaurant gets menu images iff one of its files is an image, and then at least one |
| MenuImages.IndexedFirst | src/screens/HomeScreen.tsx:414-418 | in the sorted images no unindexed image precedes an indexed one, and indexes never decrease |
| Geocode.Located | src/screens/HomeScreen.tsx:472-478 | a restaurant without an answer is unchanged; with one, only its coordinates are replaced |
| Geocode.GeocodeInBatches | src/screens/HomeScreen.tsx:458-491 | every restaurant is visited once in order and located by its own address, and each batch of five publishes the list located so far |
| HappyHour.OpenDealModal | src/screens/HappyHourScreen.tsx:221-238 | editing copies the deal into the form, its stored numeric price included; a new deal starts with an empty typed price, no days, from 16:00 to 19:00 and active |
| HappyHour.TypePrice | src/screens/HappyHourScreen.tsx:594-595 | typing into the price field makes the price that typed text and changes nothing else |
| HappyHour.NewDealRejected | src/screens/HappyHourScreen.tsx:221-260 | a freshly opened form fails on its empty title first, so nothing is saved |
| HappyHour.ToggleDay | src/screens/HappyHourScreen.tsx:245-252 | only the days change, and the day is listed afterwards iff it was not before |
| HappyHour.ToggleDayEffect | src/screens/HappyHourScreen.tsx:245-252 | a listed day is removed keeping the order, an unlisted one appended, and other days stay as they were |
| HappyHour.ToggleDayTwice | src/screens/HappyHourScreen.tsx:245-252 | two toggles restore whether the day is listed, and restore the form when it was not |
| HappyHour.ToggleDayKeepsWellFormed | src/screens/HappyHourScreen.tsx:245-252 | toggling a known day keeps the days known and free of repeats |
| HappyHour.SaveDealAction | src/screens/HappyHourScreen.tsx:254-310 | as the screen has it: the save throws, writing nothing, iff there is a restaurant, the title and description pass and the price is a stored number; otherwise, and always for a typed price, it is the corrected save |
| HappyHour.SaveDealActionCorrected | src/screens/HappyHourScreen.tsx:254-310 | never throws; nothing is saved without a restaurant or with a failed check; an edited deal with an id is updated, anything else inserted, with the form's fields |
| HappyHour.EditedDealThrows | src/screens/HappyHourScreen.tsx:221-275 | as written, saving an opened stored deal without retyping its price throws once its title and description pass |
| HappyHour.EditedDealUpdates | src/screens/HappyHourScreen.tsx:254-291 | corrected, an opened stored deal that passes the checks is updated with its own fields, and a retyped price gives the same outcome with either save |
| HappyHour.DealProblem | src/screens/HappyHourScreen.tsx:256-275 | there is no problem iff title, description and the price's text each hold a character that is not white space and a day is selected |
| HappyHour.DealChecksInOrder | src/screens/HappyHourScreen.tsx:257-275 | the reported problem is the first failing check of title, description, price and days, and there is none iff all pass |
| HappyHour.DeleteDealKeeps | src/screens/HappyHourScreen.tsx:341 | deleting a deal keeps the others in order and removes exactly that id |
| HappyHour.DeleteDeal | src/screens/HappyHourScreen.tsx:341 | no deal with the deleted id is left |
| HappyHour.DeleteFile | src/screens/HappyHourScreen.tsx:196-218 | without a restaurant or when the removal fails nothing changes; otherwise every file of that name goes |
| HappyHour.DeleteFileKeeps | src/screens/HappyHourScreen.tsx:211 | the file list keeps the other files in order and loses exactly that name |
| HappyHour.DayLabel | src/screens/HappyHourScreen.tsx:352-366 | a known day name shows as three letters, any other entry as itself |
| HappyHour.DayLabelsMatchPicker | src/screens/HappyHourScreen.tsx:39-47 | every day the picker offers is known and shows with the picker's own label |
| HappyHour.FormatDaysEveryDay | src/screens/HappyHourScreen.tsx:352-366 | for known day names, the text is "Every day" iff there are seven entries |
| HappyHour.FormatDays | src/screens/HappyHourScreen.tsx:352-366 | seven entries read "Every day", any other list the labels joined by ", " |
| HappyHour.SevenDaysAreEveryDay | src/screens/HappyHourScreen.tsx:245-252 | for known days without repeats, seven entries means every day of the week is selected |
| HappyHour.FormatDaysAllSelected | src/screens/HappyHourScreen.tsx:352-366 | for days picked through the toggle, the text is "Every day" iff every day of the week is selected |
| HappyHour.Hour12 | src/screens/HappyHourScreen.tsx:368-377 | the shown hour is 1 to 12 and equals the 24-hour hour modulo 12 |
| HappyHour.FormatDealTimeDigits | src/screens/HappyHourScreen.tsx:368-377 | an `HH:MM` time shows the 12-hour hour, the minutes padded to two digits, and AM or PM by the hour |
| HappyHour.FormatDealTimeNoColon | src/screens/HappyHourScreen.tsx:368-377 | a text without a colon is shown unchanged |
| HappyHour.FormatDealTime | src/screens/HappyHourScreen.tsx:368-377 | a text without a colon is shown unchanged, and any other ends in " AM" or " PM" |
| HappyHour.ShownHourOfNat | src/screens/HappyHourScreen.tsx:372-373 | the hour shown for a whole number h is the text of its 12-hour hour |
| Events.ParseTags | src/screens/EventsScreen.tsx:172 | there are no tags iff the field is empty |
| Events.ParseTagsShape | src/screens/EventsScreen.tsx:172 | every tag is trimmed and not empty, and there are at most one more tags than commas |
| Events.ParseTagsJoin | src/screens/EventsScreen.tsx:172 | trimmed, non-empty tags without commas joined by "," parse back to the same tags |
| Events.SaveEventAction | src/screens/EventsScreen.tsx:159-177 | refused iff the restaurant is unset or the title blank; otherwise the payload carries the title, the parsed tags, null for empty optional text and an active flag |
| Events.AfterCreate | src/screens/EventsScreen.tsx:187-196 | the created event is prepended and the form's text fields cleared |
| Events.ClearedFormRejected | src/screens/EventsScreen.tsx:188-196 | the cleared form cannot be saved |
| Events.DeleteEventKeeps | src/screens/EventsScreen.tsx:226 | deleting an event keeps the others in order and removes exactly that id |
| Events.DeleteEvent | src/screens/EventsScreen.tsx:226 | no event with the deleted id is left |
| Events.EventUploadPath | src/screens/EventsScreen.tsx:101-106 | no path without a restaurant; otherwise the path lies under its `events/` folder and ends with the file's extension |
| Posts.ResetForm | src/screens/RestaurantPostsScreen.tsx:267-280 | the form is an empty active unpinned announcement, nothing is being edited and the dialog is closed |
| Posts.ResetFormRejected | src/screens/RestaurantPostsScreen.tsx:212-280 | a reset form is refused until a title and content are typed, and then saving inserts a new post |
| Posts.Minutes16 | src/screens/RestaurantPostsScreen.tsx:290-291 | a stored time is cut to its first 16 characters, and an unset one is empty |
| Posts.HandleEdit | src/screens/RestaurantPostsScreen.tsx:282-295 | editing copies the post's fields into the form and opens the dialog |
| Posts.SavePostAction | src/screens/RestaurantPostsScreen.tsx:212-265 | nothing is saved without a restaurant, title and content; an edited post is updated, a new one inserted, with the form's fields and null for empty optional text |
| Posts.EditThenSave | src/screens/RestaurantPostsScreen.tsx:212-295 | editing a post and saving at once updates that post with its own fields |
| Posts.ToggleActive | src/screens/RestaurantPostsScreen.tsx:326-340 | after a successful update only the post with that id flips its active flag |
| Posts.TogglePinned | src/screens/RestaurantPostsScreen.tsx:343-357 | after a successful update only the post with that id flips its pinned flag |
| Posts.ToggleActiveTwice | src/screens/RestaurantPostsScreen.tsx:326-340 | flipping twice restores the posts |
| Posts.TogglePinnedTwice | src/screens/RestaurantPostsScreen.tsx:343-357 | flipping twice restores the posts |
| Posts.DeletePostKeeps | src/screens/RestaurantPostsScreen.tsx:315 | deleting a post keeps the others in order and removes exactly that id |
| Posts.DeletePost | src/screens/RestaurantPostsScreen.tsx:315 | no post with the deleted id is left |
| Posts.PostTypeColorTable | src/screens/RestaurantPostsScreen.tsx:360-370 | each of the six post types is known and gets the colour the table lists for it |
| Posts.PostTypeColorsDistinct | src/screens/RestaurantPostsScreen.tsx:360-370 | the six colours are pairwise distinct and none is the grey default |
| Posts.PostTypeColor | src/screens/RestaurantPostsScreen.tsx:360-370 | the colour is the grey default iff the type is not one of the six |
| EditRestaurant.LoadField | src/screens/EditRestaurantScreen.tsx:84-176 | the numeric ids load as their decimal text and other fields as the stored text, each empty when unset |
| EditRestaurant.LoadForm | src/screens/EditRestaurantScreen.tsx:84-176 | every field of the form is loaded from the row |
| EditRestaurant.UpdateField | src/screens/EditRestaurantScreen.tsx:186-188 | one field takes the typed value and no other changes |
| EditRestaurant.SaveField | src/screens/EditRestaurantScreen.tsx:190-207 | the ids are saved parsed as integers or null, the price level as null when empty, every other field as its text |
| EditRestaurant.Payload | src/screens/EditRestaurantScreen.tsx:190-207 | every field of the payload is saved from the form |
| EditRestaurant.SaveAction | src/screens/EditRestaurantScreen.tsx:190-207 | nothing is saved without a restaurant or with a blank name; otherwise that restaurant is updated with the payload |
| EditRestaurant.LoadThenSave | src/screens/EditRestaurantScreen.tsx:84-207 | loading a row and saving it writes the ids back as numbers, an empty price level as null and the other texts as stored |
| RestaurantDetail.ToggleFollow | src/screens/RestaurantDetailScreen.tsx:69-76 | the follow flag flips and the alert says "Unfollowed" iff it was on |
| RestaurantDetail.ToggleNotifications | src/screens/RestaurantDetailScreen.tsx:79-85 | refused with "Follow Required" while not following; otherwise the notification flag flips |
| RestaurantDetail.FormatDiscountText | src/screens/RestaurantDetailScreen.tsx:87-98 | percentage, fixed amount and BOGO texts, and "DEAL" for any other type |
| RestaurantDetail.DiscountTextReadsBack | src/screens/RestaurantDetailScreen.tsx:87-98 | the amount in a percentage or fixed-amount text reads back as the discount value |
| RestaurantDetail.PriceRangeText | src/screens/RestaurantDetailScreen.tsx:113-121 | a level 1 to 4 shows that many dollar signs, anything else "N/A" |
| RestaurantDetail.FormatTimeRemaining | src/screens/RestaurantDetailScreen.tsx:100-111 | hours and minutes while an hour or more remains, minutes alone otherwise |
| RestaurantDetail.TimeRemainingSplit | src/screens/RestaurantDetailScreen.tsx:100-111 | while time remains: the minutes are 0 to 59, hours and minutes make up the whole minutes left, and hours are shown iff at least one remains |
| RestaurantDetail.TimeRemainingExpired | src/screens/RestaurantDetailScreen.tsx:100-111 | after the end: the hour is negative so only minutes are shown, they lie between -60 and 0, and ninety minutes past reads "-30m left" |
| QRScanner.ViewFor | src/screens/QRScannerScreen.tsx:82-140 | waiting while the permission is unknown, the camera iff available and granted, the fallbacks otherwise |
| QRScanner.RestaurantIdOf | src/screens/QRScannerScreen.tsx:42-43 | a code names a restaurant iff it starts with the link prefix, and the id is the rest of the code |
| QRScanner.RestaurantLinkRoundTrip | src/screens/QRScannerScreen.tsx:42-43 | a link built from an id reads back as that id |
| QRScanner.Scan | src/screens/QRScannerScreen.tsx:38-80 | a scan while paused does nothing; otherwise it pauses and opens the found or invalid alert |
| QRScanner.PressButton | src/screens/QRScannerScreen.tsx:48-78 | Cancel and OK resume scanning, Follow shows the success alert, whose OK goes back |
| QRScanner.ManualCodeAccepted | src/screens/QRScannerScreen.tsx:122 | a typed code is accepted iff it is given and not blank |
| App.TokenOf | App.tsx:138-141 | `token_hash` when set, else `token` when set, else none |
| App.DeeplinkAction | App.tsx:133-148 | a check runs iff there is a link, a token and a magic-link or sign-up type, and it always runs as a magic link |
| App.DeeplinkUsesToken | App.tsx:138-148 | a link with only a `token` is checked with that token |
| App.EnsureProfile | App.tsx:107-130 | other errors fail softly; a missing row inserts an unnamed user profile; a row is named iff its display name is not empty |
| App.SignedIn | App.tsx:155-160 | a named profile goes to the main tabs, an unnamed one to onboarding |
| App.OnStart | App.tsx:169-177 | with a session the profile routes; without one only the route becomes Login |
| App.OnAuthChange | App.tsx:180-190 | with a session the profile routes; signing out resets the shell |
| App.OnDeeplink | App.tsx:144-160 | a skipped or failed check or a missing session changes nothing; otherwise the profile routes |
| ManageImages.UploadPath | src/screens/ManageImagesScreen.tsx:154-156 | the path lies under the restaurant id with the kind's stem and keeps the file's extension |
| ManageImages.UpdatesRestaurant | src/screens/ManageImagesScreen.tsx:175-182 | the restaurant row is updated iff a column and the restaurant are known |
| ManageImages.SetBranding | src/screens/ManageImagesScreen.tsx:194-225 | a returned URL replaces that kind's picture alone |
| ManageImages.SetBrandingEffect | src/screens/ManageImagesScreen.tsx:194-225 | after an upload that kind shows the returned URL when there is one, and every other picture stays |
| ManageImages.FoodInsertOf | src/screens/ManageImagesScreen.tsx:256-263 | the inserted food row defaults its name to "Unnamed dish", has no caption iff none was typed, and sorts after the shown pictures |
| ManageImages.AfterFoodUpload | src/screens/ManageImagesScreen.tsx:269-272 | the stored picture is appended and the dialog cleared and closed |
| ManageImages.UploadKeepsDense | src/screens/ManageImagesScreen.tsx:256-272 | uploads alone keep each picture's sort order equal to its position |
| ManageImages.DeleteFoodImageKeeps | src/screens/ManageImagesScreen.tsx:300 | deleting a picture keeps the others in order and removes exactly that id |
| ManageImages.DeleteFoodImage | src/screens/ManageImagesScreen.tsx:300 | the list gets no longer and no picture with the deleted id is left |
| Favorites.LoadListings | src/screens/FavoritesScreen.tsx:104-140 | deals and lunch specials are looked up iff there are favourites, and each answer replaces its map grouped by restaurant |
| Favorites.GroupingShowsExactly | src/screens/FavoritesScreen.tsx:116-120 | a card shows exactly its restaurant's listings in their order |
| Favorites.BeginRemove | src/screens/FavoritesScreen.tsx:153 | the restaurant joins the ids being removed |
| Favorites.FinishRemove | src/screens/FavoritesScreen.tsx:161-170 | on success the restaurant's favourites go; in any case its id leaves the ids being removed |
| Favorites.RemoveFavorite | src/screens/FavoritesScreen.tsx:149-151 | nothing happens without a signed-in user |
| Favorites.RemoveFavoriteEffect | src/screens/FavoritesScreen.tsx:149-171 | a removal keeps the other favourites in order and leaves exactly the other ids being removed |
| Favorites.CoverImage | src/screens/FavoritesScreen.tsx:185 | exterior, then logo, then image URL, then the placeholder |
| Favorites.CoverImageIsFirstSet | src/screens/FavoritesScreen.tsx:185 | the cover is the first set picture of exterior, logo and image, else the placeholder |
| Login.Redirect | src/screens/LoginScreen.tsx:41-42 | an `exp://` URL on the configured or manifest host when one is set, else the app's own URL |
| Login.RedirectPrefersConfig | src/screens/LoginScreen.tsx:41-42 | a configured host makes the manifest irrelevant; without one the manifest alone decides |
| Login.MessageOf | src/screens/LoginScreen.tsx:80 | the message of an error is never empty |
| Login.Classify | src/screens/LoginScreen.tsx:80-89 | an existing account or disabled sign-ups are recognised case-insensitively, any other error keeps its message |
| Login.ClassifyIgnoresCase | src/screens/LoginScreen.tsx:80-89 | the classification does not depend on the message's case |
| Login.Register | src/screens/LoginScreen.tsx:34-93 | nothing without email and password; a sign-up without a session waits for confirmation; a new user's trimmed name is upserted; errors are classified |
| Login.UpsertedNameTrimmed | src/screens/LoginScreen.tsx:70-74 | the upserted display name is trimmed and not empty |
| Login.LoginErrorText | src/screens/LoginScreen.tsx:109 | the error's message, or "Invalid email or password." when it has none |
| Login.LoginErrorTextStable | src/screens/LoginScreen.tsx:109 | the shown text is never empty, and showing it again as an error's message changes nothing |
| Following.ToggleNotifications | src/screens/FollowingScreen.tsx:70-78 | only the restaurant with that id flips its notification flag |
| Following.ToggleNotificationsTwice | src/screens/FollowingScreen.tsx:70-78 | flipping twice restores the list, and an unknown id changes nothing |
| Following.Unfollow | src/screens/FollowingScreen.tsx:80-84 | no restaurant with that id is left |
| Following.UnfollowKeeps | src/screens/FollowingScreen.tsx:80-84 | unfollowing keeps the others in order and removes exactly that id |
| Following.DealBadge | src/screens/FollowingScreen.tsx:150-154 | a badge appears iff there is an active deal; it starts with the count and is plural iff there are several |
| Dashboard.TogglePromotion | src/screens/RestaurantDashboardScreen.tsx:72-78 | only the promotion with that id flips its active flag |
| Dashboard.TogglePromotionTwice | src/screens/RestaurantDashboardScreen.tsx:72-78 | flipping twice restores the promotions, and an unknown id changes nothing |
| Profile.ToggleSetting | src/screens/ProfileScreen.tsx:203-207 | one setting flips and the others keep their values |
| Profile.ToggleSettingTwice | src/screens/ProfileScreen.tsx:203-207 | flipping a setting twice restores the settings |
| Profile.FavoritesCount | src/screens/ProfileScreen.tsx:40-48 | signed in, the count is the number of rows unless the lookup failed; otherwise it stays |
| Profile.FavoritesCountLastLoadWins | src/screens/ProfileScreen.tsx:40-48 | a successful reload sets the count whatever it was, and a failed or signed-out one leaves it alone |
| Profile.DisplayName | src/screens/ProfileScreen.tsx:130-134 | "User" iff neither name is set; with a first name, " first" followed by " last" when a last name is set; a last name alone gives " last" |
| Profile.DisplayNameWords | src/screens/ProfileScreen.tsx:130-134 | with two space-free names, the line splits at its spaces into an empty piece, the first name and the last name |
| Onboarding.ContinueTo | src/screens/OnboardingScreen.tsx:10-36 | a blank name is refused, a missing user sent to login, otherwise the trimmed, non-empty name is written to the given column and saved iff the update succeeds |
| Onboarding.HandleContinue | src/screens/OnboardingScreen.tsx:10-36 | as the screen has it: the same outcomes, with the name written to `first_name` |
| Onboarding.HandleContinueCorrected | src/screens/OnboardingScreen.tsx:24-27 | the same outcomes, with the name written to `display_name`, which the shell reads |
| Onboarding.DisplayNameAfter | src/screens/OnboardingScreen.tsx:24-28 | the profile's display name changes only through a successful write to that column, and then becomes the saved name |
| Onboarding.OnboardedUserStillUnnamed | App.tsx:107-130 | as written, a user sent on to the main tabs after onboarding is routed to onboarding again at the next sign-in |
| Onboarding.OnboardedUserIsNamed | App.tsx:155-160 | corrected, the next sign-in after onboarding goes to the main tabs and welcomes the user by the trimmed name |
| Onboarding.NextRoute | src/screens/OnboardingScreen.tsx:17-30 | only a saved name leads to the main tabs and a missing user to the login screen |
| Onboarding.StoredNameIsTrimmed | src/screens/OnboardingScreen.tsx:24-27 | a name typed with surrounding spaces is saved without them, whichever column is written |
| Lists.GroupBy | src/screens/FavoritesScreen.tsx:116-120 | the groups are keyed by exactly the keys present, each holding those rows in order |
| Lists.UpdateWhereTwice | src/screens/RestaurantPostsScreen.tsx:326-340 | an involutive update applied twice to the same rows restores the list |
| Lists.ToggleMemberTwice | src/screens/HappyHourScreen.tsx:245-252 | toggling a member twice restores whether it is listed, and restores the list when it was absent |
| JsText.SplitJoin | src/screens/EventsScreen.tsx:172 | joining by a separator and splitting by it gives back the pieces when none contains it |
| JsText.ParseIntOfIntToString | src/screens/EditRestaurantScreen.tsx:203-206 | `parseInt` of an integer's decimal text is that integer |
| JsText.ParseIntHex | src/screens/EditRestaurantScreen.tsx:203-206 | `0x` followed by hexadecimal digits reads as their hexadecimal value, with either sign, and `0x` alone as NaN |
| JsText.ParseIntStopsAtNonDigit | src/screens/EditRestaurantScreen.tsx:203-206 | without a `0x` prefix the leading decimal digits are read and the rest ignored |
| JsText.NumberOfIntToString | src/screens/RestaurantDetailScreen.tsx:87-98 | `Number` reads back the decimal text of any integer |
| JsText.BlankIff | src/screens/OnboardingScreen.tsx:11 | a text is blank after `trim` iff every character is white space, including the Unicode space separators |
| JsText.TrimTrimmed | src/screens/OnboardingScreen.tsx:24-27 | `trim` leaves no white space of any kind (ASCII, no-break, Unicode space separators, line terminators) at either end, and leaves trimmed text unchanged |
| JsText.LastPieceAfter | src/screens/ManageImagesScreen.tsx:154-156 | the piece after the last separator is what follows an appended separator that does not occur later |

## Findings

| source | as written | input that shows it | evidently intended | confidence | as-written member | corrected member |
|---|---|---|---|---|---|---|
| src/screens/OnboardingScreen.tsx:24-27 | the onboarding name is written to `first_name`, while the shell (App.tsx:107-130) and registration (src/screens/LoginScreen.tsx:72-73) use `display_name`, and the declared `profiles` type (src/lib/supabase.ts:29-62) has no `first_name` | a new user types "Ann": the update succeeds, the screen moves on, and at the next sign-in the profile still has no display name, so onboarding is shown again | write the name to `display_name` | medium, not executed (the deployed table may hold a `first_name` column the declared type omits) | Onboarding.OnboardedUserStillUnnamed | Onboarding.OnboardedUserIsNamed |
| src/screens/HappyHourScreen.tsx:267 | `dealForm.price.trim()` assumes a text price, but a form opened on a stored deal holds the row's number (the save writes `parseFloat` of the price at lines 287 and 302, and src/screens/HomeScreen.tsx:69, 843 reads the column as a number), and the call sits outside the `try` | open a stored deal with title, description and price 5, change nothing and press save: `trim` is not a function, nothing is saved and no alert appears | read the price as text first, `String(dealForm.price).trim()` | medium, not executed (the deal type on this screen declares the price as text) | HappyHour.EditedDealThrows | HappyHour.EditedDealUpdates |

## Left out

- Dates and the clock: `new Date()`, `Date.now()`, `toISOString`,
  `toLocaleDateString` and `Math.random()` are parameters (a weekday and a
  minute of the day, milliseconds, or already formatted text).
- JsText.NumberOf: JavaScript's `Number` is modelled for optional white
  space, a sign and decimal digits. Decimals, exponents, `0x`/`0b`/`0o`
  literals and `Infinity` read as NaN (no value) in the model.
- JsText.ParseInt: `parseInt` without a radix is modelled in full for
  integers, including the `0x` prefix; digit runs beyond the precision of
  a double are read exactly rather than rounded.
- JsText.Lower: `toLowerCase` is modelled for ASCII letters only. There is
  no Unicode case mapping.
- MenuImages.SortAssets: the `localeCompare` tie-break on paths is an
  abstract total preorder supplied by the caller.
- HappyHour.SaveDealAction, HappyHour.SaveDealActionCorrected: the price is
  sent as its text rather than through `parseFloat`, and a stored price is
  held as its `String` text, because floating point is not modelled.
- RestaurantDetail.FormatDiscountText, Following.DealBadge: discount values
  and deal counts are integers; fractional numbers are not modelled.
- Home.FormatTimeDigits, HappyHour.FormatDealTimeDigits: these are stated
  for `HH:MM` digit times. Text that JavaScript turns into NaN is formatted
  by the model but no property is claimed for it.
- HappyHour.FormatDaysEveryDay: stated for lists of known day names only.
  A list with an unknown entry can read "Every day" at another length:
  `["Every day"]` passes through unchanged.
- HappyHour.DayLabel: the lookup in the day map is by own keys only.
  Inherited object properties such as `constructor` are not modelled.
- Posts.PostTypeColor: the colour lookup is by own keys only. An
  inherited property name such as `constructor` or `toString` reads a
  truthy value from the object in JavaScript and is returned instead of
  the grey default; the model gives grey for every name outside the six.
- The home screen's Haversine distance helper is used only by a distance
  filter and sort that are commented out, so there is nothing to model.
- Geocode.GeocodeInBatches: the one-second delay before geocoding starts,
  the 200 ms pause between batches and the interleaving with other async
  work are not modelled. Each lookup's answer is a parameter.
- Backend and storage calls (selects, inserts, updates, uploads, the auth
  API) are not modelled. Their answers are parameters and their requests
  are results.
- Alerts, navigation, loading and refreshing flags and image pickers are
  kept only where they decide what is saved or shown.
- The map screens, the backend client set-up and the app configuration
  file are not part of this model. They are rendering or configuration.
- The following screen loads fixed mock rows, distances included, and does
  not sort them. Only its toggles, unfollowing and the deal badge are
  modelled.
- The dashboard's logout and its add and edit buttons are stubs, so only
  the promotion toggle is modelled.

=== FILE: app.dfy ===
/** The app shell: reading the token of a magic link, the profile check
    that decides whether the user still has to choose a name, and the
    choice of the first screen from the session. The backend's answers
    (the profile row and its error code, the session) are parameters. */
module App {
  import opened Optional

  datatype Route = Login | Onboarding | MainTabs

  // ------------------------------------------------------------ deep links

  /** The query of a parsed link, as the parameters that are present. */
  type Query = map<string, string>

  function Param(q: Query, key: string): (v: Option<string>)
    ensures v.Some? <==> key in q
    ensures v.Some? ==> v.value == q[key]
  {
    if key in q then Some(q[key]) else None
  }

  /** `token_hash || token || null`. */
  function TokenOf(q: Query): (t: Option<string>)
    ensures Truthy(Param(q, "token_hash")) ==> t == Param(q, "token_hash")
    ensures !Truthy(Param(q, "token_hash")) && Truthy(Param(q, "token")) ==> t == Param(q, "token")
    ensures !Truthy(Param(q, "token_hash")) && !Truthy(Param(q, "token")) ==> t.None?
    ensures t.None? || t.value != ""
  {
    Or(Or(Param(q, "token_hash"), Param(q, "token")), None)
  }

  /** The one-time-password check a link asks for. */
  datatype Verify = Verify(otpType: string, tokenHash: string)

  /** `handleDeeplink`: nothing for a missing link; otherwise a check of the
      token when there is one and the type is `magiclink` or `signup`,
      always run as a `magiclink` check. */
  function DeeplinkAction(url: Option<string>, q: Query): (v: Option<Verify>)
    ensures v.Some? <==> Truthy(url) && TokenOf(q).Some? && Param(q, "type") in {Some("magiclink"), Some("signup")}
    ensures v.Some? ==> v.value.otpType == "magiclink" && v.value.tokenHash == TokenOf(q).value
  {
    if !Truthy(url) then None
    else
      var token := TokenOf(q);
      var kind := Or(Param(q, "type"), None);
      if token.Some? && (kind == Some("magiclink") || kind == Some("signup")) then
        Some(Verify("magiclink", token.value))
      else None
  }

  /** A link whose `token` is set and whose `token_hash` is absent is
      checked with that token. */
  lemma {:induction false} DeeplinkUsesToken(url: string, token: string, kind: string)
    requires url != "" && token != "" && kind in {"magiclink", "signup"}
    ensures DeeplinkAction(Some(url), map["token" := token, "type" := kind]) == Some(Verify("magiclink", token))
  {
    var q := map["token" := token, "type" := kind];
    assert "token_hash" !in q;
    assert Param(q, "type") == Some(kind);
  }

  // ------------------------------------------------------------ the profile

  /** The answer to the `profiles` lookup: the row's `display_name` when
      a row came back, and the error code when there was an error. */
  datatype ProfileLookup = ProfileLookup(row: Option<Option<string>>, errorCode: Option<string>)

  /** The row inserted for a user without a profile. */
  datatype NewProfile = NewProfile(id: string, role: string, displayName: Option<string>, vendorVerified: bool)

  datatype Ensured = Ensured(hasName: bool, welcomeName: Option<string>, inserted: Option<NewProfile>)

  /** The not-found code, which is not treated as a failure. */
  const NotFoundCode: string := "PGRST116"

  /** `ensureProfile`: any other error fails softly (no name, no welcome);
      a missing row inserts an unnamed user profile; a row gives its
      display name as the welcome and counts as named when that name is
      not empty. */
  function EnsureProfile(userId: string, lookup: ProfileLookup): (r: Ensured)
    ensures r.hasName <==> (lookup.errorCode.None? || lookup.errorCode == Some(NotFoundCode))
                           && lookup.row.Some? && Truthy(lookup.row.value)
    ensures r.inserted.Some? <==> (lookup.errorCode.None? || lookup.errorCode == Some(NotFoundCode))
                                  && lookup.row.None?
    ensures r.inserted.Some? ==> r.inserted.value == NewProfile(userId, "user", None, false)
    ensures r.welcomeName.Some? ==> lookup.row.Some? && r.welcomeName == lookup.row.value
    ensures r.hasName ==> Truthy(r.welcomeName)
  {
    if lookup.errorCode.Some? && lookup.errorCode.value != NotFoundCode then Ensured(false, None, None)
    else match lookup.row
      case None => Ensured(false, None, Some(NewProfile(userId, "user", None, false)))
      case Some(name) => Ensured(Truthy(name), name, None)
  }

  /** An empty display name is welcomed but still counts as unnamed. */
  lemma {:induction false} EmptyNameNeedsOnboarding(userId: string)
    ensures var r := EnsureProfile(userId, ProfileLookup(Some(Some("")), None));
      !r.hasName && r.welcomeName == Some("")
  {
  }

  // ------------------------------------------------------------ routing

  /** The shell's state: the first screen, the welcome name and whether
      onboarding is pending. */
  datatype Shell = Shell(route: Route, welcomeName: Option<string>, needsOnboarding: bool)

  const InitialShell: Shell := Shell(Login, None, false)

  /** A signed-in user: the profile check picks the screen. */
  function SignedIn(userId: string, lookup: ProfileLookup): (s: Shell)
    ensures s.needsOnboarding <==> !EnsureProfile(userId, lookup).hasName
    ensures s.route == MainTabs <==> EnsureProfile(userId, lookup).hasName
    ensures s.route == Onboarding <==> !EnsureProfile(userId, lookup).hasName
    ensures s.welcomeName == EnsureProfile(userId, lookup).welcomeName
  {
    var e := EnsureProfile(userId, lookup);
    Shell(if e.hasName then MainTabs else Onboarding, e.welcomeName, !e.hasName)
  }

  /** The session check at start-up: a signed-in user is routed by the
      profile; without a session only the route is set to `Login`. */
  function OnStart(s: Shell, session: Option<string>, lookup: ProfileLookup): (r: Shell)
    ensures session.Some? ==> r == SignedIn(session.value, lookup)
    ensures session.None? ==> r == s.(route := Login)
  {
    if session.Some? then SignedIn(session.value, lookup) else s.(route := Login)
  }

  /** An auth state change: like start-up, except that signing out also
      clears the welcome name and the onboarding flag. */
  function OnAuthChange(s: Shell, session: Option<string>, lookup: ProfileLookup): (r: Shell)
    ensures session.Some? ==> r == SignedIn(session.value, lookup)
    ensures session.None? ==> r == InitialShell
  {
    if session.Some? then SignedIn(session.value, lookup) else Shell(Login, None, false)
  }

  /** A link after its check: a failed or skipped check changes nothing;
      a passed check routes the signed-in user by the profile, and
      nothing changes when no session came with it. */
  function OnDeeplink(s: Shell, url: Option<string>, q: Query, verified: bool, session: Option<string>,
                      lookup: ProfileLookup): (r: Shell)
    ensures DeeplinkAction(url, q).None? || !verified || session.None? ==> r == s
    ensures DeeplinkAction(url, q).Some? && verified && session.Some? ==> r == SignedIn(session.value, lookup)
  {
    if DeeplinkAction(url, q).None? || !verified then s
    else if session.Some? then SignedIn(session.value, lookup)
    else s
  }

  /** The route follows the session and the profile alone: `MainTabs` for
      a named profile, `Onboarding` for a signed-in user without one, and
      `Login` without a session; onboarding is pending exactly on the
      `Onboarding` route. */
  lemma {:induction false} RouteDecision(s: Shell, session: Option<string>, lookup: ProfileLookup)
    ensures var r := OnAuthChange(s, session, lookup);
      && (r.route == Login <==> session.None?)
      && (r.route == MainTabs <==> session.Some? && EnsureProfile(session.value, lookup).hasName)
      && (r.needsOnboarding <==> r.route == Onboarding)
    ensures OnStart(s, session, lookup).route == OnAuthChange(s, session, lookup).route
  {
  }
}

=== FILE: dashboard.dfy ===
/** The restaurant dashboard's promotion list and its on/off switch. */
module Dashboard {
  import opened Lists

  datatype Promotion = Promotion(
    id: string,
    title: string,
    description: string,
    discount: string,
    category: string,
    isActive: bool,
    validUntil: string)

  function PromotionId(p: Promotion): string {
    p.id
  }

  function FlipActive(p: Promotion): Promotion {
    p.(isActive := !p.isActive)
  }

  /** `togglePromotion(id)`: the promotions with that id are switched on or
      off; all other promotions and fields are kept, in order. */
  function TogglePromotion(promotions: seq<Promotion>, id: string): (r: seq<Promotion>)
    ensures |r| == |promotions|
    ensures forall k :: 0 <= k < |promotions| ==>
      if promotions[k].id == id then r[k] == promotions[k].(isActive := !promotions[k].isActive)
      else r[k] == promotions[k]
  {
    UpdateWhere(promotions, KeyIs(PromotionId, id), FlipActive)
  }

  /** An unknown id changes nothing, and switching the same id twice
      restores the list. */
  lemma {:induction false} TogglePromotionTwice(promotions: seq<Promotion>, id: string)
    ensures TogglePromotion(TogglePromotion(promotions, id), id) == promotions
    ensures (forall k :: 0 <= k < |promotions| ==> promotions[k].id != id) ==> TogglePromotion(promotions, id) == promotions
  {
    UpdateWhereTwice(promotions, KeyIs(PromotionId, id), FlipActive);
  }
}

=== FILE: edit_restaurant.dfy ===
/** The restaurant profile editor: a stored restaurant is loaded into a
    form of text fields, single fields are edited, and the form is saved
    as the update payload, with the three lookup ids read back with
    `parseInt` and an empty price range sent as `null`. */
module EditRestaurant {
  import opened Optional
  import opened JsText

  /** The keys of the form (`keyof FormData`). */
  datatype Field =
    | Name | Description | Address | City | State | ZipCode | Phone
    | CuisineTypeId | FoodStyleId | DietaryRestrictionId | PriceRange
    | Website | InstagramHandle | TiktokHandle | FacebookPageUrl
    | HoursMonday | HoursTuesday | HoursWednesday | HoursThursday | HoursFriday | HoursSaturday | HoursSunday

  /** The three fields that hold a numeric lookup id. */
  predicate IsIdField(f: Field) {
    f == CuisineTypeId || f == FoodStyleId || f == DietaryRestrictionId
  }

  /** The form: one text per field. */
  type Form = map<Field, string>

  predicate Complete(form: Form) {
    forall f: Field :: f in form
  }

  /** A `restaurants` row: the text columns and the id columns that are
      not `null`. */
  datatype Row = Row(id: string, texts: map<Field, string>, ids: map<Field, int>)

  /** A JSON value of the payload. */
  datatype Json = Str(s: string) | Int(n: int) | Null

  // ------------------------------------------------------------ loading

  /** The form text of one column: `value?.toString() || ''` for an id,
      `value || ''` for a text. */
  function LoadField(row: Row, f: Field): (text: string)
    ensures IsIdField(f) && f in row.ids ==> text == IntToString(row.ids[f])
    ensures IsIdField(f) && f !in row.ids ==> text == ""
    ensures !IsIdField(f) ==> text == NullToEmpty(if f in row.texts then Some(row.texts[f]) else None)
  {
    if IsIdField(f) then (if f in row.ids then IntToString(row.ids[f]) else "")
    else if f in row.texts then row.texts[f] else ""
  }

  /** `loadRestaurantData`: every field is filled, missing columns as
      empty text and ids as their decimal text. */
  function LoadForm(row: Row): (form: Form)
    ensures Complete(form)
    ensures forall f: Field :: form[f] == LoadField(row, f)
  {
    EveryField();
    map f: Field | f in AllFields :: LoadField(row, f)
  }

  const AllFields: set<Field> := {
    Name, Description, Address, City, State, ZipCode, Phone,
    CuisineTypeId, FoodStyleId, DietaryRestrictionId, PriceRange,
    Website, InstagramHandle, TiktokHandle, FacebookPageUrl,
    HoursMonday, HoursTuesday, HoursWednesday, HoursThursday, HoursFriday, HoursSaturday, HoursSunday}

  lemma {:induction false} EveryField()
    ensures forall f: Field :: f in AllFields
  {
    forall f: Field ensures f in AllFields {
      match f
      case Name => case Description => case Address => case City => case State => case ZipCode =>
      case Phone => case CuisineTypeId => case FoodStyleId => case DietaryRestrictionId =>
      case PriceRange => case Website => case InstagramHandle => case TiktokHandle =>
      case FacebookPageUrl => case HoursMonday => case HoursTuesday => case HoursWednesday =>
      case HoursThursday => case HoursFriday => case HoursSaturday => case HoursSunday =>
    }
  }

  // ------------------------------------------------------------ editing

  /** `updateField(field, value)`: that field takes the value and every
      other field keeps its text. */
  function UpdateField(form: Form, field: Field, value: string): (r: Form)
    ensures field in r && r[field] == value
    ensures forall g: Field :: g != field ==> (g in r <==> g in form) && (g in form ==> r[g] == form[g])
    ensures Complete(form) ==> Complete(r)
  {
    form[field := value]
  }

  // ------------------------------------------------------------ saving

  /** The payload value of one field. */
  function SaveField(form: Form, f: Field): (v: Json)
    requires f in form
    ensures IsIdField(f) && form[f] == "" ==> v == Null
    ensures IsIdField(f) && form[f] != "" ==> v == (match ParseInt(form[f]) case Some(n) => Int(n) case None => Null)
    ensures f == PriceRange ==> v == (if form[f] == "" then Null else Str(form[f]))
    ensures !IsIdField(f) && f != PriceRange ==> v == Str(form[f])
  {
    if IsIdField(f) then
      if form[f] == "" then Null
      else match ParseInt(form[f]) case Some(n) => Int(n) case None => Null
    else if f == PriceRange && form[f] == "" then Null
    else Str(form[f])
  }

  /** The `{ ...form, price_range, cuisine_type_id, food_style_id,
      dietary_restriction_id }` payload. A `NaN` from `parseInt` is sent
      as `null`, which is how it is serialised. */
  function Payload(form: Form): (p: map<Field, Json>)
    requires Complete(form)
    ensures forall f: Field :: f in p && p[f] == SaveField(form, f)
  {
    EveryField();
    map f: Field | f in AllFields :: SaveField(form, f)
  }

  datatype SaveRestaurant = NoRestaurant | Invalid | Update(id: string, payload: map<Field, Json>)

  /** `handleSave`: nothing without a restaurant id, a validation error for
      a blank name, otherwise the update of that restaurant. */
  function SaveAction(form: Form, restaurantId: Option<string>): (r: SaveRestaurant)
    requires Complete(form)
    ensures r == NoRestaurant <==> !Truthy(restaurantId)
    ensures r == Invalid <==> Truthy(restaurantId) && Blank(form[Name])
    ensures r.Update? ==> r.id == restaurantId.value && r.payload == Payload(form)
  {
    if !Truthy(restaurantId) then NoRestaurant
    else if Blank(form[Name]) then Invalid
    else Update(restaurantId.value, Payload(form))
  }

  /** Loading a restaurant and saving the form unchanged writes every id
      back as the same integer (or `null` when it was absent), every text
      column as its text (`''` when it was absent), and the price range as
      `null` exactly when it was absent or empty. */
  lemma {:induction false} LoadThenSave(row: Row, f: Field)
    ensures var p := Payload(LoadForm(row));
      && (IsIdField(f) ==> p[f] == (if f in row.ids then Int(row.ids[f]) else Null))
      && (f == PriceRange ==> p[f] == (if f in row.texts && row.texts[f] != "" then Str(row.texts[f]) else Null))
      && (!IsIdField(f) && f != PriceRange ==> p[f] == Str(if f in row.texts then row.texts[f] else ""))
  {
    var form := LoadForm(row);
    if IsIdField(f) && f in row.ids {
      ParseIntOfIntToString(row.ids[f]);
      assert form[f] == IntToString(row.ids[f]) != "";
    }
  }

  /** Editing one field and saving changes only that field's payload
      value. */
  lemma {:induction false} UpdateFieldPayload(form: Form, field: Field, value: string, g: Field)
    requires Complete(form)
    requires g != field
    ensures Payload(UpdateField(form, field, value))[g] == Payload(form)[g]
  {
  }
}

=== FILE: events.dfy ===
/** The restaurant owner's events screen: the event form, the payload it
    is saved as (comma-separated tags, empty texts as `null`), the list
    updates after a create or a delete, and the storage path of an uploaded
    event image. Dates are passed in as their ISO text; the clock and the
    random suffix of the upload path are parameters. */
module Events {
  import opened Optional
  import opened JsText
  import opened Lists

  /** A `restaurant_events` row. */
  datatype Event = Event(
    id: string,
    restaurantId: string,
    title: string,
    description: Option<string>,
    sportCategory: Option<string>,
    tags: Option<seq<string>>,
    startAt: string,
    endAt: Option<string>,
    imageUrl: Option<string>,
    isActive: bool)

  /** The form; the two dates are always set (they hold `Date` objects),
      here as their ISO text. */
  datatype EventForm = EventForm(
    title: string, description: string, sportCategory: string, tags: string,
    startAt: string, endAt: string, imageUrl: string)

  /** The inserted fields. */
  datatype EventPayload = EventPayload(
    restaurantId: string,
    title: string,
    description: Option<string>,
    sportCategory: Option<string>,
    tags: Option<seq<string>>,
    startAt: string,
    endAt: Option<string>,
    imageUrl: Option<string>,
    isActive: bool)

  // ------------------------------------------------------------ tags

  function TrimAll(pieces: seq<string>): (r: seq<string>)
    ensures |r| == |pieces|
    ensures forall k :: 0 <= k < |r| ==> r[k] == Trim(pieces[k])
  {
    seq(|pieces|, k requires 0 <= k < |pieces| => Trim(pieces[k]))
  }

  function NonEmpty(s: string): bool {
    s != ""
  }

  /** `tags ? tags.split(',').map(t => t.trim()).filter(Boolean) : null`. */
  function ParseTags(tags: string): (r: Option<seq<string>>)
    ensures r.None? <==> tags == ""
  {
    if tags == "" then None else Some(Filter(TrimAll(Split(tags, ',')), NonEmpty))
  }

  /** Every parsed tag is non-empty and has no white space at either end,
      and there are at most one more tags than commas. */
  lemma {:induction false} ParseTagsShape(tags: string)
    ensures var r := ParseTags(tags);
      r.Some? ==>
        && (forall k :: 0 <= k < |r.value| ==> r.value[k] != "" && Trimmed(r.value[k]))
        && |r.value| <= multiset(tags)[','] + 1
  {
    if tags != "" {
      var trimmed := TrimAll(Split(tags, ','));
      var r := Filter(trimmed, NonEmpty);
      SplitFacts(tags, ',');
      forall k | 0 <= k < |r| ensures r[k] != "" && Trimmed(r[k]) {
        assert r[k] in r;
        FilterMembership(trimmed, NonEmpty, r[k]);
        var i :| 0 <= i < |trimmed| && trimmed[i] == r[k];
        TrimTrimmed(Split(tags, ',')[i]);
      }
    }
  }

  /** Tags that are non-empty, trimmed and free of commas come back from
      their comma-joined text unchanged. */
  lemma {:induction false} ParseTagsJoin(tags: seq<string>)
    requires |tags| >= 1
    requires forall k :: 0 <= k < |tags| ==> tags[k] != "" && Trimmed(tags[k]) && ',' !in tags[k]
    ensures ParseTags(Join(tags, ",")) == Some(tags)
  {
    var text := Join(tags, ",");
    JoinNotEmpty(tags);
    assert Split(text, ',') == tags by {
      SplitJoin(tags, ',');
    }
    TrimAllTrimmed(tags);
    FilterAll(tags, NonEmpty);
  }

  lemma {:induction false} JoinNotEmpty(tags: seq<string>)
    requires |tags| >= 1 && tags[0] != ""
    ensures Join(tags, ",") != ""
  {
    if |tags| > 1 {
      assert Join(tags, ",") == tags[0] + "," + Join(tags[1..], ",");
    }
  }

  lemma {:induction false} TrimAllTrimmed(pieces: seq<string>)
    requires forall k :: 0 <= k < |pieces| ==> Trimmed(pieces[k])
    ensures TrimAll(pieces) == pieces
  {
    var trimmed := TrimAll(pieces);
    forall k | 0 <= k < |pieces| ensures trimmed[k] == pieces[k] {
      TrimTrimmed(pieces[k]);
    }
  }

  // ------------------------------------------------------------ saving

  datatype SaveEvent = Rejected | Insert(payload: EventPayload)

  /** `handleSave`: a missing restaurant or a blank title rejects the save;
      otherwise the empty description, category and image become `null`,
      the tags are parsed and the event is active. */
  function SaveEventAction(form: EventForm, restaurantId: Option<string>): (r: SaveEvent)
    ensures r.Rejected? <==> !Truthy(restaurantId) || Blank(form.title)
    ensures r.Insert? ==>
      var p := r.payload;
      && p.restaurantId == restaurantId.value && p.title == form.title
      && p.description == EmptyToNull(form.description)
      && p.sportCategory == EmptyToNull(form.sportCategory)
      && p.imageUrl == EmptyToNull(form.imageUrl)
      && p.tags == ParseTags(form.tags)
      && p.startAt == form.startAt && p.endAt == Some(form.endAt)
      && p.isActive
  {
    if !Truthy(restaurantId) || Blank(form.title) then Rejected
    else Insert(EventPayload(restaurantId.value, form.title, EmptyToNull(form.description),
                             EmptyToNull(form.sportCategory), ParseTags(form.tags), form.startAt,
                             Some(form.endAt), EmptyToNull(form.imageUrl), true))
  }

  /** The form after a reset: empty texts, both dates at `now`. */
  function EmptyForm(now: string): EventForm {
    EventForm("", "", "", "", now, now, "")
  }

  /** After a successful insert the created row leads the list and the form
      is cleared. */
  function AfterCreate(events: seq<Event>, created: Event, now: string): (r: (seq<Event>, EventForm))
    ensures |r.0| == |events| + 1 && r.0[0] == created && r.0[1..] == events
    ensures r.1.title == "" && r.1.description == "" && r.1.sportCategory == "" && r.1.tags == ""
      && r.1.imageUrl == ""
  {
    ([created] + events, EmptyForm(now))
  }

  /** The cleared form is rejected until a title is typed. */
  lemma {:induction false} ClearedFormRejected(restaurantId: Option<string>, now: string)
    ensures SaveEventAction(EmptyForm(now), restaurantId) == Rejected
  {
    assert Blank("") by { assert Trim("") == ""; }
  }

  function EventId(e: Event): string {
    e.id
  }

  /** `events.filter(ev => ev.id !== eventId)` after a successful delete. */
  function DeleteEvent(events: seq<Event>, eventId: string): (r: seq<Event>)
    ensures forall k :: 0 <= k < |r| ==> r[k].id != eventId
  {
    RemoveKey(events, EventId, eventId)
  }

  lemma {:induction false} DeleteEventKeeps(events: seq<Event>, eventId: string, e: Event)
    ensures IsSubsequence(DeleteEvent(events, eventId), events)
    ensures e in DeleteEvent(events, eventId) <==> e in events && e.id != eventId
  {
    RemoveKeyKeeps(events, EventId, eventId, e);
  }

  // ------------------------------------------------------------ upload path

  /** `handleUpload`'s object name: `<restaurant>/events/event-<now>-<random>.<ext>`
      with the extension taken after the last `.` of the file URI; `None`
      for the error thrown without a restaurant. */
  function EventUploadPath(restaurantId: Option<string>, uri: string, nowMs: int, random: string)
    : (r: Option<string>)
    ensures r.None? <==> !Truthy(restaurantId)
    ensures r.Some? ==> StartsWith(r.value, restaurantId.value + "/events/event-")
    ensures r.Some? ==> EndsWith(r.value, "." + LastPiece(uri, '.'))
  {
    if !Truthy(restaurantId) then None
    else
      var prefix := restaurantId.value + "/events/event-";
      var tail := IntToString(nowMs) + "-" + random + "." + LastPiece(uri, '.');
      assert (prefix + tail)[..|prefix|] == prefix;
      assert (prefix + tail)[|prefix + tail| - |"." + LastPiece(uri, '.')|..] == "." + LastPiece(uri, '.');
      Some(prefix + tail)
  }
}

=== FILE: favorites.dfy ===
/** The favourites screen: the deals and lunch specials of the favourite
    restaurants grouped by restaurant, removing a favourite (with the
    `removingIds` list that disables its button meanwhile) and the cover
    picture of a card. The backend's rows and the delete's outcome are
    parameters. */
module Favorites {
  import opened Optional
  import opened Lists

  datatype Restaurant = Restaurant(
    id: string,
    name: string,
    city: string,
    state: string,
    imageUrl: Option<string>,
    logoUrl: Option<string>,
    exteriorImageUrl: Option<string>)

  datatype Favorite = Favorite(id: string, createdAt: string, restaurant: Restaurant)

  /** A happy-hour deal or a lunch special: both are grouped the same way. */
  datatype Listing = Listing(id: string, restaurantId: string, title: string)

  /** The screen's lists. */
  datatype Screen = Screen(
    favorites: seq<Favorite>,
    dealsByRestaurant: map<string, seq<Listing>>,
    lunchByRestaurant: map<string, seq<Listing>>,
    removingIds: seq<string>)

  // ------------------------------------------------------------ grouping

  function ListingRestaurant(l: Listing): string {
    l.restaurantId
  }

  /** The bucket of a restaurant on a card: `byRestaurant[id] || []`. */
  function BucketOf(m: map<string, seq<Listing>>, restaurantId: string): seq<Listing> {
    if restaurantId in m then m[restaurantId] else []
  }

  /** `loadFavorites` after the favourites arrived: the deals and lunch
      specials are looked up only when there is a favourite, and each
      answer that came back replaces its map with the rows grouped by
      restaurant. The second result says whether the lookups ran. */
  function LoadListings(s: Screen, favorites: seq<Favorite>, deals: Option<seq<Listing>>,
                        lunch: Option<seq<Listing>>): (r: (Screen, bool))
    ensures r.0.favorites == favorites && r.0.removingIds == s.removingIds
    ensures r.1 <==> |favorites| > 0
    ensures !r.1 ==> r.0 == s.(favorites := favorites)
    ensures r.1 && deals.Some? ==> r.0.dealsByRestaurant == GroupBy(deals.value, ListingRestaurant)
    ensures r.1 && lunch.Some? ==> r.0.lunchByRestaurant == GroupBy(lunch.value, ListingRestaurant)
    ensures deals.None? ==> r.0.dealsByRestaurant == s.dealsByRestaurant
    ensures lunch.None? ==> r.0.lunchByRestaurant == s.lunchByRestaurant
  {
    var s1 := s.(favorites := favorites);
    if |favorites| == 0 then (s1, false)
    else
      var s2 := if deals.Some? then s1.(dealsByRestaurant := GroupBy(deals.value, ListingRestaurant)) else s1;
      var s3 := if lunch.Some? then s2.(lunchByRestaurant := GroupBy(lunch.value, ListingRestaurant)) else s2;
      (s3, true)
  }

  /** Grouping loses nothing and invents nothing: a card shows exactly the
      listings of its restaurant, in the order they came back. */
  lemma {:induction false} GroupingShowsExactly(rows: seq<Listing>, restaurantId: string, x: Listing)
    ensures BucketOf(GroupBy(rows, ListingRestaurant), restaurantId)
      == Filter(rows, KeyIs(ListingRestaurant, restaurantId))
    ensures x in BucketOf(GroupBy(rows, ListingRestaurant), restaurantId) <==> x in rows && x.restaurantId == restaurantId
  {
    var m := GroupBy(rows, ListingRestaurant);
    if restaurantId !in m {
      forall i | 0 <= i < |rows| ensures !KeyIs(ListingRestaurant, restaurantId)(rows[i]) {
        assert ListingRestaurant(rows[i]) in KeysOf(rows, ListingRestaurant);
      }
      FilterNone(rows, KeyIs(ListingRestaurant, restaurantId));
    }
    FilterMembership(rows, KeyIs(ListingRestaurant, restaurantId), x);
  }

  // ------------------------------------------------------------ removing

  function FavoriteRestaurant(f: Favorite): string {
    f.restaurant.id
  }

  /** The first step of `removeFavorite`: the restaurant joins
      `removingIds`, which disables its button. */
  function BeginRemove(s: Screen, restaurantId: string): (r: Screen)
    ensures r.removingIds == s.removingIds + [restaurantId]
    ensures r.favorites == s.favorites
  {
    s.(removingIds := s.removingIds + [restaurantId])
  }

  /** The end of `removeFavorite`: on success every favourite of that
      restaurant goes; in any case every copy of the id leaves
      `removingIds`. */
  function FinishRemove(s: Screen, restaurantId: string, deleted: bool): (r: Screen)
    ensures deleted ==> r.favorites == RemoveKey(s.favorites, FavoriteRestaurant, restaurantId)
    ensures !deleted ==> r.favorites == s.favorites
    ensures restaurantId !in r.removingIds
    ensures r.dealsByRestaurant == s.dealsByRestaurant && r.lunchByRestaurant == s.lunchByRestaurant
  {
    var favorites := if deleted then RemoveKey(s.favorites, FavoriteRestaurant, restaurantId) else s.favorites;
    var removing := Filter(s.removingIds, Differs(restaurantId));
    assert !Differs(restaurantId)(restaurantId);
    FilterMembership(s.removingIds, Differs(restaurantId), restaurantId);
    s.(favorites := favorites, removingIds := removing)
  }

  /** `removeFavorite` as a whole: nothing without a signed-in user. */
  function RemoveFavorite(s: Screen, userId: Option<string>, restaurantId: string, deleted: bool): (r: Screen)
    ensures !Truthy(userId) ==> r == s
  {
    if !Truthy(userId) then s else FinishRemove(BeginRemove(s, restaurantId), restaurantId, deleted)
  }

  /** After a removal by a signed-in user: the restaurant's favourites are
      gone when the delete succeeded and untouched when it failed, the
      other favourites stay in order, and `removingIds` holds exactly the
      other ids it held before. */
  lemma {:induction false} RemoveFavoriteEffect(s: Screen, userId: string, restaurantId: string, deleted: bool, f: Favorite, id: string)
    requires userId != ""
    ensures var r := RemoveFavorite(s, Some(userId), restaurantId, deleted);
      && IsSubsequence(r.favorites, s.favorites)
      && (f in r.favorites <==> f in s.favorites && (!deleted || f.restaurant.id != restaurantId))
      && (id in r.removingIds <==> id in s.removingIds && id != restaurantId)
  {
    var mid := BeginRemove(s, restaurantId);
    var r := RemoveFavorite(s, Some(userId), restaurantId, deleted);
    if deleted {
      RemoveKeyKeeps(s.favorites, FavoriteRestaurant, restaurantId, f);
    } else {
      NoDropIsSubsequence(s.favorites);
    }
    FilterMembership(mid.removingIds, Differs(restaurantId), id);
  }

  lemma {:induction false} NoDropIsSubsequence<T>(xs: seq<T>)
    ensures IsSubsequence(xs, xs)
    decreases |xs|
  {
    if |xs| > 0 {
      NoDropIsSubsequence(xs[1..]);
    }
  }

  /** A card's button is disabled while its restaurant is being removed. */
  predicate IsRemoving(s: Screen, restaurantId: string) {
    restaurantId in s.removingIds
  }

  // ------------------------------------------------------------ cover picture

  const Placeholder: string := "https://via.placeholder.com/400x200"

  /** `exterior_image_url || logo_url || image_url`, shown with the
      placeholder when none is set. */
  function CoverImage(r: Restaurant): (url: string)
    ensures url != ""
    ensures Truthy(r.exteriorImageUrl) ==> url == r.exteriorImageUrl.value
    ensures !Truthy(r.exteriorImageUrl) && Truthy(r.logoUrl) ==> url == r.logoUrl.value
    ensures !Truthy(r.exteriorImageUrl) && !Truthy(r.logoUrl) && Truthy(r.imageUrl) ==> url == r.imageUrl.value
    ensures !Truthy(r.exteriorImageUrl) && !Truthy(r.logoUrl) && !Truthy(r.imageUrl) ==> url == Placeholder
  {
    OrElse(Or(Or(r.exteriorImageUrl, r.logoUrl), r.imageUrl), Placeholder)
  }

  /** The cover is the first picture that is set, taken in the order
      exterior, logo, image, and the placeholder when none is. */
  lemma {:induction false} CoverImageIsFirstSet(r: Restaurant)
    ensures CoverImage(r) == OrElse(FirstSet([r.exteriorImageUrl, r.logoUrl, r.imageUrl]), Placeholder)
  {
    var xs := [r.exteriorImageUrl, r.logoUrl, r.imageUrl];
    if !Truthy(r.exteriorImageUrl) {
      assert xs[1..] == [r.logoUrl, r.imageUrl];
      assert FirstSet(xs) == FirstSet([r.logoUrl, r.imageUrl]);
      if !Truthy(r.logoUrl) {
        assert [r.logoUrl, r.imageUrl][1..] == [r.imageUrl];
        assert FirstSet(xs) == FirstSet([r.imageUrl]);
        assert Truthy(r.imageUrl) ==> FirstSet(xs) == r.imageUrl;
      }
    }
  }
}

=== FILE: following.dfy ===
/** The list of followed restaurants: switching one restaurant's
    notifications, unfollowing, and the deal badge of a card. */
module Following {
  import opened Optional
  import opened JsText
  import opened Lists

  /** A followed restaurant; its distance is shown only and left out. */
  datatype Followed = Followed(
    id: string,
    name: string,
    cuisineType: string,
    activePromotions: int,
    lastPromotion: Option<string>,
    isNotificationEnabled: bool)

  function FollowedId(f: Followed): string {
    f.id
  }

  function FlipNotifications(f: Followed): Followed {
    f.(isNotificationEnabled := !f.isNotificationEnabled)
  }

  /** `toggleNotifications(id)`: the restaurants with that id have their
      notification flag flipped; every other entry and field is kept. */
  function ToggleNotifications(list: seq<Followed>, id: string): (r: seq<Followed>)
    ensures |r| == |list|
    ensures forall k :: 0 <= k < |list| ==>
      if list[k].id == id then r[k] == list[k].(isNotificationEnabled := !list[k].isNotificationEnabled)
      else r[k] == list[k]
  {
    UpdateWhere(list, KeyIs(FollowedId, id), FlipNotifications)
  }

  /** Switching twice restores the list; an id that is not followed leaves
      it as it was. */
  lemma {:induction false} ToggleNotificationsTwice(list: seq<Followed>, id: string)
    ensures ToggleNotifications(ToggleNotifications(list, id), id) == list
    ensures (forall k :: 0 <= k < |list| ==> list[k].id != id) ==> ToggleNotifications(list, id) == list
  {
    UpdateWhereTwice(list, KeyIs(FollowedId, id), FlipNotifications);
  }

  /** `unfollowRestaurant(id)`. */
  function Unfollow(list: seq<Followed>, id: string): (r: seq<Followed>)
    ensures |r| <= |list|
    ensures forall k :: 0 <= k < |r| ==> r[k].id != id
  {
    RemoveKey(list, FollowedId, id)
  }

  lemma {:induction false} UnfollowKeeps(list: seq<Followed>, id: string, f: Followed)
    ensures IsSubsequence(Unfollow(list, id), list)
    ensures f in Unfollow(list, id) <==> f in list && f.id != id
  {
    RemoveKeyKeeps(list, FollowedId, id, f);
  }

  /** The card's deal badge: `<n> active deal`, plural from two deals on,
      and no badge (the "No active deals" note) without a deal. */
  function DealBadge(activePromotions: int): (badge: Option<string>)
    ensures badge.Some? <==> activePromotions > 0
    ensures badge.Some? ==> StartsWith(badge.value, IntToString(activePromotions) + " active deal")
    ensures badge.Some? ==> (EndsWith(badge.value, "s") <==> activePromotions > 1)
  {
    if activePromotions <= 0 then None
    else
      var head := IntToString(activePromotions) + " active deal";
      var text := head + (if activePromotions > 1 then "s" else "");
      assert text[..|head|] == head;
      assert text[|text| - 1] == if activePromotions > 1 then 's' else 'l';
      Some(text)
  }
}

=== FILE: geocode.dfy ===
/** The background geocoding of the restaurant screen: the fetched
    restaurants are visited in batches of five, each address is looked up,
    and a successful lookup sets that restaurant's coordinates. After each
    batch the whole list is published. The address lookup is a parameter;
    the pause between batches is not modelled. */
module Geocode {
  import opened Optional
  import opened Home

  /** `batchSize`. */
  const BatchSize: nat := 5

  /** The address text sent to the lookup. */
  function FullAddress(r: Restaurant): string {
    r.address + ", " + r.city + ", " + r.state + " " + r.zipCode
  }

  /** The restaurant after its lookup: new coordinates on success, untouched
      on failure. */
  function Located(r: Restaurant, found: Option<Coords>): (l: Restaurant)
    ensures found.None? ==> l == r
    ensures found.Some? ==> l.coords == found && l.(coords := r.coords) == r
  {
    if found.Some? then r.(coords := found) else r
  }

  /** The list once the first `done` restaurants have been looked up. */
  function LocatedUpTo(rs: seq<Restaurant>, lookup: string -> Option<Coords>, done: nat): (l: seq<Restaurant>)
    ensures |l| == |rs|
  {
    seq(|rs|, k requires 0 <= k < |rs| =>
      if k < done then Located(rs[k], lookup(FullAddress(rs[k]))) else rs[k])
  }

  function Min(a: nat, b: nat): nat {
    if a <= b then a else b
  }

  /** `geocodeRestaurantsInBackground`: every index is visited exactly once,
      in order; the final list has the input's length and differs from it
      only in the coordinates of the restaurants whose lookup succeeded; one
      snapshot is published per batch, showing the batches so far applied
      and the rest of the list as fetched. */
  method GeocodeInBatches(rs: seq<Restaurant>, lookup: string -> Option<Coords>)
    returns (updated: seq<Restaurant>, visited: seq<nat>, published: seq<seq<Restaurant>>)
    ensures |updated| == |rs|
    ensures |visited| == |rs| && forall k :: 0 <= k < |visited| ==> visited[k] == k
    ensures forall k :: 0 <= k < |rs| ==> updated[k] == Located(rs[k], lookup(FullAddress(rs[k])))
    ensures |published| == (|rs| + BatchSize - 1) / BatchSize
    ensures forall b :: 0 <= b < |published| ==>
      published[b] == LocatedUpTo(rs, lookup, Min((b + 1) * BatchSize, |rs|))
  {
    updated := rs;
    visited := [];
    published := [];
    var i: nat := 0;
    while i < |rs|
      invariant i % BatchSize == 0
      invariant i <= |rs| + BatchSize - 1
      invariant |visited| == Min(i, |rs|) && forall k :: 0 <= k < |visited| ==> visited[k] == k
      invariant updated == LocatedUpTo(rs, lookup, Min(i, |rs|))
      invariant |published| == i / BatchSize
      invariant forall b :: 0 <= b < |published| ==>
        published[b] == LocatedUpTo(rs, lookup, Min((b + 1) * BatchSize, |rs|))
      decreases |rs| - i
    {
      var batch := rs[i..Min(i + BatchSize, |rs|)];
      var j := 0;
      while j < |batch|
        invariant 0 <= j <= |batch|
        invariant |visited| == i + j && forall k :: 0 <= k < |visited| ==> visited[k] == k
        invariant updated == LocatedUpTo(rs, lookup, i + j)
      {
        var index := i + j;
        updated := updated[index := Located(updated[index], lookup(FullAddress(batch[j])))];
        visited := visited + [index];
        j := j + 1;
      }
      published := published + [updated];
      i := i + BatchSize;
    }
  }
}

=== FILE: happy_hour.dfy ===
/** The restaurant owner's happy-hour screen: the deal form (defaults, day
    toggle, validation and the update-or-insert decision), removal of deals
    and menu files from the lists, and the day-list and time labels. */
module HappyHour {
  import opened Optional
  import opened JsText
  import opened Lists

  /** The price a form holds: text typed into the field, or the number a
      stored row carries (the column is numeric; the row stores `parseFloat`
      of the typed text), given by its `String` text. */
  datatype Price = Typed(text: string) | Stored(text: string)

  /** A `happy_hour_deals` row as the form holds it. */
  datatype DealForm = DealForm(
    id: Option<string>,
    title: string,
    description: string,
    price: Price,
    daysOfWeek: seq<string>,
    startTime: string,
    endTime: string,
    isActive: bool)

  /** An uploaded menu file. */
  datatype MenuFile = MenuFile(name: string, url: string, path: string)

  /** The day picker: stored value and short label, Monday first. */
  const DayChoices: seq<(string, string)> := [
    ("monday", "Mon"), ("tuesday", "Tue"), ("wednesday", "Wed"), ("thursday", "Thu"),
    ("friday", "Fri"), ("saturday", "Sat"), ("sunday", "Sun")]

  // ------------------------------------------------------------ the form

  /** The form of a new deal: empty texts and days, 16:00 to 19:00, active. */
  const NewDealForm: DealForm := DealForm(None, "", "", Typed(""), [], "16:00", "19:00", true)

  /** `openDealModal(deal?)`: the deal being edited and the form contents. */
  function OpenDealModal(deal: Option<DealForm>): (r: (Option<DealForm>, DealForm))
    ensures deal.Some? ==> r == (deal, deal.value)
    ensures deal.None? ==>
      (r.0.None? && r.1.title == "" && r.1.description == "" && r.1.price == Typed("")
       && r.1.daysOfWeek == [] && r.1.startTime == "16:00" && r.1.endTime == "19:00" && r.1.isActive)
  {
    if deal.Some? then (deal, deal.value) else (None, NewDealForm)
  }

  /** Typing into the price field replaces the price with the typed text
      and changes nothing else. */
  function TypePrice(form: DealForm, value: string): (r: DealForm)
    ensures r.price.Typed? && r.price.text == value
    ensures r.(price := form.price) == form
  {
    form.(price := Typed(value))
  }

  /** `handleDayToggle(day)` on the form. */
  function ToggleDay(form: DealForm, day: string): (r: DealForm)
    ensures r.(daysOfWeek := form.daysOfWeek) == form
    ensures day in r.daysOfWeek <==> day !in form.daysOfWeek
  {
    ToggleMemberFacts(form.daysOfWeek, day, day);
    form.(daysOfWeek := ToggleMember(form.daysOfWeek, day))
  }

  /** A present day leaves with every copy, the other days keeping their
      order; an absent day is appended at the end. */
  lemma {:induction false} ToggleDayEffect(form: DealForm, day: string, other: string)
    ensures day in form.daysOfWeek ==> IsSubsequence(ToggleDay(form, day).daysOfWeek, form.daysOfWeek)
    ensures day !in form.daysOfWeek ==> ToggleDay(form, day).daysOfWeek == form.daysOfWeek + [day]
    ensures other != day ==> (other in ToggleDay(form, day).daysOfWeek <==> other in form.daysOfWeek)
  {
    ToggleMemberFacts(form.daysOfWeek, day, other);
  }

  /** Toggling a day twice restores whether it is selected, and restores the
      exact list when it was not selected. */
  lemma {:induction false} ToggleDayTwice(form: DealForm, day: string)
    ensures day in ToggleDay(ToggleDay(form, day), day).daysOfWeek <==> day in form.daysOfWeek
    ensures day !in form.daysOfWeek ==> ToggleDay(ToggleDay(form, day), day) == form
  {
    ToggleMemberTwice(form.daysOfWeek, day);
  }

  // ------------------------------------------------------------ saving

  /** The fields written by a save. */
  datatype DealPayload = DealPayload(
    title: string, description: string, price: string, daysOfWeek: seq<string>,
    startTime: string, endTime: string, isActive: bool)

  datatype SaveDeal =
    | NoRestaurant
    | Invalid(message: string)
    | Update(id: string, payload: DealPayload)
    | Insert(restaurantId: string, payload: DealPayload)
    | Throws

  function PayloadOf(form: DealForm): DealPayload {
    DealPayload(form.title, form.description, form.price.text, form.daysOfWeek,
                form.startTime, form.endTime, form.isActive)
  }

  /** The first failing check, in the order of `handleSaveDeal`. There is
      none exactly when the title, description and price each hold a
      character other than white space and at least one day is selected. */
  function DealProblem(form: DealForm): (problem: Option<string>)
    ensures problem.None? <==>
      !AllSpace(form.title) && !AllSpace(form.description) && !AllSpace(form.price.text)
      && |form.daysOfWeek| > 0
  {
    BlankIff(form.title);
    BlankIff(form.description);
    BlankIff(form.price.text);
    if Blank(form.title) then Some("Title is required")
    else if Blank(form.description) then Some("Description is required")
    else if Blank(form.price.text) then Some("Price is required")
    else if |form.daysOfWeek| == 0 then Some("Please select at least one day")
    else None
  }

  /** `handleSaveDeal` with the price read as text whatever it holds
      (`String(dealForm.price).trim()`): nothing without a restaurant; the
      first failing check is reported and nothing is written; otherwise an
      update of the deal being edited when it has an id, else an insert for
      the restaurant. */
  function SaveDealActionCorrected(form: DealForm, editing: Option<DealForm>, restaurantId: Option<string>): (r: SaveDeal)
    ensures !Truthy(restaurantId) <==> r == NoRestaurant
    ensures r != Throws
    ensures r.Invalid? <==> Truthy(restaurantId) && DealProblem(form).Some?
    ensures r.Update? ==> editing.Some? && Truthy(editing.value.id) && r.id == editing.value.id.value
                          && r.payload == PayloadOf(form)
    ensures r.Insert? ==> r.restaurantId == restaurantId.value && r.payload == PayloadOf(form)
                          && !(editing.Some? && Truthy(editing.value.id))
  {
    if !Truthy(restaurantId) then NoRestaurant
    else match DealProblem(form)
      case Some(msg) => Invalid(msg)
      case None =>
        if editing.Some? && Truthy(editing.value.id) then Update(editing.value.id.value, PayloadOf(form))
        else Insert(restaurantId.value, PayloadOf(form))
  }

  /** `handleSaveDeal` as the screen has it: the price check calls `trim`
      on the form's price, which is a number when the form was filled from
      a stored deal, so the call throws outside the `try` once the title and
      description checks pass, and nothing is saved or reported. A typed
      price behaves as in the corrected save. */
  function SaveDealAction(form: DealForm, editing: Option<DealForm>, restaurantId: Option<string>): (r: SaveDeal)
    ensures r == Throws <==>
      Truthy(restaurantId) && !Blank(form.title) && !Blank(form.description) && form.price.Stored?
    ensures r != Throws ==> r == SaveDealActionCorrected(form, editing, restaurantId)
    ensures form.price.Typed? ==> r == SaveDealActionCorrected(form, editing, restaurantId)
  {
    if Truthy(restaurantId) && !Blank(form.title) && !Blank(form.description) && form.price.Stored? then Throws
    else SaveDealActionCorrected(form, editing, restaurantId)
  }

  /** The checks run in order: a blank title is reported whatever else is
      wrong; a blank description only with a title; a blank price only with
      both; the days only with all three texts present. A form passing them
      all has non-blank texts and at least one day. */
  lemma {:induction false} DealChecksInOrder(form: DealForm)
    ensures Blank(form.title) ==> DealProblem(form) == Some("Title is required")
    ensures !Blank(form.title) && Blank(form.description) ==> DealProblem(form) == Some("Description is required")
    ensures !Blank(form.title) && !Blank(form.description) && Blank(form.price.text) ==>
      DealProblem(form) == Some("Price is required")
    ensures DealProblem(form).None? <==>
      !Blank(form.title) && !Blank(form.description) && !Blank(form.price.text) && |form.daysOfWeek| > 0
  {
  }

  /** A freshly opened form fails on its empty title first, so nothing is
      saved until a title is typed. */
  lemma {:induction false} NewDealRejected(restaurantId: string)
    requires restaurantId != ""
    ensures var (editing, form) := OpenDealModal(None);
      DealProblem(form) == Some("Title is required")
      && SaveDealAction(form, editing, Some(restaurantId)) == Invalid("Title is required")
  {
    assert Blank("") by { assert Trim("") == ""; }
  }

  /** As written: opening a stored deal and saving it without retyping its
      price throws, so the edit is never written. */
  lemma {:induction false} EditedDealThrows(deal: DealForm, restaurantId: string)
    requires restaurantId != "" && deal.price.Stored?
    requires !Blank(deal.title) && !Blank(deal.description)
    ensures var (editing, form) := OpenDealModal(Some(deal));
      SaveDealAction(form, editing, Some(restaurantId)) == Throws
  {
  }

  /** Corrected: the same stored deal, with a price that reads as text, a
      day and an id, is written back as an update of that deal with its own
      fields; retyping the price gives the same outcome with either save. */
  lemma {:induction false} EditedDealUpdates(deal: DealForm, restaurantId: string, typed: string)
    requires restaurantId != "" && Truthy(deal.id)
    requires DealProblem(deal).None?
    ensures var (editing, form) := OpenDealModal(Some(deal));
      SaveDealActionCorrected(form, editing, Some(restaurantId)) == Update(deal.id.value, PayloadOf(deal))
    ensures var (editing, form) := OpenDealModal(Some(deal));
      SaveDealAction(TypePrice(form, typed), editing, Some(restaurantId))
      == SaveDealActionCorrected(TypePrice(form, typed), editing, Some(restaurantId))
  {
  }

  // ------------------------------------------------------------ deleting

  /** `deals.filter(deal => deal.id !== dealId)`. */
  function DeleteDeal(deals: seq<DealForm>, dealId: string): (r: seq<DealForm>)
    ensures forall k :: 0 <= k < |r| ==> r[k].id != Some(dealId)
  {
    Filter(deals, (d: DealForm) => d.id != Some(dealId))
  }

  lemma {:induction false} DeleteDealKeeps(deals: seq<DealForm>, dealId: string, d: DealForm)
    ensures IsSubsequence(DeleteDeal(deals, dealId), deals)
    ensures d in DeleteDeal(deals, dealId) <==> d in deals && d.id != Some(dealId)
  {
    FilterIsSubsequence(deals, (d: DealForm) => d.id != Some(dealId));
    FilterMembership(deals, (d: DealForm) => d.id != Some(dealId), d);
  }

  function FileName(f: MenuFile): string {
    f.name
  }

  /** `handleDeleteFile`: without a restaurant, or when the storage call
      fails, the list is kept; otherwise the files with another name
      remain, in order. */
  function DeleteFile(files: seq<MenuFile>, fileName: string, restaurantId: Option<string>, removed: bool)
    : (r: seq<MenuFile>)
    ensures !Truthy(restaurantId) || !removed ==> r == files
    ensures Truthy(restaurantId) && removed ==> r == RemoveKey(files, FileName, fileName)
  {
    if Truthy(restaurantId) && removed then RemoveKey(files, FileName, fileName) else files
  }

  lemma {:induction false} DeleteFileKeeps(files: seq<MenuFile>, fileName: string, restaurantId: Option<string>, f: MenuFile)
    requires Truthy(restaurantId)
    ensures IsSubsequence(DeleteFile(files, fileName, restaurantId, true), files)
    ensures f in DeleteFile(files, fileName, restaurantId, true) <==> f in files && f.name != fileName
  {
    RemoveKeyKeeps(files, FileName, fileName, f);
  }

  // ------------------------------------------------------------ day labels

  /** The seven stored day names. */
  const WeekDays: set<string> := {"monday", "tuesday", "wednesday", "thursday", "friday", "saturday", "sunday"}

  predicate KnownDay(day: string) {
    day in WeekDays
  }

  /** `dayMap[day] || day`: the short label of a known day name, the text
      itself otherwise. */
  function DayLabel(day: string): (shown: string)
    ensures KnownDay(day) ==> |shown| == 3
    ensures !KnownDay(day) ==> shown == day
  {
    if day == "monday" then "Mon"
    else if day == "tuesday" then "Tue"
    else if day == "wednesday" then "Wed"
    else if day == "thursday" then "Thu"
    else if day == "friday" then "Fri"
    else if day == "saturday" then "Sat"
    else if day == "sunday" then "Sun"
    else day
  }

  /** The list labels agree with the day picker: every stored value of the
      picker is a known day and reads as the picker's label. */
  lemma {:induction false} DayLabelsMatchPicker(i: int)
    requires 0 <= i < |DayChoices|
    ensures KnownDay(DayChoices[i].0) && DayLabel(DayChoices[i].0) == DayChoices[i].1
  {
  }

  function Labels(days: seq<string>): (r: seq<string>)
    ensures |r| == |days|
    ensures forall k :: 0 <= k < |days| ==> r[k] == DayLabel(days[k])
  {
    seq(|days|, k requires 0 <= k < |days| => DayLabel(days[k]))
  }

  /** `formatDays`: exactly seven entries read "Every day"; otherwise the
      labels joined with ", ". */
  function FormatDays(days: seq<string>): (r: string)
    ensures |days| == 7 ==> r == "Every day"
    ensures |days| != 7 ==> r == Join(Labels(days), ", ")
  {
    if |days| == 7 then "Every day" else Join(Labels(days), ", ")
  }

  lemma {:induction false} JoinThreeLetterLength(parts: seq<string>)
    requires |parts| >= 1
    requires forall k :: 0 <= k < |parts| ==> |parts[k]| == 3
    ensures |Join(parts, ", ")| == 5 * |parts| - 2
    decreases |parts|
  {
    if |parts| > 1 {
      JoinThreeLetterLength(parts[1..]);
    }
  }

  /** When every entry is a known day name, the label reads "Every day"
      exactly when there are seven entries. (An unknown entry passes through
      unchanged, so the list `["Every day"]` reads "Every day" too.) */
  lemma {:induction false} FormatDaysEveryDay(days: seq<string>)
    requires forall k :: 0 <= k < |days| ==> KnownDay(days[k])
    ensures FormatDays(days) == "Every day" <==> |days| == 7
  {
    if |days| != 7 {
      var labels := Labels(days);
      if |days| == 0 {
        assert FormatDays(days) == "";
      } else {
        forall k | 0 <= k < |labels| ensures |labels[k]| == 3 {
          assert KnownDay(days[k]);
        }
        JoinThreeLetterLength(labels);
        assert |FormatDays(days)| != |"Every day"|;
      }
    }
  }

  /** The days picked through the toggle are known names without repeats:
      a toggle of a known day keeps both properties. */
  predicate WellFormedDays(days: seq<string>) {
    (forall k :: 0 <= k < |days| ==> KnownDay(days[k])) && Distinct(days)
  }

  lemma {:induction false} ToggleDayKeepsWellFormed(form: DealForm, day: string)
    requires WellFormedDays(form.daysOfWeek) && KnownDay(day)
    ensures WellFormedDays(ToggleDay(form, day).daysOfWeek)
  {
    var days := ToggleDay(form, day).daysOfWeek;
    ToggleMemberDistinct(form.daysOfWeek, day);
    forall k | 0 <= k < |days| ensures KnownDay(days[k]) {
      assert days[k] in days;
      if days[k] != day {
        ToggleMemberFacts(form.daysOfWeek, day, days[k]);
      }
    }
  }

  /** For days picked through the toggle, seven entries means every day of
      the week is selected. */
  lemma {:induction false} SevenDaysAreEveryDay(days: seq<string>)
    requires WellFormedDays(days)
    ensures |days| == 7 <==> forall d :: KnownDay(d) ==> d in days
  {
    var listed := set d | d in days;
    DistinctElements(days);
    assert listed <= WeekDays by {
      forall d | d in listed ensures d in WeekDays {
        var k :| 0 <= k < |days| && days[k] == d;
        assert KnownDay(days[k]);
      }
    }
    assert |WeekDays| == 7;
    SubsetSize(listed, WeekDays);
    if |days| == 7 {
      assert listed == WeekDays;
    }
    if forall d :: KnownDay(d) ==> d in days {
      assert WeekDays <= listed;
      assert listed == WeekDays;
    }
  }

  /** For days picked through the toggle, the list reads "Every day" exactly
      when all seven days are selected. */
  lemma {:induction false} FormatDaysAllSelected(days: seq<string>)
    requires WellFormedDays(days)
    ensures FormatDays(days) == "Every day" <==> forall d :: KnownDay(d) ==> d in days
  {
    FormatDaysEveryDay(days);
    SevenDaysAreEveryDay(days);
  }

  // ------------------------------------------------------------ time label

  /** The twelve-hour value of a non-negative hour: `hours % 12 || 12`. */
  function Hour12(h: nat): (v: nat)
    ensures 1 <= v <= 12
    ensures v % 12 == h % 12
  {
    if h % 12 == 0 then 12 else h % 12
  }

  /** `formatTime` of the deal list: the text is split at `:` and both
      pieces read with `Number`. Without a minutes piece the call to
      `toString` throws and the text is shown as it is. */
  function FormatDealTime(time: string): (shown: string)
    ensures ':' !in time ==> shown == time
    ensures ':' in time ==> EndsWith(shown, " AM") || EndsWith(shown, " PM")
  {
    var parts := Split(time, ':');
    SplitCount(time, ':');
    assert ':' in time <==> multiset(time)[':'] > 0;
    if |parts| < 2 then time else DealTimeOfPieces(parts[0], parts[1])
  }

  /** The label from the hour and minute texts. A `NaN` hour reads as `12`
      with `AM`; `NaN` minutes read `NaN`. */
  function DealTimeOfPieces(hoursText: string, minutesText: string): string {
    DealTimeOfValues(NumberOf(hoursText), NumberOf(minutesText))
  }

  function DealTimeOfValues(hours: Option<int>, minutes: Option<int>): string {
    ShownHour(hours) + ":" + PadStart(MinutesText(minutes), 2, '0') + " " + Period(hours)
  }

  /** `hours % 12 || 12`, with `NaN` falling back to `12`. */
  function ShownHour(hours: Option<int>): string {
    if hours.Some? && JsRem(hours.value, 12) != 0 then IntToString(JsRem(hours.value, 12)) else "12"
  }

  /** `minutes.toString()`. */
  function MinutesText(minutes: Option<int>): string {
    if minutes.Some? then IntToString(minutes.value) else "NaN"
  }

  /** Every label built from the pieces ends in the period. */
  lemma {:induction false} DealTimeEndsWithPeriod(hoursText: string, minutesText: string)
    ensures var shown := DealTimeOfPieces(hoursText, minutesText);
      EndsWith(shown, " AM") || EndsWith(shown, " PM")
  {
  }

  /** `hours >= 12 ? 'PM' : 'AM'`; a `NaN` comparison is false. */
  function Period(hours: Option<int>): string {
    if hours.Some? && hours.value >= 12 then "PM" else "AM"
  }

  /** Text without a `:` is shown unchanged. */
  lemma {:induction false} FormatDealTimeNoColon(time: string)
    requires ':' !in time
    ensures FormatDealTime(time) == time
  {
    SplitFacts(time, ':');
    assert multiset(time)[':'] == 0;
  }

  /** A digit-only `HH:MM` time reads as the twelve-hour value (1 to 12),
      the minutes as at least two digits with a leading zero below ten, and
      `PM` exactly when the hour is 12 or more. */
  lemma {:induction false} FormatDealTimeDigits(hh: string, mm: string, rest: string)
    requires |hh| > 0 && AllDigits(hh) && |mm| > 0 && AllDigits(mm)
    requires rest == "" || rest[0] == ':'
    ensures FormatDealTime(hh + ":" + mm + rest) ==
      NatToString(Hour12(DigitsValue(hh))) + ":" + PadStart(NatToString(DigitsValue(mm)), 2, '0') + " "
      + (if DigitsValue(hh) >= 12 then "PM" else "AM")
  {
    var time := hh + ":" + mm + rest;
    var parts := Split(time, ':');
    assert |parts| >= 2 && parts[0] == hh && parts[1] == mm by {
      NoColonInDigits(hh);
      NoColonInDigits(mm);
      SplitTwoPieces(hh, mm, rest);
    }
    var h, m := DigitsValue(hh), DigitsValue(mm);
    assert FormatDealTime(time) == DealTimeOfPieces(hh, mm);
    assert NumberOf(hh) == Some(h) by { NumberOfDigits(hh); }
    assert NumberOf(mm) == Some(m) by { NumberOfDigits(mm); }
    DealTimeOfNats(h, m);
  }

  lemma {:induction false} DealTimeOfNats(h: nat, m: nat)
    ensures DealTimeOfValues(Some(h), Some(m)) ==
      NatToString(Hour12(h)) + ":" + PadStart(NatToString(m), 2, '0') + " " + (if h >= 12 then "PM" else "AM")
  {
    ShownHourOfNat(h);
    assert MinutesText(Some(m)) == NatToString(m);
  }

  lemma {:induction false} ShownHourOfNat(h: nat)
    ensures ShownHour(Some(h)) == NatToString(Hour12(h))
  {
    assert JsRem(h, 12) == h % 12;
  }
}

=== FILE: home.dfy ===
/** The restaurant-listing screen: the filter pipeline over the fetched
    restaurants, the "deal running now" window test, today's opening hours,
    the 24-hour to 12-hour time label and the favourite toggle. The clock is
    an explicit argument. */
module Home {
  import opened Optional
  import opened JsText
  import opened Lists

  /** `Date.getDay()`: 0 is Sunday. */
  type Weekday = d: int | 0 <= d < 7

  /** The wall clock as the screen reads it: weekday and minutes since
      midnight (`getHours() * 60 + getMinutes()`). */
  datatype Clock = Clock(weekday: Weekday, minuteOfDay: nat)

  /** Lower-case full day names indexed by `getDay()`. */
  const DayNames: seq<string> :=
    ["sunday", "monday", "tuesday", "wednesday", "thursday", "friday", "saturday"]

  /** The seven `hours_<day>` columns of a restaurant row. */
  datatype WeekHours = WeekHours(
    sunday: Option<string>, monday: Option<string>, tuesday: Option<string>,
    wednesday: Option<string>, thursday: Option<string>, friday: Option<string>,
    saturday: Option<string>)

  /** The `hours_<day>` column for a weekday. */
  function HoursOn(h: WeekHours, d: Weekday): Option<string> {
    match d
    case 0 => h.sunday
    case 1 => h.monday
    case 2 => h.tuesday
    case 3 => h.wednesday
    case 4 => h.thursday
    case 5 => h.friday
    case _ => h.saturday
  }

  /** A joined lookup row (`cuisine_type:cuisine_types(id, name)`). */
  datatype Category = Category(id: int, name: string)

  datatype Coords = Coords(lat: real, lng: real)

  /** A `restaurants` row with the columns the listing reads. */
  datatype Restaurant = Restaurant(
    id: string,
    name: string,
    description: Option<string>,
    address: string,
    city: string,
    state: string,
    zipCode: string,
    cuisineTypeId: Option<int>,
    foodStyleId: Option<int>,
    dietaryRestrictionId: Option<int>,
    priceRange: Option<string>,
    cuisineType: Option<Category>,
    hours: WeekHours,
    coords: Option<Coords>)

  /** An active `happy_hour_deals` row. */
  datatype Deal = Deal(id: string, restaurantId: string, startTime: string, endTime: string,
                       daysOfWeek: seq<string>)

  /** An active lunch special (`content` row of type `lunch_special`). */
  datatype LunchSpecial = LunchSpecial(id: string, restaurantId: string, startTime: Option<string>,
                                       endTime: Option<string>, daysOfWeek: Option<seq<string>>)

  /** The filter selections of the screen. */
  datatype Filters = Filters(
    search: string,
    cuisine: Option<int>,
    foodStyle: Option<int>,
    dietary: Option<int>,
    priceRange: Option<string>,
    openOnly: bool,
    happyHourOnly: bool,
    lunchOnly: bool)

  // ------------------------------------------------------------ time window

  /** `parseTime`: `const [h, m] = s.split(':').map(Number); return h * 60 + m`,
      with `None` for a `NaN` result (a missing or non-numeric part). */
  function ParseClock(s: string): Option<int> {
    ClockOfParts(Split(s, ':'))
  }

  function ClockOfParts(parts: seq<string>): Option<int>
    requires |parts| >= 1
  {
    ClockOf(NumberOf(parts[0]), if |parts| >= 2 then NumberOf(parts[1]) else None)
  }

  /** `h * 60 + m`, `NaN` when either number is. */
  function ClockOf(h: Option<int>, m: Option<int>): Option<int> {
    if h.Some? && m.Some? then Some(h.value * 60 + m.value) else None
  }

  lemma {:induction false} ClockOfNumbers(parts: seq<string>, h: int, m: int)
    requires |parts| >= 2
    requires NumberOf(parts[0]) == Some(h) && NumberOf(parts[1]) == Some(m)
    ensures ClockOfParts(parts) == Some(h * 60 + m)
  {
  }

  /** Digit-only `HH:MM` text, optionally followed by `:SS`, parses as
      `HH * 60 + MM`. */
  lemma {:induction false} ParseClockDigits(hh: string, mm: string, rest: string)
    requires |hh| > 0 && AllDigits(hh) && |mm| > 0 && AllDigits(mm)
    requires rest == "" || rest[0] == ':'
    ensures ParseClock(hh + ":" + mm + rest) == Some(DigitsValue(hh) * 60 + DigitsValue(mm))
  {
    var time := hh + ":" + mm + rest;
    var parts := Split(time, ':');
    assert |parts| >= 2 && parts[0] == hh && parts[1] == mm by {
      NoColonInDigits(hh);
      NoColonInDigits(mm);
      SplitTwoPieces(hh, mm, rest);
    }
    ClockOfDigitParts(parts, hh, mm);
  }

  lemma {:induction false} ClockOfDigitParts(parts: seq<string>, hh: string, mm: string)
    requires |hh| > 0 && AllDigits(hh) && |mm| > 0 && AllDigits(mm)
    requires |parts| >= 2 && parts[0] == hh && parts[1] == mm
    ensures ClockOfParts(parts) == Some(DigitsValue(hh) * 60 + DigitsValue(mm))
  {
    var h, m := DigitsValue(hh), DigitsValue(mm);
    assert NumberOf(parts[0]) == Some(h) by { NumberOfDigits(hh); }
    assert NumberOf(parts[1]) == Some(m) by { NumberOfDigits(mm); }
    ClockOfNumbers(parts, h, m);
  }

  /** `isCurrentTimeInRange(start, end, days)`. */
  function InWindow(startTime: string, endTime: string, days: seq<string>, now: Clock): (r: bool)
    ensures DayNames[now.weekday] !in days ==> !r
    ensures r ==> ParseClock(startTime).Some? && ParseClock(endTime).Some?
    ensures ParseClock(startTime).Some? && ParseClock(endTime).Some?
              && ParseClock(startTime).value > ParseClock(endTime).value
            ==> !r
  {
    if DayNames[now.weekday] !in days then false
    else
      match (ParseClock(startTime), ParseClock(endTime))
      case (Some(s), Some(e)) => s <= now.minuteOfDay && now.minuteOfDay <= e
      case _ => false
  }

  /** For `HH:MM` windows on a listed day the test is inclusive at both
      ends: it holds exactly when start <= now <= end in minutes; on an
      unlisted day it never holds. */
  lemma {:induction false} InWindowDigits(sh: string, sm: string, eh: string, em: string, days: seq<string>, now: Clock)
    requires |sh| > 0 && AllDigits(sh) && |sm| > 0 && AllDigits(sm)
    requires |eh| > 0 && AllDigits(eh) && |em| > 0 && AllDigits(em)
    ensures InWindow(sh + ":" + sm, eh + ":" + em, days, now) <==>
      DayNames[now.weekday] in days
      && DigitsValue(sh) * 60 + DigitsValue(sm) <= now.minuteOfDay
      && now.minuteOfDay <= DigitsValue(eh) * 60 + DigitsValue(em)
  {
    var s, e := DigitsValue(sh) * 60 + DigitsValue(sm), DigitsValue(eh) * 60 + DigitsValue(em);
    assert ParseClock(sh + ":" + sm) == Some(s) by { ParseClockPair(sh, sm); }
    assert ParseClock(eh + ":" + em) == Some(e) by { ParseClockPair(eh, em); }
    InWindowOfClocks(sh + ":" + sm, eh + ":" + em, days, now, s, e);
  }

  lemma {:induction false} ParseClockPair(hh: string, mm: string)
    requires |hh| > 0 && AllDigits(hh) && |mm| > 0 && AllDigits(mm)
    ensures ParseClock(hh + ":" + mm) == Some(DigitsValue(hh) * 60 + DigitsValue(mm))
  {
    ParseClockDigits(hh, mm, "");
    assert hh + ":" + mm + "" == hh + ":" + mm;
  }

  /** A window whose times parse holds iff today is listed and the
      current minute lies between them. */
  lemma {:induction false} InWindowOfClocks(startTime: string, endTime: string, days: seq<string>, now: Clock, s: int, e: int)
    requires ParseClock(startTime) == Some(s) && ParseClock(endTime) == Some(e)
    ensures InWindow(startTime, endTime, days, now) <==>
      DayNames[now.weekday] in days && s <= now.minuteOfDay && now.minuteOfDay <= e
  {
  }

  // ------------------------------------------------------------ opening hours

  /** `isRestaurantOpenNow`: open unless today's hours are missing, empty or
      read "closed" in any letter case. */
  function IsOpenNow(r: Restaurant, now: Clock): (open: bool)
    ensures !Truthy(HoursOn(r.hours, now.weekday)) ==> !open
    ensures Truthy(HoursOn(r.hours, now.weekday)) ==>
      (open <==> Lower(HoursOn(r.hours, now.weekday).value) != "closed")
  {
    var h := HoursOn(r.hours, now.weekday);
    !(!Truthy(h) || Lower(h.value) == "closed")
  }

  /** `getTodayHours`: today's hours text, or `'Closed'` when missing. */
  function TodayHours(r: Restaurant, day: Weekday): (text: string)
    ensures Truthy(HoursOn(r.hours, day)) ==> text == HoursOn(r.hours, day).value
    ensures !Truthy(HoursOn(r.hours, day)) ==> text == "Closed"
  {
    OrElse(HoursOn(r.hours, day), "Closed")
  }

  /** The open-now test agrees with the hours label: a restaurant is open
      exactly when the label shown for today does not read "closed". */
  lemma {:induction false} OpenNowMatchesTodayLabel(r: Restaurant, now: Clock)
    ensures IsOpenNow(r, now) <==> Lower(TodayHours(r, now.weekday)) != "closed"
  {
    if !Truthy(HoursOn(r.hours, now.weekday)) {
      assert Lower("Closed") == "closed" by {
        var l := Lower("Closed");
        assert l[0] == LowerChar('C') == 'c';
      }
    }
  }

  // ------------------------------------------------------------ time label

  /** `formatTime` of the listing: `''` stays `''`; otherwise the hour part
      is read with `parseInt`, shown as `hour % 12 || 12` with `AM`/`PM` by
      `hour >= 12`, and the minute part is copied as written (`undefined`
      when the text has no `:`). A `NaN` hour shows as `12` with `AM`. */
  function FormatTime(time: string): (shown: string)
    ensures shown == "" <==> time == ""
    ensures time != "" ==> EndsWith(shown, " AM") || EndsWith(shown, " PM")
  {
    if time == "" then "" else LabelOfParts(Split(time, ':'))
  }

  /** The label built from the `:`-separated pieces of a non-empty time. */
  function LabelOfParts(parts: seq<string>): (shown: string)
    requires |parts| >= 1
    ensures EndsWith(shown, " AM") || EndsWith(shown, " PM")
  {
    LabelOf(ParseInt(parts[0]), if |parts| >= 2 then parts[1] else "undefined")
  }

  /** The label of a parsed hour and the minutes text. */
  function LabelOf(hour: Option<int>, minutes: string): (text: string)
    ensures EndsWith(text, " AM") || EndsWith(text, " PM")
  {
    var pm := hour.Some? && hour.value >= 12;
    var shown := if hour.Some? && JsRem(hour.value, 12) != 0 then IntToString(JsRem(hour.value, 12)) else "12";
    var period := if pm then " PM" else " AM";
    var text := shown + ":" + minutes + period;
    assert text[|text| - 3..] == period;
    text
  }

  /** The twelve-hour reading of an hour of the day. */
  function TwelveHour(h: nat): string
    requires h < 24
  {
    if h == 0 || h == 12 then "12" else if h < 12 then IntToString(h) else IntToString(h - 12)
  }

  /** The label of a digit-only `HH:MM...` time: hour 0 reads `12 AM`,
      hours 1 to 11 read unchanged with `AM`, hour 12 reads `12 PM`, hours
      13 to 23 read `h - 12` with `PM`, and the minutes text is copied
      verbatim. */
  lemma {:induction false} FormatTimeDigits(hh: string, mm: string, rest: string)
    requires |hh| > 0 && AllDigits(hh) && ':' !in mm
    requires rest == "" || rest[0] == ':'
    requires DigitsValue(hh) < 24
    ensures FormatTime(hh + ":" + mm + rest) ==
      TwelveHour(DigitsValue(hh)) + ":" + mm + " " + (if DigitsValue(hh) >= 12 then "PM" else "AM")
  {
    var time := hh + ":" + mm + rest;
    var parts := Split(time, ':');
    assert |parts| >= 2 && parts[0] == hh && parts[1] == mm by {
      NoColonInDigits(hh);
      SplitTwoPieces(hh, mm, rest);
    }
    LabelOfDigitParts(parts, hh);
  }

  lemma {:induction false} LabelOfDigitParts(parts: seq<string>, hh: string)
    requires |hh| > 0 && AllDigits(hh) && DigitsValue(hh) < 24
    requires |parts| >= 2 && parts[0] == hh
    ensures LabelOfParts(parts) ==
      TwelveHour(DigitsValue(hh)) + ":" + parts[1] + " " + (if DigitsValue(hh) >= 12 then "PM" else "AM")
  {
    var h := DigitsValue(hh);
    assert ParseInt(parts[0]) == Some(h) by { ParseIntOfDigits(hh); }
    LabelOfHour(parts, h);
  }

  lemma {:induction false} LabelOfHour(parts: seq<string>, h: nat)
    requires |parts| >= 2 && h < 24 && ParseInt(parts[0]) == Some(h)
    ensures LabelOfParts(parts) == TwelveHour(h) + ":" + parts[1] + " " + (if h >= 12 then "PM" else "AM")
  {
    assert LabelOfParts(parts) == LabelOf(Some(h), parts[1]);
    var r := JsRem(h, 12);
    assert r == if h < 12 then h else h - 12;
  }

  /** The empty time text gives the empty label. */
  lemma {:induction false} FormatTimeEmpty()
    ensures FormatTime("") == ""
  {
  }

  // ------------------------------------------------------------ filters

  /** The free-text test: the lower-cased name, description, city or
      cuisine name contains the query. */
  predicate MatchesSearch(r: Restaurant, query: string) {
    || Includes(Lower(r.name), query)
    || (r.description.Some? && Includes(Lower(r.description.value), query))
    || Includes(Lower(r.city), query)
    || (r.cuisineType.Some? && Includes(Lower(r.cuisineType.value.name), query))
  }

  /** `(dealsByRestaurant[r.id] || []).some(deal => isCurrentTimeInRange(...))` */
  predicate HappyHourNow(deals: map<string, seq<Deal>>, id: string, now: Clock) {
    var ds := if id in deals then deals[id] else [];
    exists i | 0 <= i < |ds| :: InWindow(ds[i].startTime, ds[i].endTime, ds[i].daysOfWeek, now)
  }

  /** A lunch special counts only when both of its times are non-empty. */
  predicate LunchRunning(s: LunchSpecial, now: Clock) {
    Truthy(s.startTime) && Truthy(s.endTime)
    && InWindow(s.startTime.value, s.endTime.value, s.daysOfWeek.GetOr([]), now)
  }

  predicate LunchNow(lunch: map<string, seq<LunchSpecial>>, id: string, now: Clock) {
    var ls := if id in lunch then lunch[id] else [];
    exists i | 0 <= i < |ls| :: LunchRunning(ls[i], now)
  }

  /** The filters that are switched on, in the order `applyFilters` applies
      them. A selection is switched on by JavaScript truthiness, so a
      selected id of 0 or an empty price range switches its filter off, and
      a search of white space only switches the search off. */
  function ActiveTests(f: Filters, deals: map<string, seq<Deal>>,
                       lunch: map<string, seq<LunchSpecial>>, now: Clock): seq<Restaurant -> bool>
  {
    Gate(!Blank(f.search), SearchTest(Lower(f.search)))
    + (Gate(TruthyNum(f.cuisine), CuisineTest(f.cuisine))
    + (Gate(TruthyNum(f.foodStyle), FoodStyleTest(f.foodStyle))
    + (Gate(TruthyNum(f.dietary), DietaryTest(f.dietary))
    + LaterTests(f, deals, lunch, now))))
  }

  function SearchTest(query: string): Restaurant -> bool {
    (r: Restaurant) => MatchesSearch(r, query)
  }

  function CuisineTest(id: Option<int>): Restaurant -> bool {
    (r: Restaurant) => r.cuisineTypeId == id
  }

  function FoodStyleTest(id: Option<int>): Restaurant -> bool {
    (r: Restaurant) => r.foodStyleId == id
  }

  function DietaryTest(id: Option<int>): Restaurant -> bool {
    (r: Restaurant) => r.dietaryRestrictionId == id
  }

  function PriceTest(price: Option<string>): Restaurant -> bool {
    (r: Restaurant) => r.priceRange == price
  }

  function OpenTest(now: Clock): Restaurant -> bool {
    (r: Restaurant) => IsOpenNow(r, now)
  }

  function HappyHourTest(deals: map<string, seq<Deal>>, now: Clock): Restaurant -> bool {
    (r: Restaurant) => HappyHourNow(deals, r.id, now)
  }

  function LunchTest(lunch: map<string, seq<LunchSpecial>>, now: Clock): Restaurant -> bool {
    (r: Restaurant) => LunchNow(lunch, r.id, now)
  }

  /** One filter of the chain, present only when its selection is on. */
  function Gate(on: bool, t: Restaurant -> bool): (g: seq<Restaurant -> bool>)
    ensures |g| <= 1
  {
    if on then [t] else []
  }

  /** `applyFilters`: the restaurants passing every switched-on filter. */
  function ApplyFilters(restaurants: seq<Restaurant>, f: Filters, deals: map<string, seq<Deal>>,
                        lunch: map<string, seq<LunchSpecial>>, now: Clock): (r: seq<Restaurant>)
    ensures |r| <= |restaurants|
    ensures forall x :: x in r ==> x in restaurants
  {
    FilterChain(restaurants, ActiveTests(f, deals, lunch, now))
  }

  /** The conjunction of the switched-on filters, stated independently of
      the chain: each filter applies only when its selection is truthy, and
      then demands exact equality (or the search, hours or deal test). */
  predicate Keep(f: Filters, deals: map<string, seq<Deal>>, lunch: map<string, seq<LunchSpecial>>,
                 now: Clock, r: Restaurant)
  {
    && (!Blank(f.search) ==> MatchesSearch(r, Lower(f.search)))
    && (TruthyNum(f.cuisine) ==> r.cuisineTypeId == f.cuisine)
    && (TruthyNum(f.foodStyle) ==> r.foodStyleId == f.foodStyle)
    && (TruthyNum(f.dietary) ==> r.dietaryRestrictionId == f.dietary)
    && (Truthy(f.priceRange) ==> r.priceRange == f.priceRange)
    && (f.openOnly ==> IsOpenNow(r, now))
    && (f.happyHourOnly ==> HappyHourNow(deals, r.id, now))
    && (f.lunchOnly ==> LunchNow(lunch, r.id, now))
  }

  lemma {:induction false} GatePrepend(on: bool, t: Restaurant -> bool, rest: seq<Restaurant -> bool>, r: Restaurant)
    ensures PassesAll(Gate(on, t) + rest, r) <==> (on ==> t(r)) && PassesAll(rest, r)
  {
    PassesAllAppend(Gate(on, t), rest, r);
    if on { assert PassesAll([t], r) <==> [t][0](r); }
  }

  /** The last four filters of the chain: price range, open now, happy
      hour now and lunch now. */
  function LaterTests(f: Filters, deals: map<string, seq<Deal>>,
                      lunch: map<string, seq<LunchSpecial>>, now: Clock): seq<Restaurant -> bool>
  {
    Gate(Truthy(f.priceRange), PriceTest(f.priceRange))
    + (Gate(f.openOnly, OpenTest(now))
    + (Gate(f.happyHourOnly, HappyHourTest(deals, now))
    + Gate(f.lunchOnly, LunchTest(lunch, now))))
  }

  lemma {:induction false} LaterTestsPass(f: Filters, deals: map<string, seq<Deal>>,
                       lunch: map<string, seq<LunchSpecial>>, now: Clock, r: Restaurant)
    ensures PassesAll(LaterTests(f, deals, lunch, now), r) <==>
      && (Truthy(f.priceRange) ==> r.priceRange == f.priceRange)
      && (f.openOnly ==> IsOpenNow(r, now))
      && (f.happyHourOnly ==> HappyHourNow(deals, r.id, now))
      && (f.lunchOnly ==> LunchNow(lunch, r.id, now))
  {
    var g8 := Gate(f.lunchOnly, LunchTest(lunch, now));
    var g7 := Gate(f.happyHourOnly, HappyHourTest(deals, now)) + g8;
    var g6 := Gate(f.openOnly, OpenTest(now)) + g7;
    GatePrepend(f.lunchOnly, LunchTest(lunch, now), [], r);
    assert g8 + [] == g8;
    GatePrepend(f.happyHourOnly, HappyHourTest(deals, now), g8, r);
    GatePrepend(f.openOnly, OpenTest(now), g7, r);
    GatePrepend(Truthy(f.priceRange), PriceTest(f.priceRange), g6, r);
  }

  lemma {:induction false} ActiveTestsAreKeep(f: Filters, deals: map<string, seq<Deal>>,
                           lunch: map<string, seq<LunchSpecial>>, now: Clock, r: Restaurant)
    ensures PassesAll(ActiveTests(f, deals, lunch, now), r) <==> Keep(f, deals, lunch, now, r)
  {
    var g5 := LaterTests(f, deals, lunch, now);
    var g4 := Gate(TruthyNum(f.dietary), DietaryTest(f.dietary)) + g5;
    var g3 := Gate(TruthyNum(f.foodStyle), FoodStyleTest(f.foodStyle)) + g4;
    var g2 := Gate(TruthyNum(f.cuisine), CuisineTest(f.cuisine)) + g3;
    assert ActiveTests(f, deals, lunch, now) == Gate(!Blank(f.search), SearchTest(Lower(f.search))) + g2;
    LaterTestsPass(f, deals, lunch, now, r);
    GatePrepend(TruthyNum(f.dietary), DietaryTest(f.dietary), g5, r);
    GatePrepend(TruthyNum(f.foodStyle), FoodStyleTest(f.foodStyle), g4, r);
    GatePrepend(TruthyNum(f.cuisine), CuisineTest(f.cuisine), g3, r);
    GatePrepend(!Blank(f.search), SearchTest(Lower(f.search)), g2, r);
  }

  /** The chained filters equal a single filter by `Keep`. */
  lemma {:induction false} ApplyFiltersIsKeepFilter(restaurants: seq<Restaurant>, f: Filters, deals: map<string, seq<Deal>>,
                                 lunch: map<string, seq<LunchSpecial>>, now: Clock)
    ensures ApplyFilters(restaurants, f, deals, lunch, now)
         == Filter(restaurants, (r: Restaurant) => Keep(f, deals, lunch, now, r))
  {
    var tests := ActiveTests(f, deals, lunch, now);
    FilterChainIsFilter(restaurants, tests);
    forall r ensures PassesAllTest(tests)(r) == Keep(f, deals, lunch, now, r) {
      ActiveTestsAreKeep(f, deals, lunch, now, r);
    }
    FilterSameTest(restaurants, PassesAllTest(tests), (r: Restaurant) => Keep(f, deals, lunch, now, r));
  }

  lemma {:induction false} FilterSameTest<T>(xs: seq<T>, p: T -> bool, q: T -> bool)
    requires forall x :: p(x) == q(x)
    ensures Filter(xs, p) == Filter(xs, q)
    decreases |xs|
  {
    if |xs| > 0 {
      FilterSameTest(xs[1..], p, q);
    }
  }

  /** The result keeps the listing order and drops only restaurants, and a
      restaurant is kept exactly when it was listed and passes every
      switched-on filter. */
  lemma {:induction false} ApplyFiltersKeeps(restaurants: seq<Restaurant>, f: Filters, deals: map<string, seq<Deal>>,
                          lunch: map<string, seq<LunchSpecial>>, now: Clock, r: Restaurant)
    ensures IsSubsequence(ApplyFilters(restaurants, f, deals, lunch, now), restaurants)
    ensures r in ApplyFilters(restaurants, f, deals, lunch, now)
        <==> r in restaurants && Keep(f, deals, lunch, now, r)
  {
    ApplyFiltersIsKeepFilter(restaurants, f, deals, lunch, now);
    FilterIsSubsequence(restaurants, (r: Restaurant) => Keep(f, deals, lunch, now, r));
    FilterMembership(restaurants, (r: Restaurant) => Keep(f, deals, lunch, now, r), r);
  }

  /** With no filter switched on (a blank search, falsy selections and all
      toggles off) the listing is returned unchanged. */
  lemma {:induction false} ApplyFiltersAllOff(restaurants: seq<Restaurant>, f: Filters, deals: map<string, seq<Deal>>,
                           lunch: map<string, seq<LunchSpecial>>, now: Clock)
    requires Blank(f.search) && !TruthyNum(f.cuisine) && !TruthyNum(f.foodStyle) && !TruthyNum(f.dietary)
    requires !Truthy(f.priceRange) && !f.openOnly && !f.happyHourOnly && !f.lunchOnly
    ensures ApplyFilters(restaurants, f, deals, lunch, now) == restaurants
  {
    assert ActiveTests(f, deals, lunch, now) == [];
  }

  /** Every restaurant kept under a non-blank search mentions the
      lower-cased query, untrimmed, in one of the searched fields. */
  lemma {:induction false} SearchKeepsOnlyMatches(restaurants: seq<Restaurant>, f: Filters, deals: map<string, seq<Deal>>,
                               lunch: map<string, seq<LunchSpecial>>, now: Clock, r: Restaurant)
    requires !Blank(f.search)
    requires r in ApplyFilters(restaurants, f, deals, lunch, now)
    ensures MatchesSearch(r, Lower(f.search))
  {
    ApplyFiltersKeeps(restaurants, f, deals, lunch, now, r);
  }

  // ------------------------------------------------------------ favourites

  datatype FavoriteOutcome = LoginRequired | FavoriteFailed | Added | Removed

  /** `toggleFavorite`: without a signed-in user nothing changes; otherwise
      the id leaves the set if it was in it and joins it if not, unless the
      backend call threw. */
  function ToggleFavorite(favorites: set<string>, signedIn: bool, id: string, callThrew: bool)
    : (r: (set<string>, FavoriteOutcome))
    ensures !signedIn ==> r == (favorites, LoginRequired)
    ensures signedIn && callThrew ==> r == (favorites, FavoriteFailed)
    ensures signedIn && !callThrew ==> r.0 - {id} == favorites - {id}
    ensures signedIn && !callThrew ==> (id in r.0 <==> id !in favorites)
    ensures r.1 == Added ==> id in r.0 && id !in favorites
    ensures r.1 == Removed ==> id !in r.0 && id in favorites
  {
    if !signedIn then (favorites, LoginRequired)
    else if callThrew then (favorites, FavoriteFailed)
    else if id in favorites then (favorites - {id}, Removed)
    else (favorites + {id}, Added)
  }

  /** Toggling the same favourite twice restores the set. */
  lemma {:induction false} ToggleFavoriteTwice(favorites: set<string>, id: string)
    ensures ToggleFavorite(ToggleFavorite(favorites, true, id, false).0, true, id, false).0 == favorites
  {
  }
}

=== FILE: jstext.dfy ===
/** The JavaScript string and number built-ins the screens rely on, stated
    over `seq<char>`: `trim`, `toLowerCase`, `includes`, `startsWith`,
    `endsWith`, `split` with a one-character separator, `join`, `padStart`,
    `parseInt`, `Number`, integer-to-text conversion and the truncating `%`. */
module JsText {
  import opened Optional

  // ---------------------------------------------------------------- whitespace

  /** The characters `String.prototype.trim` strips: the white space of
      section 12.2 of ECMA-262 (tab, vertical tab, form feed, space,
      no-break space, byte order mark and every other Unicode space
      separator) and the line terminators of section 12.3 (line feed,
      carriage return, line and paragraph separators). */
  predicate IsSpace(c: char) {
    c == '\t' || c == '\U{000B}' || c == '\U{000C}' || c == ' ' || c == '\U{00A0}' || c == '\U{FEFF}'
    || IsOtherSpaceSeparator(c)
    || c == '\n' || c == '\r' || c == '\U{2028}' || c == '\U{2029}'
  }

  /** The Unicode space separators (category Zs) beyond space and no-break
      space: Ogham space mark, the typographic spaces U+2000 to U+200A,
      narrow no-break space, medium mathematical space and ideographic
      space. */
  predicate IsOtherSpaceSeparator(c: char) {
    c == '\U{1680}' || '\U{2000}' <= c <= '\U{200A}' || c == '\U{202F}' || c == '\U{205F}'
    || c == '\U{3000}'
  }

  predicate AllSpace(s: string) {
    forall k :: 0 <= k < |s| ==> IsSpace(s[k])
  }

  /** The number of white space characters at the start. */
  function SpacesBefore(s: string): (n: nat)
    ensures n <= |s|
    ensures n < |s| ==> !IsSpace(s[n])
    decreases |s|
  {
    if |s| > 0 && IsSpace(s[0]) then 1 + SpacesBefore(s[1..]) else 0
  }

  /** The end of the text once the trailing white space is dropped. */
  function ContentEnd(s: string): (n: nat)
    ensures n <= |s|
    ensures n > 0 ==> !IsSpace(s[n - 1])
    decreases |s|
  {
    if |s| > 0 && IsSpace(s[|s| - 1]) then ContentEnd(s[..|s| - 1]) else |s|
  }

  /** `trimStart`: the suffix left after the leading white space. */
  function TrimStart(s: string): (r: string)
    ensures |r| > 0 ==> !IsSpace(r[0])
  {
    s[SpacesBefore(s)..]
  }

  /** `trimEnd`: the prefix left before the trailing white space. */
  function TrimEnd(s: string): (r: string)
    ensures |r| > 0 ==> !IsSpace(r[|r| - 1])
  {
    s[..ContentEnd(s)]
  }

  /** What `trimStart` drops is white space. */
  lemma {:induction false} SpacesBeforeAreSpace(s: string)
    ensures forall k :: 0 <= k < SpacesBefore(s) ==> IsSpace(s[k])
    decreases |s|
  {
    if |s| > 0 && IsSpace(s[0]) {
      SpacesBeforeAreSpace(s[1..]);
      forall k | 0 < k < SpacesBefore(s) ensures IsSpace(s[k]) {
        assert s[k] == s[1..][k - 1];
      }
    }
  }

  /** What `trimEnd` drops is white space. */
  lemma {:induction false} AfterContentEndIsSpace(s: string)
    ensures forall k :: ContentEnd(s) <= k < |s| ==> IsSpace(s[k])
    decreases |s|
  {
    if |s| > 0 && IsSpace(s[|s| - 1]) {
      AfterContentEndIsSpace(s[..|s| - 1]);
      forall k | ContentEnd(s) <= k < |s| - 1 ensures IsSpace(s[k]) {
        assert s[k] == s[..|s| - 1][k];
      }
    }
  }

  function Trim(s: string): (r: string)
    ensures |r| > 0 ==> !IsSpace(r[0]) && !IsSpace(r[|r| - 1])
  {
    TrimEnd(TrimStart(s))
  }

  /** The `!x.trim()` test used by every form: nothing but white space. */
  predicate Blank(s: string) {
    Trim(s) == ""
  }

  /** A string is blank after trimming exactly when all of it is white space. */
  lemma {:induction false} BlankIff(s: string)
    ensures Blank(s) <==> AllSpace(s)
  {
    var a := SpacesBefore(s);
    var t := TrimStart(s);
    SpacesBeforeAreSpace(s);
    AfterContentEndIsSpace(t);
    if Trim(s) == "" {
      assert ContentEnd(t) == 0;
      assert a == |s|;
    } else {
      assert t[0] == s[a];
      assert !IsSpace(s[a]);
    }
  }

  /** Text with no white space at either end. */
  predicate Trimmed(s: string) {
    |s| == 0 || (!IsSpace(s[0]) && !IsSpace(s[|s| - 1]))
  }

  /** Trimming leaves trimmed text unchanged, and yields trimmed text. */
  lemma {:induction false} TrimTrimmed(s: string)
    ensures Trimmed(Trim(s))
    ensures Trimmed(s) ==> Trim(s) == s
  {
    if Trimmed(s) && |s| > 0 {
      assert TrimStart(s) == s;
      assert TrimEnd(s) == s;
    }
  }

  // ---------------------------------------------------------------- case

  /** `toLowerCase` on one character; only the ASCII letters are mapped. */
  function LowerChar(c: char): char {
    if 'A' <= c <= 'Z' then (c as int + 32) as char else c
  }

  function Lower(s: string): (r: string)
    ensures |r| == |s|
  {
    seq(|s|, k requires 0 <= k < |s| => LowerChar(s[k]))
  }

  /** Lower-casing twice is lower-casing once. */
  lemma {:induction false} LowerTwice(s: string)
    ensures Lower(Lower(s)) == Lower(s)
  {
    assert forall k :: 0 <= k < |s| ==> LowerChar(LowerChar(s[k])) == LowerChar(s[k]);
  }

  // ---------------------------------------------------------------- search

  predicate OccursAt(s: string, q: string, i: int) {
    0 <= i && i + |q| <= |s| && s[i..i + |q|] == q
  }

  /** `s.includes(q)`. */
  predicate Includes(s: string, q: string) {
    exists i | 0 <= i <= |s| :: OccursAt(s, q, i)
  }

  predicate StartsWith(s: string, p: string) {
    |p| <= |s| && s[..|p|] == p
  }

  predicate EndsWith(s: string, p: string) {
    |p| <= |s| && s[|s| - |p|..] == p
  }

  /** `s.indexOf(q)`, the first occurrence at or after `from`. */
  function IndexOfFrom(s: string, q: string, from: nat): (r: Option<nat>)
    ensures r.Some? ==> from <= r.value && OccursAt(s, q, r.value)
    ensures r.Some? ==> forall j :: from <= j < r.value ==> !OccursAt(s, q, j)
    ensures r.None? ==> forall j :: from <= j ==> !OccursAt(s, q, j)
    decreases |s| - from
  {
    if from + |q| > |s| then None
    else if s[from..from + |q|] == q then Some(from)
    else IndexOfFrom(s, q, from + 1)
  }

  /** `s.replace(q, w)` with a string pattern: only the first occurrence is
      replaced, and a missing pattern leaves `s` alone. */
  function ReplaceFirst(s: string, q: string, w: string): string {
    match IndexOfFrom(s, q, 0)
    case None => s
    case Some(i) => s[..i] + w + s[i + |q|..]
  }

  /** Removing a prefix the string starts with leaves exactly the remainder. */
  lemma {:induction false} ReplaceLeadingPrefix(s: string, p: string)
    requires StartsWith(s, p)
    ensures ReplaceFirst(s, p, "") == s[|p|..]
    ensures p + ReplaceFirst(s, p, "") == s
  {
    assert OccursAt(s, p, 0);
    var i := IndexOfFrom(s, p, 0);
    assert i == Some(0);
    assert s == s[..|p|] + s[|p|..];
  }

  // ---------------------------------------------------------------- split / join

  /** `parts.join(sep)`. */
  function Join(parts: seq<string>, sep: string): string
    decreases |parts|
  {
    if |parts| == 0 then ""
    else if |parts| == 1 then parts[0]
    else parts[0] + sep + Join(parts[1..], sep)
  }

  /** `s.split(c)` for a one-character separator. */
  function Split(s: string, c: char): (parts: seq<string>)
    ensures |parts| >= 1
    decreases |s|
  {
    if |s| == 0 then [""]
    else
      var rest := Split(s[1..], c);
      if s[0] == c then [""] + rest else [[s[0]] + rest[0]] + rest[1..]
  }

  /** The pieces of `split`: one more than there are separators, none
      containing the separator, and joined back with the separator they give
      the original text. */
  lemma {:induction false} SplitFacts(s: string, c: char)
    ensures |Split(s, c)| == multiset(s)[c] + 1
    ensures forall k :: 0 <= k < |Split(s, c)| ==> c !in Split(s, c)[k]
    ensures Join(Split(s, c), [c]) == s
  {
    SplitCount(s, c);
    SplitPiecesFree(s, c);
    SplitJoinBack(s, c);
  }

  lemma {:induction false} SplitCount(s: string, c: char)
    ensures |Split(s, c)| == multiset(s)[c] + 1
    decreases |s|
  {
    if |s| > 0 {
      SplitCount(s[1..], c);
      assert s == [s[0]] + s[1..];
      assert multiset(s) == multiset([s[0]]) + multiset(s[1..]);
    }
  }

  lemma {:induction false} SplitPiecesFree(s: string, c: char)
    ensures forall k :: 0 <= k < |Split(s, c)| ==> c !in Split(s, c)[k]
    decreases |s|
  {
    if |s| > 0 {
      SplitPiecesFree(s[1..], c);
      var rest := Split(s[1..], c);
      var parts := Split(s, c);
      forall k | 0 <= k < |parts| ensures c !in parts[k] {
        if s[0] == c {
          if k > 0 { assert parts[k] == rest[k - 1]; }
        } else if k > 0 {
          assert parts[k] == rest[k];
        } else {
          assert parts[0] == [s[0]] + rest[0];
        }
      }
    }
  }

  lemma {:induction false} SplitJoinBack(s: string, c: char)
    ensures Join(Split(s, c), [c]) == s
    decreases |s|
  {
    if |s| > 0 {
      SplitJoinBack(s[1..], c);
      var rest := Split(s[1..], c);
      assert s == [s[0]] + s[1..];
      if s[0] == c {
        assert Split(s, c) == [""] + rest;
        assert Split(s, c)[1..] == rest;
      } else {
        var parts := Split(s, c);
        assert parts[1..] == rest[1..];
        if |rest| > 1 {
          assert Join(rest, [c]) == rest[0] + [c] + Join(rest[1..], [c]);
        }
      }
    }
  }

  /** A piece free of the separator splits off as the first piece. */
  lemma {:induction false} SplitAtFirst(a: string, b: string, c: char)
    requires c !in a
    ensures Split(a + [c] + b, c) == [a] + Split(b, c)
    decreases |a|
  {
    var s := a + [c] + b;
    if |a| == 0 {
      assert s == [c] + b;
      assert s[1..] == b;
    } else {
      assert s[1..] == a[1..] + [c] + b;
      var rest := Split(s[1..], c);
      assert rest == [a[1..]] + Split(b, c) by {
        SplitAtFirst(a[1..], b, c);
      }
      assert s[0] == a[0] && a[0] != c;
      assert Split(s, c) == [[s[0]] + rest[0]] + rest[1..];
      assert rest[0] == a[1..] && rest[1..] == Split(b, c);
      assert [a[0]] + a[1..] == a;
    }
  }

  /** Text without the separator splits into itself alone. */
  lemma {:induction false} SplitNoSeparator(a: string, c: char)
    requires c !in a
    ensures Split(a, c) == [a]
    decreases |a|
  {
    if |a| > 0 {
      SplitNoSeparator(a[1..], c);
      assert [a[0]] + a[1..] == a;
    }
  }

  /** Joining a non-empty list ends with its last element, preceded by the
      separator when there are two or more elements. */
  lemma {:induction false} JoinEndsWithLast(parts: seq<string>, sep: string)
    requires |parts| >= 1
    ensures EndsWith(Join(parts, sep), parts[|parts| - 1])
    ensures |parts| >= 2 ==> EndsWith(Join(parts, sep), sep + parts[|parts| - 1])
    decreases |parts|
  {
    if |parts| >= 2 {
      JoinEndsWithLast(parts[1..], sep);
    }
  }

  /** `split` undoes `join` when no piece contains the separator. */
  lemma {:induction false} SplitJoin(parts: seq<string>, c: char)
    requires |parts| >= 1
    requires forall k :: 0 <= k < |parts| ==> c !in parts[k]
    ensures Split(Join(parts, [c]), c) == parts
    decreases |parts|
  {
    if |parts| == 1 {
      SplitNoSeparator(parts[0], c);
    } else {
      SplitJoin(parts[1..], c);
      SplitAtFirst(parts[0], Join(parts[1..], [c]), c);
      assert parts == [parts[0]] + parts[1..];
    }
  }

  /** `s.split(c).pop()`: the text after the last separator, or all of `s`
      when it has none. */
  function LastPiece(s: string, c: char): (r: string)
    ensures c !in r
    ensures EndsWith(s, r)
    ensures c in s ==> EndsWith(s, [c] + r)
    ensures c !in s ==> r == s
  {
    var parts := Split(s, c);
    SplitFacts(s, c);
    JoinEndsWithLast(parts, [c]);
    assert c in s <==> multiset(s)[c] > 0;
    parts[|parts| - 1]
  }

  /** The piece after the last separator of `a + c + b` is `b` when `b`
      holds no separator. */
  lemma {:induction false} LastPieceAfter(a: string, b: string, c: char)
    requires c !in b
    ensures LastPiece(a + [c] + b, c) == b
  {
    var s := a + [c] + b;
    var r := LastPiece(s, c);
    var i := |s| - |r| - 1;
    var j := |s| - |b| - 1;
    assert s[j] == c;
    assert c in s;
    assert EndsWith(s, [c] + r);
    assert s[i] == c;
    assert forall k :: j < k < |s| ==> s[k] == b[k - j - 1];
    assert forall k :: i < k < |s| ==> s[k] == r[k - i - 1];
    assert i == j;
    assert r == s[|s| - |r|..] == b;
  }

  // ---------------------------------------------------------------- numbers

  predicate IsDigit(c: char) {
    '0' <= c <= '9'
  }

  predicate AllDigits(s: string) {
    forall k :: 0 <= k < |s| ==> IsDigit(s[k])
  }

  function DigitChar(d: nat): (c: char)
    requires d < 10
    ensures IsDigit(c)
  {
    (d + '0' as int) as char
  }

  function DigitValue(c: char): nat
    requires IsDigit(c)
  {
    c as int - '0' as int
  }

  /** The decimal value of a string of digits. */
  function DigitsValue(s: string): nat
    requires AllDigits(s)
    decreases |s|
  {
    if |s| == 0 then 0 else DigitsValue(s[..|s| - 1]) * 10 + DigitValue(s[|s| - 1])
  }

  /** `String(n)` for a non-negative integer: decimal digits, no leading zero. */
  function NatToString(n: nat): (r: string)
    ensures |r| >= 1 && AllDigits(r)
    ensures |r| > 1 ==> r[0] != '0'
    ensures DigitsValue(r) == n
    decreases n
  {
    if n < 10 then [DigitChar(n)]
    else
      var r := NatToString(n / 10) + [DigitChar(n % 10)];
      assert r[..|r| - 1] == NatToString(n / 10);
      r
  }

  /** `String(i)` / `i.toString()` for an integer. */
  function IntToString(i: int): (r: string)
    ensures |r| >= 1
    ensures i >= 0 ==> AllDigits(r)
    ensures i < 0 ==> r[0] == '-' && AllDigits(r[1..])
  {
    if i < 0 then "-" + NatToString(-i) else NatToString(i)
  }

  /** The longest prefix made of digits. */
  function DigitPrefix(s: string): (r: string)
    ensures AllDigits(r) && StartsWith(s, r)
    ensures |r| < |s| ==> !IsDigit(s[|r|])
    decreases |s|
  {
    if |s| > 0 && IsDigit(s[0]) then [s[0]] + DigitPrefix(s[1..]) else ""
  }

  /** `parseInt(s)` without a radix: skip leading white space and an
      optional sign; a `0x` or `0X` prefix then selects hexadecimal,
      otherwise decimal; the value is that of the longest run of digits of
      the radix, and `None` (`NaN`) when that run is empty. */
  function ParseInt(s: string): Option<int> {
    SignedPrefixOf(TrimStart(s))
  }

  /** The value of an optional sign followed by a digit run. */
  function SignedPrefixOf(t: string): Option<int> {
    var negative := |t| > 0 && t[0] == '-';
    var body := if |t| > 0 && (t[0] == '-' || t[0] == '+') then t[1..] else t;
    match MagnitudeOf(body)
    case None => None
    case Some(v) => Some(if negative then 0 - v else v)
  }

  /** Text that starts with the `0x` / `0X` prefix of a hexadecimal numeral. */
  predicate HasHexPrefix(s: string) {
    |s| >= 2 && s[0] == '0' && (s[1] == 'x' || s[1] == 'X')
  }

  /** The unsigned value at the start of `body`: the hexadecimal digits
      after a `0x` prefix, else the decimal digits. */
  function MagnitudeOf(body: string): Option<nat> {
    if HasHexPrefix(body) then
      var digits := HexDigitPrefix(body[2..]);
      if |digits| == 0 then None else Some(HexDigitsValue(digits))
    else
      var digits := DigitPrefix(body);
      if |digits| == 0 then None else Some(DigitsValue(digits))
  }

  predicate IsHexDigit(c: char) {
    IsDigit(c) || 'a' <= c <= 'f' || 'A' <= c <= 'F'
  }

  predicate AllHexDigits(s: string) {
    forall k :: 0 <= k < |s| ==> IsHexDigit(s[k])
  }

  function HexDigitValue(c: char): (v: nat)
    requires IsHexDigit(c)
    ensures v < 16
  {
    if IsDigit(c) then DigitValue(c)
    else if 'a' <= c <= 'f' then c as int - 'a' as int + 10
    else c as int - 'A' as int + 10
  }

  /** The hexadecimal value of a string of hexadecimal digits. */
  function HexDigitsValue(s: string): nat
    requires AllHexDigits(s)
    decreases |s|
  {
    if |s| == 0 then 0 else HexDigitsValue(s[..|s| - 1]) * 16 + HexDigitValue(s[|s| - 1])
  }

  /** The longest prefix made of hexadecimal digits. */
  function HexDigitPrefix(s: string): (r: string)
    ensures AllHexDigits(r) && StartsWith(s, r)
    ensures |r| < |s| ==> !IsHexDigit(s[|r|])
    decreases |s|
  {
    if |s| > 0 && IsHexDigit(s[0]) then [s[0]] + HexDigitPrefix(s[1..]) else ""
  }

  lemma {:induction false} HexDigitPrefixOfHexDigits(s: string)
    requires AllHexDigits(s)
    ensures HexDigitPrefix(s) == s
    decreases |s|
  {
    if |s| > 0 {
      HexDigitPrefixOfHexDigits(s[1..]);
      assert s == [s[0]] + s[1..];
    }
  }

  /** `parseInt` reads `0x` followed by hexadecimal digits as their
      hexadecimal value, with either sign, and `0x` followed by no
      hexadecimal digit as `NaN`. */
  lemma {:induction false} ParseIntHex(sign: string, x: char, h: string)
    requires sign == "" || sign == "-" || sign == "+"
    requires x == 'x' || x == 'X'
    requires AllHexDigits(h)
    ensures ParseInt(sign + ['0', x] + h) ==
      if |h| == 0 then None
      else if sign == "-" then Some(0 - HexDigitsValue(h))
      else Some(HexDigitsValue(h))
  {
    var s := sign + ['0', x] + h;
    assert TrimStart(s) == s by {
      assert !IsSpace(s[0]);
    }
    var body := ['0', x] + h;
    if sign == "" {
      assert s == body;
    } else {
      assert s[1..] == body;
    }
    assert HasHexPrefix(body) && body[2..] == h;
    HexDigitPrefixOfHexDigits(h);
  }

  lemma {:induction false} DigitPrefixOfDigits(s: string)
    requires AllDigits(s)
    ensures DigitPrefix(s) == s
    decreases |s|
  {
    if |s| > 0 {
      DigitPrefixOfDigits(s[1..]);
      assert s == [s[0]] + s[1..];
    }
  }

  /** An integer written with `toString` is read back by `parseInt` as the
      same integer. */
  lemma {:induction false} ParseIntOfIntToString(i: int)
    ensures ParseInt(IntToString(i)) == Some(i)
  {
    var s := IntToString(i);
    assert TrimStart(s) == s by {
      assert !IsSpace(s[0]);
    }
    if i < 0 {
      var n := NatToString(-i);
      assert s[1..] == n;
      assert !HasHexPrefix(n) by { if |n| > 1 { assert IsDigit(n[1]); } }
      DigitPrefixOfDigits(n);
    } else {
      assert s[0] != '-' && s[0] != '+' by { assert IsDigit(s[0]); }
      assert !HasHexPrefix(s) by { if |s| > 1 { assert IsDigit(s[1]); } }
      DigitPrefixOfDigits(s);
    }
  }

  /** Without a `0x` prefix `parseInt` reads the leading decimal digits and
      ignores whatever follows the first other character, so `1.5` and
      `1e3` both read as 1. */
  lemma {:induction false} ParseIntStopsAtNonDigit(d: string, rest: string)
    requires |d| > 0 && AllDigits(d)
    requires rest == "" || !IsDigit(rest[0])
    requires !HasHexPrefix(d + rest)
    ensures ParseInt(d + rest) == Some(DigitsValue(d))
  {
    var s := d + rest;
    assert s[0] == d[0];
    assert !IsSpace(s[0]) && s[0] != '-' && s[0] != '+' by { assert IsDigit(d[0]); }
    assert TrimStart(s) == s;
    DigitPrefixAppend(d, rest);
  }

  lemma {:induction false} DigitPrefixAppend(d: string, rest: string)
    requires AllDigits(d)
    requires rest == "" || !IsDigit(rest[0])
    ensures DigitPrefix(d + rest) == d
    decreases |d|
  {
    if |d| == 0 {
      assert d + rest == rest;
    } else {
      assert (d + rest)[1..] == d[1..] + rest;
      DigitPrefixAppend(d[1..], rest);
      assert d == [d[0]] + d[1..];
    }
  }

  /** `Number(s)`: surrounding white space is ignored, an empty string is 0,
      an optionally signed run of decimal digits is its value, and anything
      else is `NaN` (`None`). */
  function NumberOf(s: string): (r: Option<int>)
    ensures Blank(s) ==> r == Some(0)
  {
    DecimalOf(Trim(s))
  }

  /** The value of trimmed text: empty text is zero, then an optional
      sign before decimal digits. */
  function DecimalOf(t: string): Option<int> {
    if t == "" then Some(0)
    else if AllDigits(t) then Some(DigitsValue(t))
    else if |t| > 1 && t[0] == '-' && AllDigits(t[1..]) then Some(0 - DigitsValue(t[1..]))
    else if |t| > 1 && t[0] == '+' && AllDigits(t[1..]) then Some(DigitsValue(t[1..]))
    else None
  }

  /** `Number` reads back the text of a non-negative integer. */
  lemma {:induction false} NumberOfNatToString(n: nat)
    ensures NumberOf(NatToString(n)) == Some(n)
  {
    var s := NatToString(n);
    assert !IsSpace(s[0]) && !IsSpace(s[|s| - 1]);
    assert TrimStart(s) == s;
    assert TrimEnd(s) == s;
  }

  /** `Number` reads back the text of any integer. */
  lemma {:induction false} NumberOfIntToString(i: int)
    ensures NumberOf(IntToString(i)) == Some(i)
  {
    if i >= 0 {
      NumberOfNatToString(i);
    } else {
      var s := IntToString(i);
      var n := NatToString(-i);
      assert s == "-" + n && s[1..] == n;
      assert !IsSpace(s[0]);
      assert !IsSpace(s[|s| - 1]) by { assert s[|s| - 1] == n[|n| - 1]; assert IsDigit(n[|n| - 1]); }
      assert TrimStart(s) == s;
      assert TrimEnd(s) == s;
      assert !AllDigits(s) by { assert !IsDigit(s[0]); }
    }
  }

  /** JavaScript `a % b` for a positive divisor: the remainder truncates
      toward zero and takes the sign of `a`. */
  function JsRem(a: int, b: int): (r: int)
    requires b > 0
    ensures a >= 0 ==> 0 <= r < b
    ensures a < 0 ==> -b < r <= 0
  {
    if a >= 0 then a % b else -((-a) % b)
  }

  /** `s.padStart(n, c)`. */
  function PadStart(s: string, n: nat, c: char): (r: string)
    ensures |r| == if |s| >= n then |s| else n
    ensures EndsWith(r, s)
    ensures forall k :: 0 <= k < |r| - |s| ==> r[k] == c
  {
    if |s| >= n then s else seq(n - |s|, _ => c) + s
  }

  // ---------------------------------------------------------------- digit-only text

  /** Text `a:b...` whose first two pieces are free of `:` splits into `a`,
      then `b`, then whatever follows. */
  lemma {:induction false} SplitTwoPieces(a: string, b: string, rest: string)
    requires ':' !in a && ':' !in b
    requires rest == "" || rest[0] == ':'
    ensures var parts := Split(a + ":" + b + rest, ':');
      |parts| >= 2 && parts[0] == a && parts[1] == b
  {
    var tail := b + rest;
    assert a + ":" + b + rest == a + [':'] + tail;
    SplitAtFirst(a, tail, ':');
    if rest == "" {
      assert tail == b;
      SplitNoSeparator(b, ':');
    } else {
      assert tail == b + [':'] + rest[1..];
      SplitAtFirst(b, rest[1..], ':');
    }
  }

  lemma {:induction false} NoColonInDigits(s: string)
    requires AllDigits(s)
    ensures ':' !in s
  {
    assert forall k :: 0 <= k < |s| ==> s[k] != ':';
  }

  lemma {:induction false} NumberOfDigits(s: string)
    requires |s| > 0 && AllDigits(s)
    ensures NumberOf(s) == Some(DigitsValue(s))
  {
    assert !IsSpace(s[0]) by { assert IsDigit(s[0]); }
    assert !IsSpace(s[|s| - 1]) by { assert IsDigit(s[|s| - 1]); }
    assert TrimStart(s) == s;
    assert TrimEnd(s) == s;
    assert Trim(s) == s;
  }

  lemma {:induction false} ParseIntOfDigits(s: string)
    requires |s| > 0 && AllDigits(s)
    ensures ParseInt(s) == Some(DigitsValue(s))
  {
    assert !IsSpace(s[0]) && s[0] != '-' && s[0] != '+' by { assert IsDigit(s[0]); }
    assert TrimStart(s) == s;
    assert !HasHexPrefix(s) by { if |s| > 1 { assert IsDigit(s[1]); } }
    DigitPrefixOfDigits(s);
  }
}

=== FILE: lists.dfy ===
/** The array operations the screens apply to their row lists:
    `filter`, `map` over the rows that match a test, and grouping rows into
    buckets by a key (the `forEach` that builds a `Record<string, T[]>`). */
module Lists {

  /** `a` is `b` with some elements dropped, the rest in their order. */
  ghost predicate IsSubsequence<T>(a: seq<T>, b: seq<T>)
    decreases |b|
  {
    if |a| == 0 then true
    else if |b| == 0 then false
    else if a[0] == b[0] then IsSubsequence(a[1..], b[1..])
    else IsSubsequence(a, b[1..])
  }

  /** `xs.filter(p)`: the elements passing `p`, in their order. */
  function Filter<T>(xs: seq<T>, p: T -> bool): (r: seq<T>)
    ensures |r| <= |xs|
    ensures forall k :: 0 <= k < |r| ==> p(r[k])
    decreases |xs|
  {
    if |xs| == 0 then []
    else if p(xs[0]) then [xs[0]] + Filter(xs[1..], p)
    else Filter(xs[1..], p)
  }

  /** An element survives the filter exactly when it was there and passes. */
  lemma {:induction false} FilterMembership<T>(xs: seq<T>, p: T -> bool, x: T)
    ensures x in Filter(xs, p) <==> x in xs && p(x)
    decreases |xs|
  {
    if |xs| > 0 {
      FilterMembership(xs[1..], p, x);
      assert xs == [xs[0]] + xs[1..];
    }
  }

  /** The filter keeps the survivors in their original relative order. */
  lemma {:induction false} FilterIsSubsequence<T>(xs: seq<T>, p: T -> bool)
    ensures IsSubsequence(Filter(xs, p), xs)
    decreases |xs|
  {
    if |xs| > 0 {
      FilterIsSubsequence(xs[1..], p);
      var r := Filter(xs, p);
      if p(xs[0]) {
        assert r[0] == xs[0] && r[1..] == Filter(xs[1..], p);
      } else if |r| > 0 {
        assert p(r[0]) && r[0] != xs[0];
      }
    }
  }

  lemma {:induction false} FilterAppend<T>(xs: seq<T>, ys: seq<T>, p: T -> bool)
    ensures Filter(xs + ys, p) == Filter(xs, p) + Filter(ys, p)
    decreases |xs|
  {
    if |xs| == 0 {
      assert xs + ys == ys;
    } else {
      var zs := xs + ys;
      assert zs[0] == xs[0];
      assert zs[1..] == xs[1..] + ys;
      FilterAppend(xs[1..], ys, p);
    }
  }

  /** Filtering keeps everything when every element passes. */
  lemma {:induction false} FilterAll<T>(xs: seq<T>, p: T -> bool)
    requires forall k :: 0 <= k < |xs| ==> p(xs[k])
    ensures Filter(xs, p) == xs
    decreases |xs|
  {
    if |xs| > 0 {
      FilterAll(xs[1..], p);
    }
  }

  /** Filtering drops everything when nothing passes. */
  lemma {:induction false} FilterNone<T>(xs: seq<T>, p: T -> bool)
    requires forall k :: 0 <= k < |xs| ==> !p(xs[k])
    ensures Filter(xs, p) == []
    decreases |xs|
  {
    if |xs| > 0 {
      FilterNone(xs[1..], p);
    }
  }

  /** Two successive filters are one filter by the conjunction. */
  lemma {:induction false} FilterFilter<T>(xs: seq<T>, p: T -> bool, q: T -> bool, pq: T -> bool)
    requires forall x :: pq(x) == (p(x) && q(x))
    ensures Filter(Filter(xs, p), q) == Filter(xs, pq)
    decreases |xs|
  {
    if |xs| > 0 {
      FilterFilter(xs[1..], p, q, pq);
      if p(xs[0]) {
        assert Filter(xs, p) == [xs[0]] + Filter(xs[1..], p);
        assert Filter(xs, p)[1..] == Filter(xs[1..], p);
      }
    }
  }

  /** Every test of the list accepts `x`. */
  predicate PassesAll<T>(tests: seq<T -> bool>, x: T) {
    forall i | 0 <= i < |tests| :: tests[i](x)
  }

  function PassesAllTest<T>(tests: seq<T -> bool>): T -> bool {
    x => PassesAll(tests, x)
  }

  lemma {:induction false} PassesAllAppend<T>(a: seq<T -> bool>, b: seq<T -> bool>, x: T)
    ensures PassesAll(a + b, x) <==> PassesAll(a, x) && PassesAll(b, x)
  {
    if PassesAll(a, x) && PassesAll(b, x) {
      forall i | 0 <= i < |a + b| ensures (a + b)[i](x) {
        if i >= |a| { assert (a + b)[i] == b[i - |a|]; }
      }
    }
    if PassesAll(a + b, x) {
      forall i | 0 <= i < |b| ensures b[i](x) {
        assert (a + b)[|a| + i] == b[i];
      }
      forall i | 0 <= i < |a| ensures a[i](x) {
        assert (a + b)[i] == a[i];
      }
    }
  }

  /** Every survivor of a filter was in the list. */
  lemma {:induction false} FilterWithin<T>(xs: seq<T>, p: T -> bool)
    ensures forall x :: x in Filter(xs, p) ==> x in xs
  {
    forall x | x in Filter(xs, p) ensures x in xs {
      FilterMembership(xs, p, x);
    }
  }

  /** `let ys = xs; ys = ys.filter(t1); ys = ys.filter(t2); ...` */
  function FilterChain<T>(xs: seq<T>, tests: seq<T -> bool>): (r: seq<T>)
    ensures |r| <= |xs|
    ensures forall x :: x in r ==> x in xs
    decreases |tests|
  {
    if |tests| == 0 then xs
    else
      FilterWithin(xs, tests[0]);
      FilterChain(Filter(xs, tests[0]), tests[1..])
  }

  /** A chain of filters is one filter by the conjunction of its tests. */
  lemma {:induction false} FilterChainIsFilter<T>(xs: seq<T>, tests: seq<T -> bool>)
    ensures FilterChain(xs, tests) == Filter(xs, PassesAllTest(tests))
    decreases |tests|
  {
    if |tests| == 0 {
      FilterAll(xs, PassesAllTest(tests));
    } else {
      FilterChainIsFilter(Filter(xs, tests[0]), tests[1..]);
      forall x ensures PassesAllTest(tests)(x) == (tests[0](x) && PassesAllTest(tests[1..])(x)) {
        assert tests == [tests[0]] + tests[1..];
        PassesAllAppend([tests[0]], tests[1..], x);
      }
      FilterFilter(xs, tests[0], PassesAllTest(tests[1..]), PassesAllTest(tests));
    }
  }

  /** `xs.map(x => sel(x) ? f(x) : x)`: update the matching rows in place. */
  function UpdateWhere<T>(xs: seq<T>, sel: T -> bool, f: T -> T): (r: seq<T>)
    ensures |r| == |xs|
    ensures forall k :: 0 <= k < |xs| ==> r[k] == if sel(xs[k]) then f(xs[k]) else xs[k]
  {
    seq(|xs|, k requires 0 <= k < |xs| => if sel(xs[k]) then f(xs[k]) else xs[k])
  }

  /** Updating twice with an involution that keeps the selection restores
      the list. */
  lemma {:induction false} UpdateWhereTwice<T>(xs: seq<T>, sel: T -> bool, f: T -> T)
    requires forall x :: sel(x) ==> sel(f(x)) && f(f(x)) == x
    ensures UpdateWhere(UpdateWhere(xs, sel, f), sel, f) == xs
  {
    var once := UpdateWhere(xs, sel, f);
    var twice := UpdateWhere(once, sel, f);
    forall k | 0 <= k < |xs| ensures twice[k] == xs[k] {
      if sel(xs[k]) {
        assert once[k] == f(xs[k]);
      }
    }
  }

  /** Updating rows that nothing selects changes nothing. */
  lemma {:induction false} UpdateWhereNone<T>(xs: seq<T>, sel: T -> bool, f: T -> T)
    requires forall k :: 0 <= k < |xs| ==> !sel(xs[k])
    ensures UpdateWhere(xs, sel, f) == xs
  {
  }

  /** The test "this row's key is `k`". */
  function KeyIs<T>(key: T -> string, k: string): T -> bool {
    x => key(x) == k
  }

  /** The keys occurring among `rows`. */
  ghost function KeysOf<T>(rows: seq<T>, key: T -> string): set<string> {
    set i | 0 <= i < |rows| :: key(rows[i])
  }

  /** Push `x` onto bucket `k`, creating the bucket when it is missing. */
  function AddToBucket<T>(m: map<string, seq<T>>, k: string, x: T): map<string, seq<T>> {
    m[k := (if k in m then m[k] else []) + [x]]
  }

  /** The buckets built by
      `rows.forEach(r => { if (!m[key(r)]) m[key(r)] = []; m[key(r)].push(r) })`:
      one bucket per key that occurs, holding exactly the rows with that key
      in their original order. */
  function GroupBy<T>(rows: seq<T>, key: T -> string): (m: map<string, seq<T>>)
    ensures m.Keys == KeysOf(rows, key)
    ensures forall k :: k in m ==> m[k] == Filter(rows, KeyIs(key, k))
    decreases |rows|
  {
    if |rows| == 0 then map[]
    else
      var init := rows[..|rows| - 1];
      var last := rows[|rows| - 1];
      var m := GroupBy(init, key);
      assert rows == init + [last];
      GroupByStep(init, last, key, m);
      AddToBucket(m, key(last), last)
  }

  /** One `forEach` step keeps the bucket invariant of `GroupBy`. */
  lemma {:induction false} GroupByStep<T>(init: seq<T>, last: T, key: T -> string, m: map<string, seq<T>>)
    requires m.Keys == KeysOf(init, key)
    requires forall k :: k in m ==> m[k] == Filter(init, KeyIs(key, k))
    ensures AddToBucket(m, key(last), last).Keys == KeysOf(init + [last], key)
    ensures forall j :: j in AddToBucket(m, key(last), last) ==>
      AddToBucket(m, key(last), last)[j] == Filter(init + [last], KeyIs(key, j))
  {
    var rows := init + [last];
    var k := key(last);
    var m' := AddToBucket(m, k, last);
    forall j | j in m'
      ensures m'[j] == Filter(rows, KeyIs(key, j))
    {
      FilterAppend(init, [last], KeyIs(key, j));
      if j == k && k !in m {
        forall i | 0 <= i < |init| ensures !KeyIs(key, j)(init[i]) {
          assert key(init[i]) in KeysOf(init, key);
        }
        FilterNone(init, KeyIs(key, j));
      }
    }
    forall j | j in KeysOf(rows, key) ensures j in m'.Keys {
      var i :| 0 <= i < |rows| && key(rows[i]) == j;
      if i < |init| {
        assert rows[i] == init[i];
        assert j in KeysOf(init, key);
      }
    }
    forall j | j in m'.Keys ensures j in KeysOf(rows, key) {
      if j != k {
        var i :| 0 <= i < |init| && key(init[i]) == j;
        assert rows[i] == init[i];
      } else {
        assert rows[|init|] == last;
      }
    }
  }

  /** The test "this row's key is not `k`". */
  function KeyIsNot<T>(key: T -> string, k: string): T -> bool {
    x => key(x) != k
  }

  /** `rows.filter(r => key(r) !== k)`: removal of every row with key `k`. */
  function RemoveKey<T>(rows: seq<T>, key: T -> string, k: string): (r: seq<T>)
    ensures |r| <= |rows|
    ensures forall i :: 0 <= i < |r| ==> key(r[i]) != k
  {
    Filter(rows, KeyIsNot(key, k))
  }

  /** Removal keeps the other rows in order, and a row survives exactly when
      it was there with a different key. */
  lemma {:induction false} RemoveKeyKeeps<T>(rows: seq<T>, key: T -> string, k: string, x: T)
    ensures IsSubsequence(RemoveKey(rows, key, k), rows)
    ensures x in RemoveKey(rows, key, k) <==> x in rows && key(x) != k
  {
    FilterIsSubsequence(rows, KeyIsNot(key, k));
    FilterMembership(rows, KeyIsNot(key, k), x);
  }

  /** Removing a key that no row carries changes nothing. */
  lemma {:induction false} RemoveKeyAbsent<T>(rows: seq<T>, key: T -> string, k: string)
    requires forall i :: 0 <= i < |rows| ==> key(rows[i]) != k
    ensures RemoveKey(rows, key, k) == rows
  {
    FilterAll(rows, KeyIsNot(key, k));
  }

  /** Removing the same key twice is removing it once. */
  lemma {:induction false} RemoveKeyTwice<T>(rows: seq<T>, key: T -> string, k: string)
    ensures RemoveKey(RemoveKey(rows, key, k), key, k) == RemoveKey(rows, key, k)
  {
    RemoveKeyAbsent(RemoveKey(rows, key, k), key, k);
  }

  /** The test "this element differs from `x`". */
  function Differs<T(==)>(x: T): T -> bool {
    y => y != x
  }

  /** Membership toggle: every copy of a present element is filtered out;
      an absent element is appended at the end. */
  function ToggleMember<T(==)>(xs: seq<T>, x: T): (r: seq<T>)
    ensures x in xs ==> x !in r && |r| <= |xs|
    ensures x !in xs ==> |r| == |xs| + 1 && r[|xs|] == x
  {
    if x in xs then
      assert !Differs(x)(x);
      FilterMembership(xs, Differs(x), x);
      Filter(xs, Differs(x))
    else xs + [x]
  }

  /** After a toggle the element is present exactly when it was absent, and
      every other element is present exactly when it was before, in its
      original relative order. */
  lemma {:induction false} ToggleMemberFacts<T>(xs: seq<T>, x: T, y: T)
    ensures x in ToggleMember(xs, x) <==> x !in xs
    ensures y != x ==> (y in ToggleMember(xs, x) <==> y in xs)
    ensures x in xs ==> IsSubsequence(ToggleMember(xs, x), xs)
    ensures x !in xs ==> ToggleMember(xs, x)[..|xs|] == xs
  {
    if x in xs {
      FilterMembership(xs, Differs(x), x);
      FilterMembership(xs, Differs(x), y);
      FilterIsSubsequence(xs, Differs(x));
    }
  }

  /** Toggling an absent element twice restores the exact list; toggling a
      present element twice leaves it present (at the end, once). */
  lemma {:induction false} ToggleMemberTwice<T>(xs: seq<T>, x: T)
    ensures x !in xs ==> ToggleMember(ToggleMember(xs, x), x) == xs
    ensures x in ToggleMember(ToggleMember(xs, x), x) <==> x in xs
  {
    ToggleMemberFacts(xs, x, x);
    ToggleMemberFacts(ToggleMember(xs, x), x, x);
    if x !in xs {
      FilterAppend(xs, [x], Differs(x));
      FilterAll(xs, Differs(x));
      assert !Differs(x)(x);
      assert Filter([x], Differs(x)) == [];
      assert xs + [] == xs;
    }
  }

  /** No element occurs twice. */
  predicate Distinct<T(==)>(xs: seq<T>) {
    forall i, j :: 0 <= i < j < |xs| ==> xs[i] != xs[j]
  }

  /** Filtering a list without repeats gives a list without repeats. */
  lemma {:induction false} FilterDistinct<T>(xs: seq<T>, p: T -> bool)
    requires Distinct(xs)
    ensures Distinct(Filter(xs, p))
    decreases |xs|
  {
    if |xs| > 0 {
      var tail := xs[1..];
      assert Distinct(tail) by {
        forall i, j | 0 <= i < j < |tail| ensures tail[i] != tail[j] {
          assert tail[i] == xs[i + 1] && tail[j] == xs[j + 1];
        }
      }
      FilterDistinct(tail, p);
      if p(xs[0]) {
        var r := Filter(xs, p);
        var t := Filter(tail, p);
        assert xs[0] !in tail by {
          forall k | 0 <= k < |tail| ensures tail[k] != xs[0] { assert tail[k] == xs[k + 1]; }
        }
        FilterMembership(tail, p, xs[0]);
        forall i, j | 0 <= i < j < |r| ensures r[i] != r[j] {
          assert r[j] == t[j - 1];
          if i == 0 {
            assert t[j - 1] in t;
          } else {
            assert r[i] == t[i - 1];
          }
        }
      }
    }
  }

  /** A toggle never introduces a repeat. */
  lemma {:induction false} ToggleMemberDistinct<T>(xs: seq<T>, x: T)
    requires Distinct(xs)
    ensures Distinct(ToggleMember(xs, x))
  {
    if x in xs {
      FilterDistinct(xs, Differs(x));
    } else {
      var r := xs + [x];
      forall i, j | 0 <= i < j < |r| ensures r[i] != r[j] {
        if j == |xs| {
          assert r[i] == xs[i];
        } else {
          assert r[i] == xs[i] && r[j] == xs[j];
        }
      }
    }
  }

  /** A list without repeats has as many distinct elements as entries. */
  lemma {:induction false} DistinctElements<T>(xs: seq<T>)
    requires Distinct(xs)
    ensures |set x | x in xs| == |xs|
    decreases |xs|
  {
    if |xs| > 0 {
      var init := xs[..|xs| - 1];
      var last := xs[|xs| - 1];
      assert Distinct(init) by {
        forall i, j | 0 <= i < j < |init| ensures init[i] != init[j] {
          assert init[i] == xs[i] && init[j] == xs[j];
        }
      }
      DistinctElements(init);
      assert (set x | x in xs) == (set x | x in init) + {last} by {
        assert xs == init + [last];
      }
      assert last !in (set x | x in init) by {
        forall k | 0 <= k < |init| ensures init[k] != last { assert init[k] == xs[k]; }
      }
    }
  }

  /** A subset is no larger than its superset, and equally large only when
      the two are equal. */
  lemma {:induction false} SubsetSize<T>(a: set<T>, b: set<T>)
    requires a <= b
    ensures |a| <= |b|
    ensures |a| == |b| ==> a == b
    decreases |a|
  {
    if a != {} {
      var x :| x in a;
      SubsetSize(a - {x}, b - {x});
      if |a| == |b| {
        assert a - {x} == b - {x};
        assert a == (a - {x}) + {x} && b == (b - {x}) + {x};
      }
    } else if |a| == |b| {
      assert b == {};
    }
  }
}

=== FILE: login.dfy ===
/** The sign-in screen: the guards in front of each auth call, the
    redirect address a confirmation mail points back to, the reading of a
    registration error and the profile name stored for a user who is
    signed in straight away. The auth calls' answers and the app's own
    default URL are parameters. */
module Login {
  import opened Optional
  import opened JsText

  // ------------------------------------------------------------ guards

  /** Registering and signing in need both an email and a password. */
  predicate CanSubmit(email: string, password: string) {
    email != "" && password != ""
  }

  /** Resending the confirmation needs an email. */
  predicate CanResend(email: string) {
    email != ""
  }

  /** The redirect of the confirmation mail: `exp://<host>` while the dev
      server's host is known (from the config, else the manifest), the
      app's own URL otherwise. */
  function Redirect(configHost: Option<string>, manifestHost: Option<string>, appUrl: string): (url: string)
    ensures var host := Or(configHost, manifestHost);
      && (Truthy(host) ==> url == "exp://" + host.value && StartsWith(url, "exp://"))
      && (!Truthy(host) ==> url == appUrl)
  {
    var host := Or(configHost, manifestHost);
    if Truthy(host) then
      assert ("exp://" + host.value)[..6] == "exp://";
      "exp://" + host.value
    else appUrl
  }

  // ------------------------------------------------------------ errors

  datatype ErrorKind = AccountExists | SignupsDisabled | Other(message: string)

  /** `String(err?.message || 'Something went wrong.')`. */
  function MessageOf(message: Option<string>): (msg: string)
    ensures msg != ""
  {
    OrElse(message, "Something went wrong.")
  }

  /** The catch of `handleRegister`: the lower-cased message is searched
      for `user already registered`, then for `signups not allowed` or
      `signup disabled`; the first match decides and anything else shows
      the raw message. */
  function Classify(msg: string): (k: ErrorKind)
    ensures k == AccountExists <==> Includes(Lower(msg), "user already registered")
    ensures k == SignupsDisabled <==> (!Includes(Lower(msg), "user already registered")
      && (Includes(Lower(msg), "signups not allowed") || Includes(Lower(msg), "signup disabled")))
    ensures k.Other? ==> k.message == msg
  {
    var low := Lower(msg);
    if Includes(low, "user already registered") then AccountExists
    else if Includes(low, "signups not allowed") || Includes(low, "signup disabled") then SignupsDisabled
    else Other(msg)
  }

  /** The reading does not depend on case: a message and its lower-cased
      text fall into the same kind. */
  lemma {:induction false} ClassifyIgnoresCase(msg: string)
    ensures Classify(Lower(msg)).AccountExists? <==> Classify(msg).AccountExists?
    ensures Classify(Lower(msg)).SignupsDisabled? <==> Classify(msg).SignupsDisabled?
  {
    LowerTwice(msg);
  }

  // ------------------------------------------------------------ registering

  /** The answer of `signUp`: an error with its message, an account that
      still needs its email confirmed, or a session (with the user's id
      when one came back). */
  datatype SignUpAnswer = SignUpFailed(message: Option<string>) | NeedsConfirmation | SignedUp(userId: Option<string>)

  datatype SignUpCall = SignUpCall(email: string, password: string, redirectTo: string)

  /** What `handleRegister` leaves behind: the call it made, the two state
      flags, the profile upsert and the error kind shown. */
  datatype Registration = Registration(
    call: Option<SignUpCall>,
    pendingVerification: bool,
    lastRedirect: Option<string>,
    upsert: Option<(string, string)>,
    error: Option<ErrorKind>)

  function Register(email: string, password: string, firstName: string, redirect: string,
                    pending: bool, lastRedirect: Option<string>, answer: SignUpAnswer): (r: Registration)
    ensures r.call.None? <==> !CanSubmit(email, password)
    ensures r.call.None? ==> r == Registration(None, pending, lastRedirect, None, None)
    ensures r.call.Some? ==> r.call.value == SignUpCall(email, password, redirect) && r.lastRedirect == Some(redirect)
    ensures r.upsert.Some? <==> r.call.Some? && answer.SignedUp? && Truthy(answer.userId) && Trim(firstName) != ""
    ensures r.upsert.Some? ==> r.upsert.value == (answer.userId.value, Trim(firstName))
    ensures r.error.Some? <==> r.call.Some? && answer.SignUpFailed?
    ensures r.error.Some? ==> r.error.value == Classify(MessageOf(answer.message))
    ensures r.pendingVerification <==> (pending
      || (r.call.Some? && (answer.NeedsConfirmation? || r.error == Some(AccountExists))))
  {
    if !CanSubmit(email, password) then Registration(None, pending, lastRedirect, None, None)
    else
      var call := Some(SignUpCall(email, password, redirect));
      match answer
      case SignUpFailed(message) =>
        var kind := Classify(MessageOf(message));
        Registration(call, pending || kind == AccountExists, Some(redirect), None, Some(kind))
      case NeedsConfirmation =>
        Registration(call, true, Some(redirect), None, None)
      case SignedUp(userId) =>
        var name := Trim(firstName);
        var upsert := if Truthy(userId) && |name| > 0 then Some((userId.value, name)) else None;
        Registration(call, pending, Some(redirect), upsert, None)
  }

  /** The stored display name never carries white space at either end. */
  lemma {:induction false} UpsertedNameTrimmed(email: string, password: string, firstName: string, redirect: string,
                            pending: bool, lastRedirect: Option<string>, answer: SignUpAnswer)
    ensures var r := Register(email, password, firstName, redirect, pending, lastRedirect, answer);
      r.upsert.Some? ==> r.upsert.value.1 != "" && Trimmed(r.upsert.value.1)
  {
    TrimTrimmed(firstName);
  }

  /** The text of a failed sign-in: the error's message, or a default. */
  function LoginErrorText(message: Option<string>): (text: string)
    ensures Truthy(message) ==> text == message.value
    ensures !Truthy(message) ==> text == "Invalid email or password."
  {
    OrElse(message, "Invalid email or password.")
  }

  /** A host from the dev-server config wins over the manifest's, which is
      then never consulted; without a config host the manifest alone
      decides. */
  lemma {:induction false} RedirectPrefersConfig(configHost: Option<string>, manifestHost: Option<string>,
                                                 otherManifest: Option<string>, appUrl: string)
    ensures Truthy(configHost) ==>
      Redirect(configHost, manifestHost, appUrl) == Redirect(configHost, otherManifest, appUrl)
    ensures !Truthy(configHost) ==>
      Redirect(configHost, manifestHost, appUrl) == Redirect(None, manifestHost, appUrl)
  {
  }

  /** The shown error text is never empty, and showing it again as the
      message of a new error changes nothing. */
  lemma {:induction false} LoginErrorTextStable(message: Option<string>)
    ensures LoginErrorText(message) != ""
    ensures LoginErrorText(Some(LoginErrorText(message))) == LoginErrorText(message)
  {
  }
}

=== FILE: manage_images.dfy ===
/** The image manager of a restaurant owner: the storage path of an
    uploaded picture, when the restaurant row is pointed at it, the row
    that records a new food picture and the list kept on screen. The
    upload time is a parameter and the stored rows come from the backend. */
module ManageImages {
  import opened Optional
  import opened JsText
  import opened Lists

  /** A `restaurant_images` row. */
  datatype FoodImage = FoodImage(
    id: string,
    restaurantId: Option<string>,
    imageUrl: string,
    imageType: string,
    foodName: Option<string>,
    caption: Option<string>,
    sortOrder: int)

  /** The fields inserted for a new food picture. `restaurant_id` is the
      screen's restaurant, which may still be `null`. */
  datatype FoodInsert = FoodInsert(
    restaurantId: Option<string>,
    imageUrl: string,
    imageType: string,
    foodName: string,
    caption: Option<string>,
    sortOrder: int)

  /** The food part of the screen: the pictures, the two inputs of the
      upload dialog and whether it is open. */
  datatype FoodPanel = FoodPanel(images: seq<FoodImage>, newName: string, newDescription: string, showModal: bool)

  /** The three branding pictures. */
  datatype Branding = Branding(logoUrl: Option<string>, exteriorUrl: Option<string>, interiorUrl: Option<string>)

  datatype BrandingKind = Logo | Exterior | Interior

  // ------------------------------------------------------------ paths

  /** A template literal's text of the restaurant id: `null` when unset. */
  function IdText(restaurantId: Option<string>): string {
    match restaurantId
    case Some(id) => id
    case None => "null"
  }

  /** The object name `<restaurant>/<kind>-<time>.<ext>`, with the extension
      taken after the last `.` of the picked file's URI. */
  function UploadPath(restaurantId: Option<string>, kind: string, nowMs: int, uri: string): (path: string)
    ensures StartsWith(path, IdText(restaurantId) + "/" + kind + "-")
    ensures LastPiece(path, '.') == LastPiece(uri, '.')
  {
    var prefix := IdText(restaurantId) + "/" + kind + "-";
    var ext := LastPiece(uri, '.');
    var path := prefix + IntToString(nowMs) + "." + ext;
    assert path[..|prefix|] == prefix;
    assert path == (prefix + IntToString(nowMs)) + ['.'] + ext;
    LastPieceAfter(prefix + IntToString(nowMs), ext, '.');
    path
  }

  /** The path stem and restaurant column of each branding picture. */
  function BrandingStem(kind: BrandingKind): string {
    match kind
    case Logo => "logo"
    case Exterior => "exterior"
    case Interior => "interior"
  }

  function BrandingColumn(kind: BrandingKind): string {
    match kind
    case Logo => "logo_url"
    case Exterior => "exterior_image_url"
    case Interior => "interior_image_url"
  }

  /** `uploadImage` writes the public URL into the restaurant row only when
      a column is named and the restaurant is known. */
  function UpdatesRestaurant(updateField: Option<string>, restaurantId: Option<string>): (b: bool)
    ensures b ==> updateField.Some? && restaurantId.Some?
    ensures b <==> Truthy(updateField) && Truthy(restaurantId)
  {
    Truthy(updateField) && Truthy(restaurantId)
  }

  /** After a branding upload the URL returned (if any) replaces that
      picture alone. */
  function SetBranding(b: Branding, kind: BrandingKind, url: Option<string>): (r: Branding)
    ensures !Truthy(url) ==> r == b
    ensures Truthy(url) ==> match kind
      case Logo => r == b.(logoUrl := url)
      case Exterior => r == b.(exteriorUrl := url)
      case Interior => r == b.(interiorUrl := url)
  {
    if !Truthy(url) then b
    else match kind
      case Logo => b.(logoUrl := url)
      case Exterior => b.(exteriorUrl := url)
      case Interior => b.(interiorUrl := url)
  }

  // ------------------------------------------------------------ food pictures

  /** The inserted row of `handleFoodImageUpload`: a food picture named
      `Unnamed dish` when no name was typed, with no caption when no
      description was typed, sorted after the pictures already shown. */
  function FoodInsertOf(restaurantId: Option<string>, publicUrl: string, panel: FoodPanel): (ins: FoodInsert)
    ensures ins.imageType == "food" && ins.restaurantId == restaurantId && ins.imageUrl == publicUrl
    ensures ins.foodName != ""
    ensures panel.newName != "" ==> ins.foodName == panel.newName
    ensures panel.newName == "" ==> ins.foodName == "Unnamed dish"
    ensures ins.caption.None? <==> panel.newDescription == ""
    ensures ins.caption.Some? ==> ins.caption.value == panel.newDescription
    ensures ins.sortOrder == |panel.images|
  {
    FoodInsert(restaurantId, publicUrl, "food",
               if panel.newName != "" then panel.newName else "Unnamed dish",
               EmptyToNull(panel.newDescription), |panel.images|)
  }

  /** The row the backend returns for an insert, under its new id; the
      restaurant column holds what was sent, `null` included. */
  function Stored(ins: FoodInsert, id: string): FoodImage {
    FoodImage(id, ins.restaurantId, ins.imageUrl, ins.imageType, Some(ins.foodName), ins.caption,
              ins.sortOrder)
  }

  /** A successful food upload appends the stored row, clears both inputs
      and closes the dialog. */
  function AfterFoodUpload(panel: FoodPanel, created: FoodImage): (r: FoodPanel)
    ensures |r.images| == |panel.images| + 1 && r.images[..|panel.images|] == panel.images
    ensures r.images[|panel.images|] == created
    ensures r.newName == "" && r.newDescription == "" && !r.showModal
  {
    assert (panel.images + [created])[..|panel.images|] == panel.images;
    FoodPanel(panel.images + [created], "", "", false)
  }

  /** Each picture's sort order is its position. */
  predicate Dense(images: seq<FoodImage>) {
    forall k :: 0 <= k < |images| ==> images[k].sortOrder == k
  }

  /** Uploads alone keep the sort orders equal to the positions: the new
      picture's order is the count of pictures before it. */
  lemma {:induction false} UploadKeepsDense(panel: FoodPanel, restaurantId: Option<string>, publicUrl: string, id: string)
    requires Dense(panel.images)
    ensures var created := Stored(FoodInsertOf(restaurantId, publicUrl, panel), id);
      Dense(AfterFoodUpload(panel, created).images)
  {
    var created := Stored(FoodInsertOf(restaurantId, publicUrl, panel), id);
    var after := AfterFoodUpload(panel, created).images;
    forall k | 0 <= k < |after| ensures after[k].sortOrder == k {
      if k < |panel.images| {
        assert after[k] == after[..|panel.images|][k] == panel.images[k];
      }
    }
  }

  function ImageId(img: FoodImage): string {
    img.id
  }

  /** `foodImages.filter(img => img.id !== imageId)` after a successful
      delete. */
  function DeleteFoodImage(images: seq<FoodImage>, imageId: string): (r: seq<FoodImage>)
    ensures |r| <= |images|
    ensures forall k :: 0 <= k < |r| ==> r[k].id != imageId
  {
    RemoveKey(images, ImageId, imageId)
  }

  lemma {:induction false} DeleteFoodImageKeeps(images: seq<FoodImage>, imageId: string, img: FoodImage)
    ensures IsSubsequence(DeleteFoodImage(images, imageId), images)
    ensures img in DeleteFoodImage(images, imageId) <==> img in images && img.id != imageId
  {
    RemoveKeyKeeps(images, ImageId, imageId, img);
  }

  /** The stored picture of one kind. */
  function PictureOf(b: Branding, kind: BrandingKind): Option<string> {
    match kind
    case Logo => b.logoUrl
    case Exterior => b.exteriorUrl
    case Interior => b.interiorUrl
  }

  /** After an upload of one kind, that kind shows the returned URL when
      there is one, and every kind keeps its picture otherwise. */
  lemma {:induction false} SetBrandingEffect(b: Branding, kind: BrandingKind, url: Option<string>, other: BrandingKind)
    ensures PictureOf(SetBranding(b, kind, url), other) ==
      if other == kind && Truthy(url) then url else PictureOf(b, other)
  {
  }
}

=== FILE: menu_images.dfy ===
/** The menu-image listing of the restaurant screen: the stored files of a
    restaurant are kept when their name ends in an image extension, each is
    given the sort index recorded for its path (unindexed paths go last), and
    the list is sorted by that index with the path as tie-break. The
    storage listing, the public-URL lookup and the locale-aware path
    comparison are parameters. */
module MenuImages {
  import opened Optional
  import opened JsText

  /** `IMAGE_EXTENSIONS`. */
  const ImageExtensions: seq<string> := [".png", ".jpg", ".jpeg", ".webp", ".gif"]

  /** A `media_order` row. */
  datatype OrderRow = OrderRow(restaurantId: string, path: string, sortIndex: Option<int>)

  /** A kept image; `sortOrder` is `None` for `Number.POSITIVE_INFINITY`. */
  datatype MenuAsset = MenuAsset(path: string, name: string, url: string, sortOrder: Option<int>)

  /** A non-empty name whose lower-cased text ends in an image extension. */
  predicate IsImageName(name: string) {
    name != "" && exists i | 0 <= i < |ImageExtensions| :: EndsWith(Lower(name), ImageExtensions[i])
  }

  // ------------------------------------------------------------ order lookup

  /** The sort index map built by `orderRows.forEach(...)`: a row with a
      non-null `sort_index` sets its (restaurant, path) entry, so a later row
      overrides an earlier one, and a null index sets nothing. */
  function OrderLookup(rows: seq<OrderRow>): (lookup: map<(string, string), int>)
    ensures lookup.Keys <= IndexedKeys(rows)
    decreases |rows|
  {
    if |rows| == 0 then map[]
    else
      var m := OrderLookup(rows[..|rows| - 1]);
      var last := rows[|rows| - 1];
      if last.sortIndex.Some? then m[(last.restaurantId, last.path) := last.sortIndex.value] else m
  }

  /** The keys named by rows with a non-null index. */
  function IndexedKeys(rows: seq<OrderRow>): set<(string, string)> {
    set i | 0 <= i < |rows| && rows[i].sortIndex.Some? :: (rows[i].restaurantId, rows[i].path)
  }

  /** The row supplies the index for a key. */
  predicate Indexes(row: OrderRow, key: (string, string)) {
    row.sortIndex.Some? && (row.restaurantId, row.path) == key
  }

  /** A key has an index exactly when some row with a non-null index names
      it, and then the index is the one of the last such row. */
  lemma {:induction false} OrderLookupLast(rows: seq<OrderRow>, key: (string, string))
    ensures key in OrderLookup(rows) <==> exists i | 0 <= i < |rows| :: Indexes(rows[i], key)
    ensures key in OrderLookup(rows) ==>
      exists i | 0 <= i < |rows| :: Indexes(rows[i], key) && rows[i].sortIndex.value == OrderLookup(rows)[key]
        && forall j | i < j < |rows| :: !Indexes(rows[j], key)
    decreases |rows|
  {
    if |rows| > 0 {
      var init := rows[..|rows| - 1];
      OrderLookupLast(init, key);
      if Indexes(rows[|rows| - 1], key) {
        assert OrderLookup(rows)[key] == rows[|rows| - 1].sortIndex.value;
      } else {
        OrderLookupSkip(rows, key);
      }
    }
  }

  /** A last row that does not index the key leaves its entry, and the
      witnesses for it, as they were without that row. */
  lemma {:induction false} OrderLookupSkip(rows: seq<OrderRow>, key: (string, string))
    requires |rows| > 0 && !Indexes(rows[|rows| - 1], key)
    requires var init := rows[..|rows| - 1];
      && (key in OrderLookup(init) <==> exists i | 0 <= i < |init| :: Indexes(init[i], key))
      && (key in OrderLookup(init) ==>
        exists i | 0 <= i < |init| :: Indexes(init[i], key) && init[i].sortIndex.value == OrderLookup(init)[key]
          && forall j | i < j < |init| :: !Indexes(init[j], key))
    ensures key in OrderLookup(rows) <==> exists i | 0 <= i < |rows| :: Indexes(rows[i], key)
    ensures key in OrderLookup(rows) ==>
      exists i | 0 <= i < |rows| :: Indexes(rows[i], key) && rows[i].sortIndex.value == OrderLookup(rows)[key]
        && forall j | i < j < |rows| :: !Indexes(rows[j], key)
  {
    var init := rows[..|rows| - 1];
    var last := rows[|rows| - 1];
    var m := OrderLookup(init);
    if last.sortIndex.Some? {
      assert OrderLookup(rows) == m[(last.restaurantId, last.path) := last.sortIndex.value];
      assert (last.restaurantId, last.path) != key;
    } else {
      assert OrderLookup(rows) == m;
    }
    forall i | 0 <= i < |init| ensures rows[i] == init[i] { }
    if key in OrderLookup(rows) {
      var i :| 0 <= i < |init| && Indexes(init[i], key) && init[i].sortIndex.value == OrderLookup(init)[key]
        && forall j | i < j < |init| :: !Indexes(init[j], key);
      assert rows[i] == init[i];
      forall j | i < j < |rows| ensures !Indexes(rows[j], key) {
        if j < |init| { assert rows[j] == init[j]; }
      }
    }
  }

  // ------------------------------------------------------------ the order

  /** `a.sortOrder - b.sortOrder < 0` for distinct orders, with
      infinity above every finite index. */
  predicate OrderBefore(a: Option<int>, b: Option<int>) {
    match (a, b)
    case (Some(x), Some(y)) => x < y
    case (Some(_), None) => true
    case (None, _) => false
  }

  /** A comparison of paths that is total and transitive (the role of
      `localeCompare`). */
  ghost predicate IsPathOrder(pathLe: (string, string) -> bool) {
    && (forall a, b :: pathLe(a, b) || pathLe(b, a))
    && (forall a, b, c :: pathLe(a, b) && pathLe(b, c) ==> pathLe(a, c))
  }

  /** The comparator of the sort: equal orders compare by path, otherwise
      by order. */
  predicate AssetLe(pathLe: (string, string) -> bool, a: MenuAsset, b: MenuAsset) {
    if a.sortOrder == b.sortOrder then pathLe(a.path, b.path) else OrderBefore(a.sortOrder, b.sortOrder)
  }

  lemma {:induction false} AssetLeTotal(pathLe: (string, string) -> bool, a: MenuAsset, b: MenuAsset)
    requires IsPathOrder(pathLe)
    ensures AssetLe(pathLe, a, b) || AssetLe(pathLe, b, a)
  {
  }

  lemma {:induction false} AssetLeTransitive(pathLe: (string, string) -> bool, a: MenuAsset, b: MenuAsset, c: MenuAsset)
    requires IsPathOrder(pathLe)
    requires AssetLe(pathLe, a, b) && AssetLe(pathLe, b, c)
    ensures AssetLe(pathLe, a, c)
  {
  }

  predicate Sorted(pathLe: (string, string) -> bool, xs: seq<MenuAsset>) {
    forall i | 0 <= i < |xs| - 1 :: AssetLe(pathLe, xs[i], xs[i + 1])
  }

  // ------------------------------------------------------------ the sort

  /** Insert `x` before the first element it may precede. */
  function Insert(pathLe: (string, string) -> bool, x: MenuAsset, xs: seq<MenuAsset>): (r: seq<MenuAsset>)
    ensures multiset(r) == multiset(xs) + multiset{x}
    ensures |r| == |xs| + 1
    decreases |xs|
  {
    if |xs| == 0 then [x]
    else if AssetLe(pathLe, x, xs[0]) then [x] + xs
    else
      assert xs == [xs[0]] + xs[1..];
      [xs[0]] + Insert(pathLe, x, xs[1..])
  }

  lemma {:induction false} InsertSorted(pathLe: (string, string) -> bool, x: MenuAsset, xs: seq<MenuAsset>)
    requires IsPathOrder(pathLe) && Sorted(pathLe, xs)
    ensures Sorted(pathLe, Insert(pathLe, x, xs))
    ensures |xs| > 0 ==> Insert(pathLe, x, xs)[0] == x || Insert(pathLe, x, xs)[0] == xs[0]
    decreases |xs|
  {
    if |xs| > 0 && !AssetLe(pathLe, x, xs[0]) {
      AssetLeTotal(pathLe, x, xs[0]);
      var rest := Insert(pathLe, x, xs[1..]);
      assert Sorted(pathLe, xs[1..]);
      InsertSorted(pathLe, x, xs[1..]);
      if |xs| > 1 {
        assert AssetLe(pathLe, xs[0], xs[1]);
      }
      assert AssetLe(pathLe, xs[0], rest[0]);
      var r := [xs[0]] + rest;
      forall i | 0 <= i < |r| - 1 ensures AssetLe(pathLe, r[i], r[i + 1]) {
        if i > 0 { assert r[i] == rest[i - 1] && r[i + 1] == rest[i]; }
      }
    }
  }

  /** The asset list sorted by the comparator. */
  function SortAssets(pathLe: (string, string) -> bool, xs: seq<MenuAsset>): (r: seq<MenuAsset>)
    ensures multiset(r) == multiset(xs)
    ensures |r| == |xs|
    decreases |xs|
  {
    if |xs| == 0 then []
    else
      assert xs == [xs[0]] + xs[1..];
      Insert(pathLe, xs[0], SortAssets(pathLe, xs[1..]))
  }

  lemma {:induction false} SortAssetsSorted(pathLe: (string, string) -> bool, xs: seq<MenuAsset>)
    requires IsPathOrder(pathLe)
    ensures Sorted(pathLe, SortAssets(pathLe, xs))
    decreases |xs|
  {
    if |xs| > 0 {
      SortAssetsSorted(pathLe, xs[1..]);
      InsertSorted(pathLe, xs[0], SortAssets(pathLe, xs[1..]));
    }
  }

  /** Sorted means ordered between any two positions, not only neighbours:
      indexed assets come first by ascending index, unindexed ones last. */
  lemma {:induction false} SortedPairs(pathLe: (string, string) -> bool, xs: seq<MenuAsset>, i: int, j: int)
    requires IsPathOrder(pathLe) && Sorted(pathLe, xs)
    requires 0 <= i < j < |xs|
    ensures AssetLe(pathLe, xs[i], xs[j])
    decreases j - i
  {
    if j > i + 1 {
      SortedPairs(pathLe, xs, i + 1, j);
      AssetLeTransitive(pathLe, xs[i], xs[i + 1], xs[j]);
    }
  }

  // ------------------------------------------------------------ the listing

  /** The assets kept from a restaurant's listed file names, in listing
      order, before sorting. */
  function KeptAssets(restaurantId: string, names: seq<string>, lookup: map<(string, string), int>,
                      publicUrl: string -> string): (r: seq<MenuAsset>)
    ensures |r| <= |names|
    ensures |r| == 0 <==> forall k :: 0 <= k < |names| ==> !IsImageName(names[k])
    ensures forall k :: 0 <= k < |r| ==> IsImageName(r[k].name)
    decreases |names|
  {
    if |names| == 0 then []
    else
      var rest := KeptAssets(restaurantId, names[1..], lookup, publicUrl);
      assert forall k :: 1 <= k < |names| ==> names[k] == names[1..][k - 1];
      var name := names[0];
      if IsImageName(name) then
        var path := restaurantId + "/" + name;
        var order := if (restaurantId, path) in lookup then Some(lookup[(restaurantId, path)]) else None;
        [MenuAsset(path, name, publicUrl(path), order)] + rest
      else rest
  }

  /** An asset is kept exactly for a listed image name, under the path
      `<restaurant id>/<name>`, with the public URL of that path and the
      recorded index of that path, if any. */
  lemma {:induction false} KeptAssetsShape(restaurantId: string, names: seq<string>,
                                           lookup: map<(string, string), int>, publicUrl: string -> string,
                                           a: MenuAsset)
    ensures a in KeptAssets(restaurantId, names, lookup, publicUrl) <==>
      && a.name in names && IsImageName(a.name)
      && a.path == restaurantId + "/" + a.name
      && a.url == publicUrl(a.path)
      && a.sortOrder == (if (restaurantId, a.path) in lookup then Some(lookup[(restaurantId, a.path)]) else None)
    decreases |names|
  {
    if |names| > 0 {
      KeptAssetsShape(restaurantId, names[1..], lookup, publicUrl, a);
      assert names == [names[0]] + names[1..];
    }
  }

  /** `menuImagesMap[restaurant.id]`: the sorted assets, or nothing when no
      listed file is an image. */
  function MenuImagesFor(restaurantId: string, names: seq<string>, rows: seq<OrderRow>,
                         publicUrl: string -> string, pathLe: (string, string) -> bool)
    : (r: Option<seq<MenuAsset>>)
    ensures r.None? <==> forall k :: 0 <= k < |names| ==> !IsImageName(names[k])
    ensures r.Some? ==> |r.value| > 0
  {
    var assets := KeptAssets(restaurantId, names, OrderLookup(rows), publicUrl);
    if |assets| > 0 then Some(SortAssets(pathLe, assets)) else None
  }

  /** The published list holds exactly the kept images, each once per
      listing, sorted ascending by index with unindexed paths last and ties
      broken by path. */
  lemma {:induction false} MenuImagesSorted(restaurantId: string, names: seq<string>, rows: seq<OrderRow>,
                         publicUrl: string -> string, pathLe: (string, string) -> bool)
    requires IsPathOrder(pathLe)
    ensures var r := MenuImagesFor(restaurantId, names, rows, publicUrl, pathLe);
      var assets := KeptAssets(restaurantId, names, OrderLookup(rows), publicUrl);
      && (r.None? <==> |assets| == 0)
      && (r.Some? ==> multiset(r.value) == multiset(assets) && Sorted(pathLe, r.value))
  {
    var assets := KeptAssets(restaurantId, names, OrderLookup(rows), publicUrl);
    SortAssetsSorted(pathLe, assets);
  }

  /** Among sorted assets, an indexed asset never follows an unindexed one,
      and indexed assets appear by non-decreasing index. */
  lemma {:induction false} IndexedFirst(pathLe: (string, string) -> bool, xs: seq<MenuAsset>, i: int, j: int)
    requires IsPathOrder(pathLe) && Sorted(pathLe, xs)
    requires 0 <= i < j < |xs|
    ensures xs[i].sortOrder.None? ==> xs[j].sortOrder.None?
    ensures xs[i].sortOrder.Some? && xs[j].sortOrder.Some? ==> xs[i].sortOrder.value <= xs[j].sortOrder.value
  {
    SortedPairs(pathLe, xs, i, j);
  }
}

=== FILE: onboarding.dfy ===
/** The onboarding screen's single step: the first name is checked,
    stored trimmed on the signed-in user's profile, and the app moves on. */
module Onboarding {
  import opened Optional
  import opened JsText
  import App

  /** The `profiles` column a name is written to. The app shell decides
      whether onboarding is still needed from `display_name`. */
  datatype NameColumn = FirstNameColumn | DisplayNameColumn

  /** The outcome of `handleContinue`: a blank name is refused, a missing
      session sends the user to sign in, and otherwise the profile update
      of one column is made and either succeeds or reports a failure. */
  datatype Continue =
    | Refused
    | SentToLogin
    | Saved(userId: string, column: NameColumn, firstName: string)
    | SaveFailed(userId: string, column: NameColumn, firstName: string)

  /** The continue step writing the trimmed name to `column`. */
  function ContinueTo(column: NameColumn, firstName: string, userId: Option<string>, updateOk: bool): (c: Continue)
    ensures c == Refused <==> Blank(firstName)
    ensures c == SentToLogin <==> !Blank(firstName) && !Truthy(userId)
    ensures c.Saved? <==> !Blank(firstName) && Truthy(userId) && updateOk
    ensures c.Saved? || c.SaveFailed? ==>
      c.userId == userId.value && c.column == column
      && c.firstName == Trim(firstName) && c.firstName != "" && Trimmed(c.firstName)
  {
    TrimTrimmed(firstName);
    if Blank(firstName) then Refused
    else if !Truthy(userId) then SentToLogin
    else if updateOk then Saved(userId.value, column, Trim(firstName))
    else SaveFailed(userId.value, column, Trim(firstName))
  }

  /** `handleContinue` as the screen has it: the name is written to
      `first_name`, a column the shell never reads. */
  function HandleContinue(firstName: string, userId: Option<string>, updateOk: bool): (c: Continue)
    ensures c == Refused <==> Blank(firstName)
    ensures c == SentToLogin <==> !Blank(firstName) && !Truthy(userId)
    ensures c.Saved? <==> !Blank(firstName) && Truthy(userId) && updateOk
    ensures c.Saved? || c.SaveFailed? ==>
      c.userId == userId.value && c.column == FirstNameColumn
      && c.firstName == Trim(firstName) && c.firstName != "" && Trimmed(c.firstName)
  {
    ContinueTo(FirstNameColumn, firstName, userId, updateOk)
  }

  /** `handleContinue` writing the name where the shell looks for it, as
      registration does: `display_name`. */
  function HandleContinueCorrected(firstName: string, userId: Option<string>, updateOk: bool): (c: Continue)
    ensures c == Refused <==> Blank(firstName)
    ensures c == SentToLogin <==> !Blank(firstName) && !Truthy(userId)
    ensures c.Saved? <==> !Blank(firstName) && Truthy(userId) && updateOk
    ensures c.Saved? || c.SaveFailed? ==>
      c.userId == userId.value && c.column == DisplayNameColumn
      && c.firstName == Trim(firstName) && c.firstName != "" && Trimmed(c.firstName)
  {
    ContinueTo(DisplayNameColumn, firstName, userId, updateOk)
  }

  /** The profile's `display_name` after the step, starting from `before`:
      only a successful write to that column changes it. */
  function DisplayNameAfter(before: Option<string>, c: Continue): (after: Option<string>)
    ensures after != before ==> c.Saved? && c.column == DisplayNameColumn
    ensures c.Saved? && c.column == DisplayNameColumn ==> after == Some(c.firstName)
  {
    if c.Saved? && c.column == DisplayNameColumn then Some(c.firstName) else before
  }

  /** Where the app goes next: sign-in without a session, the main tabs
      after a save, and nowhere (the screen stays) otherwise. */
  function NextRoute(c: Continue): (r: Option<App.Route>)
    ensures r == Some(App.Login) <==> c == SentToLogin
    ensures r == Some(App.MainTabs) <==> c.Saved?
    ensures r.None? <==> c == Refused || c.SaveFailed?
  {
    match c
    case Refused => None
    case SentToLogin => Some(App.Login)
    case Saved(_, _, _) => Some(App.MainTabs)
    case SaveFailed(_, _, _) => None
  }

  /** A typed name with surrounding spaces is stored without them, in
      whichever column is written. */
  lemma {:induction false} StoredNameIsTrimmed(column: NameColumn, name: string, userId: string)
    requires name != "" && Trimmed(name) && userId != ""
    ensures ContinueTo(column, " " + name + " ", Some(userId), true) == Saved(userId, column, name)
  {
    var typed := " " + name + " ";
    assert TrimStart(typed) == name + " " by {
      assert typed[1..] == name + " ";
      assert SpacesBefore(typed[1..]) == 0 by { assert typed[1..][0] == name[0]; }
    }
    assert TrimEnd(name + " ") == name by {
      assert (name + " ")[..|name|] == name;
      assert ContentEnd(name) == |name|;
    }
    assert Trim(typed) == name;
  }

  /** As written: a user who finishes onboarding is sent to the main tabs,
      but the row the shell reads at the next sign-in still has no display
      name (the one inserted for a new user has none), so the shell routes
      them to onboarding again. */
  lemma {:induction false} OnboardedUserStillUnnamed(name: string, userId: string, before: Option<string>)
    requires !Blank(name) && userId != "" && !Truthy(before)
    ensures var c := HandleContinue(name, Some(userId), true);
      && NextRoute(c) == Some(App.MainTabs)
      && App.SignedIn(userId, App.ProfileLookup(Some(DisplayNameAfter(before, c)), None)).route == App.Onboarding
  {
    var c := HandleContinue(name, Some(userId), true);
    assert c.Saved? && c.column == FirstNameColumn;
    assert DisplayNameAfter(before, c) == before;
  }

  /** Corrected: once the name is written to `display_name`, the next
      sign-in finds a named profile, goes to the main tabs and welcomes the
      user by the trimmed name, whatever the row held before. */
  lemma {:induction false} OnboardedUserIsNamed(name: string, userId: string, before: Option<string>)
    requires !Blank(name) && userId != ""
    ensures var c := HandleContinueCorrected(name, Some(userId), true);
      var shell := App.SignedIn(userId, App.ProfileLookup(Some(DisplayNameAfter(before, c)), None));
      && NextRoute(c) == Some(App.MainTabs)
      && shell.route == App.MainTabs && !shell.needsOnboarding
      && shell.welcomeName == Some(Trim(name))
  {
    var c := HandleContinueCorrected(name, Some(userId), true);
    assert c.Saved? && c.column == DisplayNameColumn;
    assert DisplayNameAfter(before, c) == Some(Trim(name));
  }
}

=== FILE: optional.dfy ===
/** Nullable values as the screens see them: a JavaScript `null`/`undefined`
    is `None`, and JavaScript truthiness of an optional string or number is
    spelled out explicitly. */
module Optional {

  datatype Option<+T> = None | Some(value: T) {

    /** The value, or a default when absent (JavaScript `??`). */
    function GetOr(default: T): T {
      match this
      case Some(v) => v
      case None => default
    }
  }

  /** JavaScript truthiness of a `string | null`: present and non-empty. */
  predicate Truthy(s: Option<string>) {
    s.Some? && s.value != ""
  }

  /** JavaScript truthiness of a `number | null`: present and non-zero
      (a NaN never reaches these call sites). */
  predicate TruthyNum(n: Option<int>) {
    n.Some? && n.value != 0
  }

  /** `s || fallback` for a `string | null`. */
  function OrElse(s: Option<string>, fallback: string): (r: string)
    ensures Truthy(s) ==> r == s.value
    ensures !Truthy(s) ==> r == fallback
  {
    if Truthy(s) then s.value else fallback
  }

  /** `a || b` on two optional texts. */
  function Or(a: Option<string>, b: Option<string>): (r: Option<string>)
    ensures Truthy(a) ==> r == a
    ensures !Truthy(a) ==> r == b
  {
    if Truthy(a) then a else b
  }

  /** The first truthy text of a list, as a chain `xs[0] || xs[1] || ...`
      picks it; `None` when no entry is truthy. */
  function FirstSet(xs: seq<Option<string>>): (r: Option<string>)
    ensures r.None? <==> forall k :: 0 <= k < |xs| ==> !Truthy(xs[k])
    ensures r.Some? ==> Truthy(r)
    ensures r.Some? ==>
      exists i :: 0 <= i < |xs| && xs[i] == r && forall j :: 0 <= j < i ==> !Truthy(xs[j])
    decreases |xs|
  {
    if |xs| == 0 then None
    else if Truthy(xs[0]) then xs[0]
    else
      var r := FirstSet(xs[1..]);
      assert forall k :: 1 <= k < |xs| ==> xs[k] == xs[1..][k - 1];
      if r.Some? then
        var i :| 0 <= i < |xs[1..]| && xs[1..][i] == r && forall j :: 0 <= j < i ==> !Truthy(xs[1..][j]);
        assert xs[i + 1] == r;
        assert forall j :: 0 <= j < i + 1 ==> !Truthy(xs[j]) by {
          forall j | 0 < j < i + 1 ensures !Truthy(xs[j]) { assert xs[j] == xs[1..][j - 1]; }
        }
        r
      else r
  }

  /** `s || null` for a form string: the empty string becomes `null`. */
  function EmptyToNull(s: string): (r: Option<string>)
    ensures r.None? <==> s == ""
    ensures r.Some? ==> r.value == s
  {
    if s == "" then None else Some(s)
  }

  /** `s || ''` for a nullable column: `null` and `''` both load as `''`. */
  function NullToEmpty(s: Option<string>): (r: string)
    ensures r == "" <==> !Truthy(s)
    ensures s.Some? ==> r == s.value
  {
    if s.Some? then s.value else ""
  }
}

=== FILE: posts.dfy ===
/** The restaurant owner's posts screen: the post form (reset, loading a
    post for editing, validation and the update-or-insert decision), the
    active and pinned toggles, removal from the list and the colour of a
    post type. */
module Posts {
  import opened Optional
  import opened JsText
  import opened Lists

  /** A `restaurant_posts` row. */
  datatype Post = Post(
    id: string,
    restaurantId: string,
    title: string,
    content: string,
    postType: string,
    imageUrl: Option<string>,
    isActive: bool,
    isPinned: bool,
    scheduledAt: Option<string>,
    expiresAt: Option<string>)

  datatype PostForm = PostForm(
    title: string, content: string, postType: string, imageUrl: string,
    isActive: bool, isPinned: bool, scheduledAt: string, expiresAt: string)

  /** What the screen holds besides the list: the form, the post being
      edited and whether the form is shown. */
  datatype Editor = Editor(form: PostForm, editing: Option<Post>, showForm: bool)

  // ------------------------------------------------------------ the form

  /** `resetForm`. */
  function ResetForm(): (e: Editor)
    ensures e.form.postType == "announcement" && e.form.isActive && !e.form.isPinned
    ensures e.form.title == "" && e.form.content == "" && e.form.imageUrl == ""
    ensures e.form.scheduledAt == "" && e.form.expiresAt == ""
    ensures e.editing.None? && !e.showForm
  {
    Editor(PostForm("", "", "announcement", "", true, false, "", ""), None, false)
  }

  /** `value ? value.slice(0, 16) : ''`: the date and minute of a stored
      timestamp, for the form's text field. */
  function Minutes16(s: Option<string>): (r: string)
    ensures |r| <= 16
    ensures !Truthy(s) ==> r == ""
    ensures Truthy(s) ==> StartsWith(s.value, r) && (|s.value| >= 16 ==> |r| == 16) && (|s.value| < 16 ==> r == s.value)
  {
    if !Truthy(s) then "" else if |s.value| <= 16 then s.value else s.value[..16]
  }

  /** `handleEdit(post)`: the form shows the post, with missing texts as
      empty strings and the two timestamps cut to 16 characters. */
  function HandleEdit(post: Post): (e: Editor)
    ensures e.editing == Some(post) && e.showForm
    ensures e.form.title == post.title && e.form.content == post.content && e.form.postType == post.postType
    ensures e.form.isActive == post.isActive && e.form.isPinned == post.isPinned
    ensures e.form.imageUrl == NullToEmpty(post.imageUrl)
    ensures e.form.scheduledAt == Minutes16(post.scheduledAt) && e.form.expiresAt == Minutes16(post.expiresAt)
  {
    Editor(PostForm(post.title, post.content, post.postType, NullToEmpty(post.imageUrl), post.isActive,
                    post.isPinned, Minutes16(post.scheduledAt), Minutes16(post.expiresAt)),
           Some(post), true)
  }

  // ------------------------------------------------------------ saving

  datatype PostPayload = PostPayload(
    restaurantId: string, title: string, content: string, postType: string, imageUrl: Option<string>,
    isActive: bool, isPinned: bool, scheduledAt: Option<string>, expiresAt: Option<string>)

  datatype SavePost =
    | NoRestaurant
    | Invalid
    | Update(id: string, payload: PostPayload)
    | Insert(payload: PostPayload)

  function PostPayloadOf(form: PostForm, restaurantId: string): PostPayload {
    PostPayload(restaurantId, form.title, form.content, form.postType, EmptyToNull(form.imageUrl),
                form.isActive, form.isPinned, EmptyToNull(form.scheduledAt), EmptyToNull(form.expiresAt))
  }

  /** `onSave`: nothing without a restaurant, an error when the title or
      the content is blank, otherwise an update of the post being edited
      or an insert, with empty image and dates sent as `null`. */
  function SavePostAction(form: PostForm, editing: Option<Post>, restaurantId: Option<string>): (r: SavePost)
    ensures r == NoRestaurant <==> !Truthy(restaurantId)
    ensures r == Invalid <==> Truthy(restaurantId) && (Blank(form.title) || Blank(form.content))
    ensures r.Update? <==> Truthy(restaurantId) && !Blank(form.title) && !Blank(form.content) && editing.Some?
    ensures r.Update? ==> r.id == editing.value.id
    ensures r.Update? || r.Insert? ==>
      var p := r.payload;
      && p.restaurantId == restaurantId.value
      && p.title == form.title && p.content == form.content && p.postType == form.postType
      && p.isActive == form.isActive && p.isPinned == form.isPinned
      && p.imageUrl == EmptyToNull(form.imageUrl)
      && p.scheduledAt == EmptyToNull(form.scheduledAt) && p.expiresAt == EmptyToNull(form.expiresAt)
  {
    if !Truthy(restaurantId) then NoRestaurant
    else if Blank(form.title) || Blank(form.content) then Invalid
    else if editing.Some? then Update(editing.value.id, PostPayloadOf(form, restaurantId.value))
    else Insert(PostPayloadOf(form, restaurantId.value))
  }

  /** Opening a post for editing and saving the form unchanged updates that
      post with its own texts, flags and type; a missing or empty image is
      sent as `null`, and each timestamp is sent cut to its first 16
      characters (or `null` when it was missing or empty). */
  lemma {:induction false} EditThenSave(post: Post, restaurantId: string)
    requires restaurantId != "" && !Blank(post.title) && !Blank(post.content)
    ensures var e := HandleEdit(post);
      var r := SavePostAction(e.form, e.editing, Some(restaurantId));
      && r.Update? && r.id == post.id
      && r.payload.title == post.title && r.payload.content == post.content
      && r.payload.postType == post.postType
      && r.payload.isActive == post.isActive && r.payload.isPinned == post.isPinned
      && r.payload.imageUrl == (if Truthy(post.imageUrl) then post.imageUrl else None)
      && (Truthy(post.scheduledAt) <==> r.payload.scheduledAt.Some?)
      && (r.payload.scheduledAt.Some? ==> StartsWith(post.scheduledAt.value, r.payload.scheduledAt.value))
  {
    var e := HandleEdit(post);
    if Truthy(post.scheduledAt) {
      var s := post.scheduledAt.value;
      assert Minutes16(post.scheduledAt) != "" by {
        if |s| > 16 { assert Minutes16(post.scheduledAt)[0] == s[0]; }
      }
    }
  }

  // ------------------------------------------------------------ the list

  function PostId(p: Post): string {
    p.id
  }

  function FlipActive(p: Post): Post {
    p.(isActive := !p.isActive)
  }

  function FlipPinned(p: Post): Post {
    p.(isPinned := !p.isPinned)
  }

  /** `toggleActive(post)`: after a successful update the posts with that
      id have `is_active` flipped; on failure the list is kept. */
  function ToggleActive(posts: seq<Post>, id: string, ok: bool): (r: seq<Post>)
    ensures |r| == |posts|
    ensures forall k :: 0 <= k < |posts| ==>
      if ok && posts[k].id == id then r[k] == posts[k].(isActive := !posts[k].isActive) else r[k] == posts[k]
  {
    if ok then UpdateWhere(posts, KeyIs(PostId, id), FlipActive) else posts
  }

  /** `togglePinned(post)`, likewise for `is_pinned`. */
  function TogglePinned(posts: seq<Post>, id: string, ok: bool): (r: seq<Post>)
    ensures |r| == |posts|
    ensures forall k :: 0 <= k < |posts| ==>
      if ok && posts[k].id == id then r[k] == posts[k].(isPinned := !posts[k].isPinned) else r[k] == posts[k]
  {
    if ok then UpdateWhere(posts, KeyIs(PostId, id), FlipPinned) else posts
  }

  lemma {:induction false} ToggleActiveTwice(posts: seq<Post>, id: string)
    ensures ToggleActive(ToggleActive(posts, id, true), id, true) == posts
  {
    UpdateWhereTwice(posts, KeyIs(PostId, id), FlipActive);
  }

  lemma {:induction false} TogglePinnedTwice(posts: seq<Post>, id: string)
    ensures TogglePinned(TogglePinned(posts, id, true), id, true) == posts
  {
    UpdateWhereTwice(posts, KeyIs(PostId, id), FlipPinned);
  }

  /** `posts.filter(p => p.id !== postId)` after a successful delete. */
  function DeletePost(posts: seq<Post>, postId: string): (r: seq<Post>)
    ensures forall k :: 0 <= k < |r| ==> r[k].id != postId
  {
    RemoveKey(posts, PostId, postId)
  }

  lemma {:induction false} DeletePostKeeps(posts: seq<Post>, postId: string, p: Post)
    ensures IsSubsequence(DeletePost(posts, postId), posts)
    ensures p in DeletePost(posts, postId) <==> p in posts && p.id != postId
  {
    RemoveKeyKeeps(posts, PostId, postId, p);
  }

  // ------------------------------------------------------------ colours

  /** The six post types with a colour of their own. */
  const PostTypeColors: seq<(string, string)> := [
    ("announcement", "#2196F3"), ("deal", "#4CAF50"), ("promotion", "#9C27B0"),
    ("news", "#FF9800"), ("event", "#F44336"), ("menu_update", "#FFC107")]

  predicate KnownPostType(postType: string) {
    postType in {"announcement", "deal", "promotion", "news", "event", "menu_update"}
  }

  /** `getPostTypeColor`: `colors[type] || '#757575'`. */
  function PostTypeColor(postType: string): (color: string)
    ensures color == "#757575" <==> !KnownPostType(postType)
  {
    if postType == "announcement" then "#2196F3"
    else if postType == "deal" then "#4CAF50"
    else if postType == "promotion" then "#9C27B0"
    else if postType == "news" then "#FF9800"
    else if postType == "event" then "#F44336"
    else if postType == "menu_update" then "#FFC107"
    else "#757575"
  }

  /** Each of the six types gets its colour from the table. */
  lemma {:induction false} PostTypeColorTable(i: int)
    requires 0 <= i < |PostTypeColors|
    ensures KnownPostType(PostTypeColors[i].0) && PostTypeColor(PostTypeColors[i].0) == PostTypeColors[i].1
  {
  }

  /** The six colours are pairwise distinct, so every type is told apart
      from the others. */
  lemma {:induction false} PostTypeColorsDistinct(i: int, j: int)
    requires 0 <= i < j < |PostTypeColors|
    ensures PostTypeColors[i].1 != PostTypeColors[j].1
    ensures PostTypeColors[i].1 != "#757575"
  {
  }

  /** A reset form is refused until a title and content are typed, and the
      next save would insert rather than update. */
  lemma {:induction false} ResetFormRejected(restaurantId: string)
    requires restaurantId != ""
    ensures var e := ResetForm();
      SavePostAction(e.form, e.editing, Some(restaurantId)) == Invalid
    ensures var e := ResetForm();
      forall title, content | !Blank(title) && !Blank(content) ::
        SavePostAction(e.form.(title := title, content := content), e.editing, Some(restaurantId)).Insert?
  {
    assert Blank("") by { assert Trim("") == ""; }
  }
}

=== FILE: profile.dfy ===
/** The profile screen: the four notification switches, the favourites
    count and the name shown for the signed-in user. */
module Profile {
  import opened Optional
  import opened JsText

  datatype SettingKey = PushNotifications | SmsNotifications | EmailNotifications | LocationTracking

  datatype Settings = Settings(push: bool, sms: bool, email: bool, location: bool)

  /** Push on, text messages off, email off, location on. */
  const InitialSettings: Settings := Settings(true, false, false, true)

  function Setting(s: Settings, key: SettingKey): bool {
    match key
    case PushNotifications => s.push
    case SmsNotifications => s.sms
    case EmailNotifications => s.email
    case LocationTracking => s.location
  }

  /** A switch's `onValueChange`: that setting flips and the others keep
      their value. */
  function ToggleSetting(s: Settings, key: SettingKey): (r: Settings)
    ensures Setting(r, key) == !Setting(s, key)
    ensures forall other: SettingKey :: other != key ==> Setting(r, other) == Setting(s, other)
  {
    match key
    case PushNotifications => s.(push := !s.push)
    case SmsNotifications => s.(sms := !s.sms)
    case EmailNotifications => s.(email := !s.email)
    case LocationTracking => s.(location := !s.location)
  }

  /** Two flips of the same switch restore the settings. */
  lemma {:induction false} ToggleSettingTwice(s: Settings, key: SettingKey)
    ensures ToggleSetting(ToggleSetting(s, key), key) == s
  {
  }

  /** `favoriteRows?.length || 0` for a signed-in user; a failed lookup
      throws before the count is set, and without a user it is not
      touched. */
  function FavoritesCount(previous: int, signedIn: bool, rows: Option<seq<string>>, failed: bool): (n: int)
    ensures !signedIn || failed ==> n == previous
    ensures signedIn && !failed && rows.Some? ==> n == |rows.value|
    ensures signedIn && !failed && rows.None? ==> n == 0
  {
    if !signedIn || failed then previous
    else match rows
      case Some(r) => |r|
      case None => 0
  }

  /** The name line: ` <first>` and ` <last>` for the names that are set,
      `User` when neither is. */
  function DisplayName(firstName: Option<string>, lastName: Option<string>): (text: string)
    ensures text == "User" <==> !Truthy(firstName) && !Truthy(lastName)
    ensures Truthy(firstName) ==> StartsWith(text, " " + firstName.value)
    ensures Truthy(firstName) ==>
      text == " " + firstName.value + (if Truthy(lastName) then " " + lastName.value else "")
    ensures !Truthy(firstName) && Truthy(lastName) ==> text == " " + lastName.value
  {
    var first := if Truthy(firstName) then " " + firstName.value else "";
    var last := if Truthy(lastName) then " " + lastName.value else "";
    var user := if !Truthy(firstName) && !Truthy(lastName) then "User" else "";
    var text := first + last + user;
    assert Truthy(firstName) || Truthy(lastName) ==> text[0] == ' ';
    assert Truthy(firstName) ==> text[..|first|] == first;
    text
  }

  /** With both names set and neither holding a space, the name line
      splits at its spaces into a leading empty piece and the two names. */
  lemma {:induction false} DisplayNameWords(first: string, last: string)
    requires first != "" && last != ""
    requires ' ' !in first && ' ' !in last
    ensures Split(DisplayName(Some(first), Some(last)), ' ') == ["", first, last]
  {
    var parts := ["", first, last];
    assert Join(parts[2..], " ") == last;
    assert Join(parts[1..], " ") == first + " " + last;
    assert Join(parts, " ") == "" + " " + (first + " " + last);
    assert DisplayName(Some(first), Some(last)) == Join(parts, " ");
    SplitJoin(parts, ' ');
  }

  /** A successful reload for a signed-in user sets the count to the
      number of favourite rows whatever it was before, and a failed or
      signed-out reload leaves it alone however often it runs. */
  lemma {:induction false} FavoritesCountLastLoadWins(previous: int, other: int, signedIn: bool,
                                                      rows: Option<seq<string>>, failed: bool)
    ensures FavoritesCount(previous, true, rows, false) == FavoritesCount(other, true, rows, false) >= 0
    ensures !signedIn || failed ==>
      FavoritesCount(FavoritesCount(previous, signedIn, rows, failed), signedIn, rows, failed) == previous
  {
  }
}

=== FILE: qr_scanner.dfy ===
/** The QR scanner screen: which view is shown for the camera permission,
    how a scanned code is read as a restaurant link, the `scanned` flag
    that pauses the scanner while an alert is open, and the manual code
    entry. */
module QRScanner {
  import opened Optional
  import opened JsText

  /** The link scheme a restaurant's code carries. */
  const RestaurantLink: string := "thathappyhour://restaurant/"

  // ------------------------------------------------------------ the view

  datatype View = RequestingPermission | NotAvailable | PermissionRequired | Camera

  /** The rendered view: waiting while the permission is unknown, the
      fallback (with manual entry) when the scanner module is missing or
      the permission was refused, the camera otherwise. */
  function ViewFor(scannerAvailable: bool, hasPermission: Option<bool>): (v: View)
    ensures v == RequestingPermission <==> hasPermission.None?
    ensures v == Camera <==> scannerAvailable && hasPermission == Some(true)
    ensures v == NotAvailable <==> hasPermission.Some? && !scannerAvailable
    ensures v == PermissionRequired <==> scannerAvailable && hasPermission == Some(false)
  {
    match hasPermission
    case None => RequestingPermission
    case Some(granted) =>
      if !scannerAvailable then NotAvailable
      else if !granted then PermissionRequired
      else Camera
  }

  // ------------------------------------------------------------ scanning

  datatype Alert = NoAlert | RestaurantFound(restaurantId: string) | InvalidCode | Followed

  /** The scanner's state: the `scanned` flag, the alert on screen and
      whether the screen has gone back. */
  datatype Scanner = Scanner(scanned: bool, alert: Alert, wentBack: bool)

  const InitialScanner: Scanner := Scanner(false, NoAlert, false)

  /** The code read from the payload of a scan: the restaurant id after
      the link prefix, or `None` for a foreign code. */
  function RestaurantIdOf(data: string): (r: Option<string>)
    ensures r.Some? <==> StartsWith(data, RestaurantLink)
    ensures r.Some? ==> RestaurantLink + r.value == data
  {
    if StartsWith(data, RestaurantLink) then
      ReplaceLeadingPrefix(data, RestaurantLink);
      Some(ReplaceFirst(data, RestaurantLink, ""))
    else None
  }

  /** A link built from an id reads back as that id. */
  lemma {:induction false} RestaurantLinkRoundTrip(id: string)
    ensures RestaurantIdOf(RestaurantLink + id) == Some(id)
  {
    var data := RestaurantLink + id;
    assert StartsWith(data, RestaurantLink) by {
      assert data[..|RestaurantLink|] == RestaurantLink;
    }
    assert RestaurantLink + RestaurantIdOf(data).value == RestaurantLink + id;
    assert RestaurantIdOf(data).value == (RestaurantLink + RestaurantIdOf(data).value)[|RestaurantLink|..];
  }

  /** `handleBarCodeScanned`, which the scanner only calls while `scanned`
      is off: the flag goes on and the matching alert opens. */
  function Scan(s: Scanner, data: string): (r: Scanner)
    ensures s.scanned ==> r == s
    ensures !s.scanned ==> r.scanned && r.wentBack == s.wentBack
    ensures !s.scanned && StartsWith(data, RestaurantLink) ==>
      r.alert.RestaurantFound? && RestaurantLink + r.alert.restaurantId == data
    ensures !s.scanned && !StartsWith(data, RestaurantLink) ==> r.alert == InvalidCode
  {
    if s.scanned then s
    else
      match RestaurantIdOf(data)
      case Some(id) => Scanner(true, RestaurantFound(id), s.wentBack)
      case None => Scanner(true, InvalidCode, s.wentBack)
  }

  datatype Press = Cancel | Follow | Ok

  /** A button pressed on the open alert: `Cancel` on a found restaurant
      and `OK` on an invalid code resume scanning; `Follow` shows the
      success alert, whose `OK` goes back. Other presses do nothing. */
  function PressButton(s: Scanner, b: Press): (r: Scanner)
    ensures (s.alert.RestaurantFound? && b == Cancel) || (s.alert == InvalidCode && b == Ok) ==>
      r == Scanner(false, NoAlert, s.wentBack)
    ensures s.alert.RestaurantFound? && b == Follow ==> r == s.(alert := Followed)
    ensures s.alert == Followed && b == Ok ==> r.wentBack && r.alert == NoAlert
    ensures r.scanned != s.scanned ==> !r.scanned && r.alert == NoAlert
  {
    match (s.alert, b)
    case (RestaurantFound(_), Cancel) => Scanner(false, NoAlert, s.wentBack)
    case (RestaurantFound(_), Follow) => s.(alert := Followed)
    case (InvalidCode, Ok) => Scanner(false, NoAlert, s.wentBack)
    case (Followed, Ok) => s.(alert := NoAlert, wentBack := true)
    case _ => s
  }

  /** While an alert is open the scanner is paused: a second scan changes
      nothing until a button clears the flag. */
  lemma {:induction false} ScanPausedWhileAlertOpen(s: Scanner, first: string, second: string)
    requires !s.scanned
    ensures Scan(Scan(s, first), second) == Scan(s, first)
  {
  }

  /** Scanning a foreign code and pressing `OK` returns to scanning with
      nothing else changed. */
  lemma {:induction false} InvalidThenOk(s: Scanner, data: string)
    requires !s.scanned && !StartsWith(data, RestaurantLink)
    ensures PressButton(Scan(s, data), Ok) == s.(alert := NoAlert)
  {
  }

  // ------------------------------------------------------------ manual entry

  /** The prompt's `Follow` succeeds when the code is given and not blank. */
  function ManualCodeAccepted(code: Option<string>): (ok: bool)
    ensures ok <==> code.Some? && !AllSpace(code.value)
  {
    BlankIff(if code.Some? then code.value else "");
    Truthy(code) && !Blank(code.value)
  }
}

=== FILE: restaurant_detail.dfy ===
/** The restaurant detail screen: the follow and notification switches and
    the labels of a promotion (its discount, its remaining time) and of a
    price level. The time remaining is computed from the difference in
    milliseconds between the end time and now, which is a parameter. */
module RestaurantDetail {
  import opened Optional
  import opened JsText

  /** A promotion with an integer discount value. */
  datatype Promotion = Promotion(id: string, title: string, discountType: string, discountValue: int)

  /** The two switches of the screen. */
  datatype Switches = Switches(isFollowing: bool, notificationsEnabled: bool)

  /** The switches when the screen opens. */
  const InitialSwitches: Switches := Switches(false, true)

  // ------------------------------------------------------------ switches

  /** `toggleFollow`: the follow flag flips, and the alert title tells the
      state the user left. */
  function ToggleFollow(s: Switches): (r: (Switches, string))
    ensures r.0.isFollowing == !s.isFollowing && r.0.notificationsEnabled == s.notificationsEnabled
    ensures r.1 == "Unfollowed" <==> s.isFollowing
    ensures r.1 == "Following!" <==> !s.isFollowing
  {
    (s.(isFollowing := !s.isFollowing), if s.isFollowing then "Unfollowed" else "Following!")
  }

  /** `toggleNotifications`: refused with an alert while not following,
      otherwise the notification flag flips. */
  function ToggleNotifications(s: Switches): (r: (Switches, Option<string>))
    ensures !s.isFollowing ==> r == (s, Some("Follow Required"))
    ensures s.isFollowing ==> (r.1.None? && r.0.isFollowing
      && r.0.notificationsEnabled == !s.notificationsEnabled)
  {
    if !s.isFollowing then (s, Some("Follow Required"))
    else (s.(notificationsEnabled := !s.notificationsEnabled), None)
  }

  /** Either switch pressed twice restores the switches. */
  lemma {:induction false} TogglesTwice(s: Switches)
    ensures ToggleFollow(ToggleFollow(s).0).0 == s
    ensures ToggleNotifications(ToggleNotifications(s).0).0 == s
  {
  }

  // ------------------------------------------------------------ labels

  /** `formatDiscountText`. */
  function FormatDiscountText(p: Promotion): (text: string)
    ensures p.discountType == "percentage" ==> text == IntToString(p.discountValue) + "% OFF"
    ensures p.discountType == "fixed_amount" ==> text == "$" + IntToString(p.discountValue)
    ensures p.discountType == "bogo" ==> text == "BOGO"
    ensures p.discountType !in {"percentage", "fixed_amount", "bogo"} ==> text == "DEAL"
  {
    match p.discountType
    case "percentage" => IntToString(p.discountValue) + "% OFF"
    case "fixed_amount" => "$" + IntToString(p.discountValue)
    case "bogo" => "BOGO"
    case _ => "DEAL"
  }

  /** `getPriceRangeText`. */
  function PriceRangeText(range: Option<int>): (text: string)
    ensures range.Some? && 1 <= range.value <= 4 ==>
      |text| == range.value && forall k :: 0 <= k < |text| ==> text[k] == '$'
    ensures !(range.Some? && 1 <= range.value <= 4) ==> text == "N/A"
  {
    if range == Some(1) then "$"
    else if range == Some(2) then "$$"
    else if range == Some(3) then "$$$"
    else if range == Some(4) then "$$$$"
    else "N/A"
  }

  const MsPerHour: int := 1000 * 60 * 60
  const MsPerMinute: int := 1000 * 60

  /** `Math.floor(diff / (1000 * 60 * 60))`. For a positive divisor the
      Euclidean division is the floor. */
  function HoursLeft(diff: int): int {
    diff / MsPerHour
  }

  /** `Math.floor((diff % (1000 * 60 * 60)) / (1000 * 60))`, with the
      truncating JavaScript remainder. */
  function MinutesLeft(diff: int): int {
    JsRem(diff, MsPerHour) / MsPerMinute
  }

  /** `formatTimeRemaining`: `Xh Ym left` while at least an hour remains,
      `Ym left` otherwise. */
  function FormatTimeRemaining(diff: int): (text: string)
    ensures HoursLeft(diff) > 0 ==>
      text == IntToString(HoursLeft(diff)) + "h " + IntToString(MinutesLeft(diff)) + "m left"
    ensures HoursLeft(diff) <= 0 ==> text == IntToString(MinutesLeft(diff)) + "m left"
  {
    var hours := HoursLeft(diff);
    var minutes := MinutesLeft(diff);
    if hours > 0 then IntToString(hours) + "h " + IntToString(minutes) + "m left"
    else IntToString(minutes) + "m left"
  }

  /** For a difference of zero or more: the minutes are 0 to 59, hours
      and minutes together are the whole minutes of the difference, and
      the text names hours (contains an `h`) exactly when an hour or more
      remains. */
  lemma {:induction false} TimeRemainingSplit(diff: int)
    requires diff >= 0
    ensures 0 <= MinutesLeft(diff) < 60
    ensures HoursLeft(diff) * 60 + MinutesLeft(diff) == diff / MsPerMinute
    ensures 'h' in FormatTimeRemaining(diff) <==> HoursLeft(diff) > 0
  {
    var h := HoursLeft(diff);
    var rem := diff % MsPerHour;
    var m := rem / MsPerMinute;
    assert diff == h * MsPerHour + rem;
    assert rem == m * MsPerMinute + rem % MsPerMinute;
    assert diff == (h * 60 + m) * MsPerMinute + rem % MsPerMinute;
    MinutesUnique(diff, h * 60 + m, rem % MsPerMinute);
    NoLetterInDigits(IntToString(m));
    if h > 0 {
      NoLetterInDigits(IntToString(h));
      var text := IntToString(h) + "h " + IntToString(m) + "m left";
      assert text[|IntToString(h)|] == 'h';
    } else {
      var text := IntToString(m) + "m left";
      assert text == IntToString(m) + "m left";
      assert forall k | 0 <= k < |text| :: text[k] != 'h' by {
        forall k | 0 <= k < |text| ensures text[k] != 'h' {
          if k < |IntToString(m)| { assert text[k] == IntToString(m)[k]; }
          else { assert text[k] == "m left"[k - |IntToString(m)|]; }
        }
      }
    }
  }

  /** For a promotion already over (a negative difference): the hour is
      negative, so no hours are shown, and the minutes, taken from the
      truncating remainder and then floored, lie between -60 and 0; ninety
      minutes past the end reads "-30m left". */
  lemma {:induction false} TimeRemainingExpired(diff: int)
    requires diff < 0
    ensures HoursLeft(diff) < 0
    ensures -60 <= MinutesLeft(diff) <= 0
    ensures FormatTimeRemaining(diff) == IntToString(MinutesLeft(diff)) + "m left"
    ensures FormatTimeRemaining(-90 * MsPerMinute) == "-30m left"
  {
    var rem := JsRem(diff, MsPerHour);
    assert -MsPerHour < rem <= 0;
    assert -60 * MsPerMinute < rem;
    assert MinutesLeft(diff) == rem / MsPerMinute;
    var x := -90 * MsPerMinute;
    assert JsRem(x, MsPerHour) == -30 * MsPerMinute;
    assert MinutesLeft(x) == -30;
    assert HoursLeft(x) == -2;
    assert IntToString(-30) == "-" + NatToString(30);
    assert NatToString(30) == "30";
  }

  lemma {:induction false} MinutesUnique(x: int, q: int, r: int)
    requires 0 <= r < MsPerMinute && x == q * MsPerMinute + r
    ensures x / MsPerMinute == q
  {
  }

  lemma {:induction false} NoLetterInDigits(s: string)
    requires AllDigits(s)
    ensures 'h' !in s
  {
    assert forall k :: 0 <= k < |s| ==> s[k] != 'h';
  }

  /** The amount in a percentage or fixed-amount label reads back, with
      `Number`, as the promotion's discount value. */
  lemma {:induction false} DiscountTextReadsBack(p: Promotion)
    ensures var text := FormatDiscountText(p);
      p.discountType == "percentage" ==>
        |text| > 5 && text[|text| - 5..] == "% OFF" && NumberOf(text[..|text| - 5]) == Some(p.discountValue)
    ensures var text := FormatDiscountText(p);
      p.discountType == "fixed_amount" ==>
        |text| > 1 && text[0] == '$' && NumberOf(text[1..]) == Some(p.discountValue)
  {
    var amount := IntToString(p.discountValue);
    NumberOfIntToString(p.discountValue);
    if p.discountType == "percentage" {
      var text := amount + "% OFF";
      assert text[..|text| - 5] == amount;
    } else if p.discountType == "fixed_amount" {
      var text := "$" + amount;
      assert text[1..] == amount;
    }
  }
}
